=== FILE: README.md ===
# Task tracker core, modelled in Dafny

This project models the rule layer of a task-tracking backend written in Python. That layer sits under the HTTP routes and the ORM. It has these parts:

- **Tags.** Tag names are normalised: trimmed, blanks dropped, capped at 100 characters, and deduplicated case-insensitively. Each name is then resolved against a tag table keyed by exact name.
- **Tasks.** Tasks can be created, read, listed, updated and deleted, with owner-only access. A task that is `DONE` stays done. An update records only the fields that really change. Every write records an audit event.
- **Task queries.** The repository lists tasks by filtering, sorting and paging them. It also lists the tasks due within a time window.
- **Reminder sweep.** The sweep gives each task due soon at most one `DUE_SOON` log and one `REMINDER_SENT` event. Each write's failure is an input to the model, taken one write at a time, and the sweep counts the tasks whose two writes succeeded.
- **Attachments.** Uploads are checked in order:
  - the task exists and the user owns it;
  - the filename is sanitised;
  - the extension is checked against a deny-list and an allow-list;
  - the filename length is checked;
  - the content type is checked;
  - the size is checked;
  - the task's attachment count is checked.

  Attachments can also be read, listed and deleted. A failure to delete the stored file is ignored.
- **Chat to task.** The rule-based interpreter collapses whitespace, searches four case-insensitive patterns in order, and cleans the captured title. The chat service adds an emptiness check, a safety check, and a primary interpreter whose result takes priority over the rule-based one.

## How it is modelled

- **The database** is one immutable `World` value:
  - the task rows, in table order;
  - the tag table, as a map from exact name to id;
  - the audit trail;
  - the reminder logs;
  - the attachment rows;
  - the set of files in storage;
  - a counter that supplies fresh ids in place of `uuid4`.

  Deleting a row applies the schema's `ON DELETE` rules: cascade to attachments and reminder logs, and `SET NULL` on audit references.
- **Each service operation** is a pure function from the world and the request to a `Result`. The result holds either the new world and the returned value, or the typed error the Python code raises.
- **Inputs instead of calls.** Things the code obtains from outside become parameters:
  - `now`;
  - the random storage token;
  - what the safety checker does: no checker, a verdict, or an exception;
  - the primary interpreter's outcome;
  - whether each reminder write or storage deletion raises.

The modules follow the source files:

| module | models |
|---|---|
| `Text` | Python's `str.strip` (full `str.isspace` set), ASCII `lower`, and `" ".join(s.split())` |
| `Entities` | the `Task` and `Attachment` methods |
| `TagRepository`, `TagService` | the tag table and the tag service |
| `Database` | the tables and their delete cascades |
| `TaskRepository` | `create`, `get_by_id`, `update`, `delete`, `list`, `list_due_between` |
| `TaskService` | the task service |
| `ReminderService` | the reminder sweep |
| `AttachmentService` | the attachment service, with POSIX `pathlib` semantics for `Path.name` and `Path.suffix` |
| `ChatInterpreter` | the rule-based interpreter |
| `ChatService` | the chat service |
| `Results`, `Seqs` | shared `Option`/`Result`/error types and sequence helpers |

Points of the code's behaviour that the model keeps as they are:

- `create_task` rejects an empty or over-long title with Python's `ValueError`, not with a validation error.
- The 500-character limit applies to the title before it is stripped.
- `list_tasks` returns what the repository's `list` gives. With a tag filter, that total counts joined rows, not tasks, and pages can repeat a task (`TaskService.ListTasks`, finding 3 below). `TaskService.ListTasksCorrected` is the listing over distinct tasks.
- Tag names are matched exactly by the store but deduplicated by lower case in the service. So a request for "work" when "Work" is stored creates a second tag (`TagService.CaseVariantIsCreatedAgain`). It does not reuse the stored one.
- `update_task` stores the resolved `Tag` entities in the task. The repository's update then binds each entity as a tag name, so every update that asks for at least one tag fails (`TaskService.UpdateTaskAsWritten`, finding 1 below). `TaskService.UpdateTask` is the update that compares and stores names.
- `_sanitize_filename` applies NFKC after it takes the basename, so the result can still contain a directory separator. `upload_attachment` checks and records that name (`AttachmentService.UploadAttachment`, finding 2 below). `AttachmentService.UploadAttachmentCorrected` normalises first.
- `Path(...).suffix` is taken from the path's last component, so the extension check and the storage name never contain a `/`.

## Model

All source paths are relative to the repository root.

| member | source | states |
|---|---|---|
| Text.StripEmptyIffBlank | backend/src/domain/services/task_service.py:52 | `title.strip()` is empty exactly when every character of the title is whitespace |
| Text.CollapseNormalises | backend/src/domain/services/chat_interpreter.py:34 | the normalised message has no whitespace at either end and only single spaces inside; normalising it again changes nothing |
| Text.WordsOfJoin | backend/src/domain/services/chat_service.py:56 | `split()` recovers the word list that `" ".join` put together |
| Text.CollapseEmptyIffStripEmpty | backend/src/domain/services/chat_service.py:46 | the normalised message is empty exactly when the stripped message is empty |
| Entities.MarkAsDone | backend/src/domain/entities.py:59-62 | the status becomes DONE, `updated_at` becomes now, and no other field changes |
| Entities.MarkAsInProgress | backend/src/domain/entities.py:64-67 | the status becomes IN_PROGRESS, `updated_at` becomes now, and no other field changes |
| Entities.AddTag | backend/src/domain/entities.py:69-75 | returns true exactly when the tag was absent; afterwards the tag is present; on true the tag is appended and `updated_at` set, on false the task is unchanged |
| Entities.RemoveFirst | backend/src/domain/entities.py:80 | `list.remove` drops exactly one occurrence: the result is one shorter and its multiset is the input's minus that element |
| Entities.RemoveTag | backend/src/domain/entities.py:77-83 | returns true exactly when the tag is present; on true the first occurrence is removed and `updated_at` set, on false the task is unchanged |
| Entities.AddTagKeepsTagsDistinct | backend/src/domain/entities.py:69-75 | `add_tag` never introduces a duplicate into a duplicate-free tag list |
| Entities.AddThenRemoveTagRestoresTags | backend/src/domain/entities.py:69-83 | adding an absent tag and removing it again restores the tag list |
| Entities.OverdueCharacterisation | backend/src/domain/entities.py:45-49 | no due date means not overdue; otherwise overdue exactly when now is after the due date and the task is not DONE; a done task is never overdue, and an overdue task stays overdue later |
| Entities.ImageAndDocumentDisjoint | backend/src/domain/entities.py:113-128 | no attachment is classified as both an image and a document |
| TagRepository.GetOrCreate | backend/src/infrastructure/repositories/tag_repository.py:16-26 | returns the tag stored under exactly this name; a stored name leaves the table unchanged, a new one is inserted with an id no other name has |
| TagRepository.GetByNames | backend/src/infrastructure/repositories/tag_repository.py:28-36 | the result is exactly the stored tags whose name is one of the names; an empty name list gives nothing |
| TagRepository.DistinctNamesGetDistinctIds | backend/src/infrastructure/repositories/tag_repository.py:16-26 | two different names resolved one after the other get different ids |
| TagRepository.CreateAllExisting | backend/src/infrastructure/repositories/task_repository.py:47-56 | resolving names that are all stored already changes nothing |
| TagService.Normalize | backend/src/domain/services/tag_service.py:14-37 | `None` gives `[]`; it fails exactly when some entry strips to more than 100 characters; otherwise the result is the first spelling of each lower-case form among the stripped non-blank entries, in input order, and every result is stripped, non-empty and at most 100 characters |
| TagService.LoopReference | backend/src/domain/services/tag_service.py:21-35 | the loop with its `seen_tags` set computes exactly the reference definition (error if any entry is overlong, else the first spellings) |
| TagService.FirstSpellingsDistinct | backend/src/domain/services/tag_service.py:32-35 | no two kept names share a lower-case form |
| TagService.FirstSpellingsKeepFirstSeen | backend/src/domain/services/tag_service.py:32-35 | every kept name is an input whose lower-case form occurs at no earlier position |
| TagService.FirstSpellingsOfDistinct | backend/src/domain/services/tag_service.py:32-35 | a list whose lower-case forms are already distinct is kept whole |
| TagService.NormalizeKeepsFirstSeen | backend/src/domain/services/tag_service.py:21-35 | each output is the first spelling of its lower-case form among the stripped entries, and every lower-case form among them is represented |
| TagService.NormalizeNoLonger | backend/src/domain/services/tag_service.py:21-37 | the output is never longer than the stripped non-blank entries, which are never more than the input entries |
| TagService.CleanedAreTagNames | backend/src/domain/services/tag_service.py:21-30 | without an overlong entry, every stripped non-blank entry is a valid tag name |
| TagService.NormalizeIdempotent | backend/src/domain/services/tag_service.py:14-37 | normalising an already normalised list returns it unchanged |
| TagService.LowerIndex | backend/src/domain/services/tag_service.py:45-47 | the `existing` index holds a name's lower-case form exactly when the store holds that exact name, mapped to the stored tag |
| TagService.ResolveEach | backend/src/domain/services/tag_service.py:50-56 | the loop yields exactly one tag per name |
| TagService.ResolveEachSpec | backend/src/domain/services/tag_service.py:45-58 | with an index that agrees with the store, each name gets the stored tag if present and otherwise a newly created one, in order |
| TagService.EnsureTagsExist | backend/src/domain/services/tag_service.py:39-58 | fails exactly when normalisation fails; otherwise one tag per normalised name in order, carrying that name; stored names keep their ids; exactly the absent names are created |
| TagService.EnsureTagsExistStable | backend/src/domain/services/tag_service.py:39-58 | resolving keeps every stored tag and the table's validity; resolving the same names again creates nothing and returns the same tags |
| TagService.CaseVariantIsCreatedAgain | backend/src/domain/services/tag_service.py:45-56 | with "Work" stored, a request for "work" creates a second tag with a different id, because the batch fetch matches exact names |
| TagService.GetTagsByNames | backend/src/domain/services/tag_service.py:60-66 | fails exactly when normalisation fails; otherwise the stored tags whose exact name is a normalised name |
| Database.DeleteTaskRow | backend/src/infrastructure/database/models.py:69-75 | deleting a task removes it with its attachments and reminder logs; audit events stay, each with its references kept or cleared, and none still refers to the task |
| Database.DeleteAttachmentRow | backend/src/infrastructure/database/models.py:115-123 | deleting an attachment keeps every audit event, clearing any reference to that attachment and nothing else |
| TaskRepository.Create | backend/src/infrastructure/repositories/task_repository.py:30-61 | the row is appended, each tag name is found or inserted in the tag table, and nothing else changes |
| TaskRepository.GetById | backend/src/infrastructure/repositories/task_repository.py:63-69 | a task is found exactly when a row with that id exists, and it is that row |
| TaskRepository.Update | backend/src/infrastructure/repositories/task_repository.py:166-198 | a missing id is a `ValueError`; otherwise only that row changes, taking the entity's fields but keeping its id, owner and creation time, and the entity's tag names are found or inserted in the tag table |
| TaskRepository.UpdateThenGet | backend/src/infrastructure/repositories/task_repository.py:166-198 | after an update of a stored task, reading it back gives the merged row |
| TaskRepository.Delete | backend/src/infrastructure/repositories/task_repository.py:200-207 | a missing id changes nothing; otherwise the row is deleted with its cascades; either way no row has the id afterwards |
| TaskRepository.DeleteThenGet | backend/src/infrastructure/repositories/task_repository.py:200-207 | a deleted task cannot be read back |
| TaskRepository.ListDueBetween | backend/src/infrastructure/repositories/task_repository.py:145-164 | exactly the tasks with a due date in the closed window that are not DONE, each as often as in the table |
| TaskRepository.CountIsFilterLength | backend/src/infrastructure/repositories/task_repository.py:118-125 | counting the rows that satisfy the WHERE clause gives the length of the filtered table |
| TaskRepository.SortFieldNamed | backend/src/infrastructure/repositories/task_repository.py:127-128 | a sort column is chosen exactly for the six allowed names |
| TaskRepository.Ordering | backend/src/infrastructure/repositories/task_repository.py:127-134 | an unknown column sorts by creation time, newest first; a known one sorts descending exactly when the order lower-cases to "desc" |
| TaskRepository.BeforeTotal | backend/src/infrastructure/repositories/task_repository.py:127-134 | the ORDER BY relation is total on every column, in both directions |
| TaskRepository.BeforeTransitive | backend/src/infrastructure/repositories/task_repository.py:127-134 | the ORDER BY relation is transitive, so it can be sorted by |
| TaskRepository.Sort | backend/src/infrastructure/repositories/task_repository.py:127-134 | sorting permutes the rows |
| TaskRepository.SortSorted | backend/src/infrastructure/repositories/task_repository.py:127-134 | the sorted rows are in the requested order |
| TaskRepository.Page | backend/src/infrastructure/repositories/task_repository.py:136-137 | `OFFSET`/`LIMIT` give the rows from the offset on, at most the limit, in order |
| TaskRepository.PagesTile | backend/src/infrastructure/repositories/task_repository.py:136-137 | over one fixed ordering, position `i` of the result is item `i % size` of page `i / size + 1` |
| TaskRepository.PagePositionUnique | backend/src/infrastructure/repositories/task_repository.py:136-137 | over one fixed ordering, no other page and index hold position `i`, so each position is on exactly one page |
| TaskRepository.Matching | backend/src/infrastructure/repositories/task_repository.py:88-116 | the rows satisfying the WHERE clause, each as often as in the table, and as many as the count |
| TaskRepository.Ordered | backend/src/infrastructure/repositories/task_repository.py:86-134 | the matching rows in the requested order, as a permutation of them |
| TaskRepository.List | backend/src/infrastructure/repositories/task_repository.py:71-143 | the page is the block of the ordered matching tasks that starts at the offset, so it holds only matching tasks, in order, and its length follows from the count, offset and page size; the total is the number of matching tasks; a first page as large as the count holds all matching tasks |
| TaskRepository.Unique | backend/src/infrastructure/repositories/task_repository.py:140 | `scalars().unique()` keeps exactly the rows it is given, each once, and leaves distinct rows as they are |
| TaskRepository.ListAsWritten | backend/src/infrastructure/repositories/task_repository.py:118-140 | as written, the page holds at most the page size of distinct matching tasks in the requested order, and the total is never below the number of matching tasks |
| TaskRepository.ListAsWrittenWithoutTagFilter | backend/src/infrastructure/repositories/task_repository.py:105-122 | without a tag filter the join adds nothing, and on a table without repeated rows the listing as written equals the listing over distinct tasks |
| TaskRepository.JoinedCountOvercounts | backend/src/infrastructure/repositories/task_repository.py:118-125 | one task tagged "a" and "b", listed with tags ["a", "b"], is counted twice, while the corrected listing counts it once |
| TaskRepository.JoinedPagesOverlap | backend/src/infrastructure/repositories/task_repository.py:136-140 | with one task per page, page 2 shows the task a second time, while the corrected listing's page 2 is empty |
| TaskService.CleanDescription | backend/src/domain/services/task_service.py:75 | an absent or empty description gives none; any other is stored stripped |
| TaskService.GetTaskById | backend/src/domain/services/task_service.py:113-122 | a missing task is NotFoundError, a task of another owner AuthorizationError; otherwise the stored task |
| TaskService.CreateTask | backend/src/domain/services/task_service.py:39-111 | an empty title, an over-long raw title and a past due date are rejected in that order, then tag errors; on success the row has a fresh id, the stripped title, the cleaned description, TODO and MEDIUM by default and the normalised tag names; it is appended with one TASK_CREATED event, and the world stays consistent |
| TaskService.CreatedIsWellFormed | backend/src/domain/services/task_service.py:72-80 | a created task has a stored-form title, a stripped description, and distinct valid tag names |
| TaskService.CreateThenGet | backend/src/domain/services/task_service.py:113-122 | the owner reads a created task back, and anyone else is refused |
| TaskService.ListError | backend/src/domain/services/task_service.py:139-174 | the arguments pass exactly when the sort column is allowed, the order is asc or desc, the page is at least 1, the page size is within 1..100, and the due bounds are not reversed (equal bounds pass) |
| TaskService.ListQueryOf | backend/src/domain/services/task_service.py:139-192 | argument errors come first, then tag-name errors; otherwise the query has the caller as owner, the normalised tag names, a non-negative offset, a page size within 1..100 and the requested order |
| TaskService.ListTasks | backend/src/domain/services/task_service.py:124-194 | the errors of the query; otherwise a page of at most the page size holding distinct tasks of the caller that match the filters, in the requested order, and a total never below the number of matching tasks; the total is exactly that number when no tag filter applies; it succeeds exactly when the corrected listing does |
| TaskService.ListTasksCorrected | backend/src/domain/services/task_service.py:124-194 | the listing over distinct tasks: the page is the block of the ordered matching tasks that starts at `(page - 1) * page_size`, and the total is the number of matching tasks |
| TaskService.ListTasksWithoutTagFilter | backend/src/domain/services/task_service.py:176-194 | without a tag filter, on a table whose rows have distinct ids, `list_tasks` returns the listing over distinct tasks |
| TaskService.ResolveTags | backend/src/domain/services/task_service.py:269-272 | without a tag list there is no resolution; otherwise the tag service's resolution or its error |
| TaskService.DraftedSpec | backend/src/domain/services/task_service.py:216-267 | applying the given fields one by one yields the requested task and records exactly the fields that differ from the stored task |
| TaskService.DraftedError | backend/src/domain/services/task_service.py:216-260 | the first failing field check is the error of the whole update |
| TaskService.NoDiffMeansEqual | backend/src/domain/services/task_service.py:277-278 | an empty change map means every tracked field is unchanged |
| TaskService.UpdateTask | backend/src/domain/services/task_service.py:196-310 | the access check comes first, then the field checks in order; with no changes the stored task is returned and nothing is written; otherwise the row is replaced, one TASK_UPDATED event with exactly the differing fields is recorded, and nothing else changes |
| TaskService.CompletedTaskStaysDone | backend/src/domain/services/task_service.py:234-238 | a DONE task is still DONE after any successful update |
| TaskService.UpdatePreservesWellFormed | backend/src/domain/services/task_service.py:216-275 | an update keeps the guarantees the service makes about stored tasks |
| TaskService.UpdateThenGet | backend/src/domain/services/task_service.py:282 | after an update the owner reads back exactly the updated task |
| TaskService.NoChangeWhenRequested | backend/src/domain/services/task_service.py:277-278 | an update asking for the values the task already has succeeds with no changes and returns the task as it was |
| TaskService.UpdateIdempotent | backend/src/domain/services/task_service.py:216-278 | repeating a successful update at the same instant changes nothing and reports no changes |
| TaskService.UpdateTaskAsWritten | backend/src/domain/services/task_service.py:269-282 | as written, the update fails wherever the corrected update fails, fails with a database error on every update that asks for at least one tag, and otherwise gives the same result as the corrected update |
| TaskService.RepeatedTagFailsAsWritten | backend/src/domain/services/task_service.py:269-282 | re-sending the one tag a task already carries: the corrected update reports no change, while as written the update fails |
| TaskService.RepeatedTagUnchanged | backend/src/domain/services/task_service.py:273-275 | the corrected update reports no change for the same request |
| TaskService.DeleteTask | backend/src/domain/services/task_service.py:312-343 | fails exactly when the access check fails; otherwise one TASK_DELETED event with the title and status is recorded, its task reference cleared by the delete; exactly the task, its attachments and its reminder logs are removed; earlier events lose only their references to them; stored files, tags and the id counter stay |
| ReminderService.FindReminder | backend/src/domain/services/reminder_service.py:42 | a log is found exactly when the task has a DUE_SOON log |
| ReminderService.Sweep | backend/src/domain/services/reminder_service.py:41-70 | the loop writes only reminder logs and audit events and only appends; one event per counted task; the count never exceeds the number of tasks |
| ReminderService.SweepReminded | backend/src/domain/services/reminder_service.py:42-53 | afterwards the reminded tasks are those reminded before plus those whose log write succeeded |
| ReminderService.SweepWritesLogs | backend/src/domain/services/reminder_service.py:46-53 | every new log is a DUE_SOON log for a listed task that had none |
| ReminderService.SweepWritesEvents | backend/src/domain/services/reminder_service.py:54-62 | every new event is a REMINDER_SENT event for a listed task that had no log and whose two writes succeeded, with the owner as user and the due date in its details |
| ReminderService.SendDueSoonReminders | backend/src/domain/services/reminder_service.py:30-70 | the sweep covers exactly the not-done tasks due in `[now, now + window]`; only logs and events change; one event per counted task |
| ReminderService.SweepOverRemindedIsNoOp | backend/src/domain/services/reminder_service.py:42-44 | over tasks that all have a log, the sweep writes nothing and returns 0 |
| ReminderService.SecondSweepSendsNothing | backend/src/domain/services/reminder_service.py:31-44 | when no log write fails, a second sweep at the same time writes nothing and returns 0 |
| ReminderService.RefusedLogIsRetried | backend/src/domain/services/reminder_service.py:52-68 | with write failures taken one write at a time, a task is reminded afterwards exactly when it was before or its log write succeeded; so a task whose log write was refused is swept again, while one whose log was written but whose event was refused is not |
| ReminderService.SweepKeepsOneLogPerTask | backend/src/infrastructure/database/models.py:146 | the sweep never gives a task a second DUE_SOON log |
| ReminderService.SweepCount | backend/src/domain/services/reminder_service.py:39-70 | the returned number is the number of distinct listed tasks without a log whose two writes succeeded |
| AttachmentService.Name | backend/src/domain/services/attachment_service.py:315 | `Path(...).name` has no `/`, is never ".", and uses only characters of its argument |
| AttachmentService.NameIsLastComponent | backend/src/domain/services/attachment_service.py:315 | the name is the path's last component whenever that is neither empty nor "." |
| AttachmentService.NameAfterSlash | backend/src/domain/services/attachment_service.py:315 | the name of `a/b` is `b` when `b` has no `/` and is neither empty nor "." |
| AttachmentService.SuffixShape | backend/src/domain/services/attachment_service.py:129 | `Path(...).suffix` is empty or a dot followed by dot-free text at the end of the path's last component, and has no `/` |
| AttachmentService.SanitizeFilename | backend/src/domain/services/attachment_service.py:297-323 | the corrected sanitiser: the result has no `/` and no NUL, and empty input gives "" |
| AttachmentService.SanitizeFilenameAsWritten | backend/src/domain/services/attachment_service.py:297-323 | the sanitiser as written: strip, basename, NFKC, drop NUL; the result has no NUL |
| AttachmentService.WideSolidusBecomesSeparator | backend/src/domain/services/attachment_service.py:315-318 | any name without `/` or surrounding whitespace that holds U+FF0F sanitises, as written, to a name containing `/`, and in the corrected order to one without |
| AttachmentService.SanitizeAsWrittenKeepsDirectory | backend/src/domain/services/attachment_service.py:315-318 | "..／x" sanitises to a name containing `/` |
| AttachmentService.SanitizeOrdersAgree | backend/src/domain/services/attachment_service.py:312-321 | on names without wide forms, both orders give the same result |
| AttachmentService.ListsAgree | backend/src/domain/services/attachment_service.py:19-81 | the document types are allowed content types, and no extension is both forbidden and allowed |
| AttachmentService.MaxFileSizeBytes | backend/src/domain/services/attachment_service.py:98-103 | with no setting the limit is 10 MiB |
| AttachmentService.ExtensionError | backend/src/domain/services/attachment_service.py:131-142 | an extension passes exactly when it is empty or allowed; a forbidden one gets the security message |
| AttachmentService.UploadErrorIffUnacceptable | backend/src/domain/services/attachment_service.py:115-166 | the ordered checks, run on the name `_sanitize_filename` gives as written, pass exactly on uploads meeting every condition; a missing task and a foreign task are reported before anything about the file |
| AttachmentService.SafeFilenameKeepsExtension | backend/src/domain/services/attachment_service.py:325-339 | the storage name keeps the checked extension and has no `/` |
| AttachmentService.UploadAttachment | backend/src/domain/services/attachment_service.py:105-211 | fails exactly with the first failing check; otherwise a fresh attachment with the name sanitised as written, the effective content type, the size and the safe storage name is appended, its file stored, and one ATTACHMENT_ADDED event recorded with the name as sent; the storage name has no `/` and keeps the checked extension; the world stays consistent |
| AttachmentService.UploadAttachmentCorrected | backend/src/domain/services/attachment_service.py:105-211 | the upload with the corrected sanitiser: it stores a non-empty name with no `/` and no NUL |
| AttachmentService.UploadsAgree | backend/src/domain/services/attachment_service.py:312-321 | both uploads give the same result for every file name without wide characters |
| AttachmentService.UploadStoresDirectory | backend/src/domain/services/attachment_service.py:124-166 | a small text file named "..／x.txt" for a task the user owns is accepted and recorded as "../x.txt" as written, and as "x.txt" by the corrected upload |
| AttachmentService.UploadKeepsCap | backend/src/domain/services/attachment_service.py:164-166 | no upload takes a task past 50 attachments |
| AttachmentService.GetAttachment | backend/src/domain/services/attachment_service.py:227-242 | NotFoundError for a missing task, AuthorizationError for another owner, and NotFoundError for an attachment that is missing or belongs to another task |
| AttachmentService.ListAttachments | backend/src/domain/services/attachment_service.py:213-225 | for the owner, exactly the task's attachments; otherwise the task or access error |
| AttachmentService.GetAttachmentFilePath | backend/src/domain/services/attachment_service.py:244-254 | the attachment and its storage location, provided the file is still stored; otherwise the lookup's error or "file not found" |
| AttachmentService.DeleteAttachment | backend/src/domain/services/attachment_service.py:256-295 | fails exactly when the lookup fails; otherwise one ATTACHMENT_REMOVED event is recorded, the file is removed unless storage fails, and the row is deleted, which clears the attachment reference of every audit event including the new one |
| AttachmentService.StorageFailureIsSwallowed | backend/src/domain/services/attachment_service.py:276-281 | a failing storage delete changes only which files remain |
| AttachmentService.UploadThenGet | backend/src/domain/services/attachment_service.py:227-254 | an uploaded attachment is read back by its owner through its own task only, with its file |
| AttachmentService.DeleteThenGet | backend/src/domain/services/attachment_service.py:238-240 | a deleted attachment is no longer found |
| ChatInterpreter.SearchFrom | backend/src/domain/services/chat_interpreter.py:38 | `re.search`: the leftmost match position, and no match anywhere when none is found |
| ChatInterpreter.FirstMatch | backend/src/domain/services/chat_interpreter.py:37-44 | the title start of the first pattern that matches, and no pattern matches when none is found |
| ChatInterpreter.CleanTitle | backend/src/domain/services/chat_interpreter.py:27-31 | the cleaned title is a contiguous part of the input and does not end in `.`, `!` or a space |
| ChatInterpreter.CleanTitleKeepsClean | backend/src/domain/services/chat_interpreter.py:27-31 | a title with no whitespace or quote at either end, no closer at the end and no leading "to " is kept unchanged |
| ChatInterpreter.CleanTitleDropsTo | backend/src/domain/services/chat_interpreter.py:27-31 | such a title after one leading "to " in any letter case loses exactly that "to " |
| ChatInterpreter.DropTo | backend/src/domain/services/chat_interpreter.py:29-30 | dropping a leading "to " keeps the end of the title |
| ChatInterpreter.DropToRemovesSpace | backend/src/domain/services/chat_interpreter.py:29-30 | what is removed is the "to " and the whitespace after it; the rest starts with a non-whitespace character |
| ChatInterpreter.Interpret | backend/src/domain/services/chat_interpreter.py:33-51 | none exactly when the cleaned title is empty; otherwise the title is the cleaned capture of the normalised message, it is non-empty and a part of that message, and the description is the normalised message exactly when it differs from the title |
| ChatInterpreter.CallJohnExample | backend/tests/test_services/test_chat_service.py:42-56 | "Add a task to call John" is interpreted as the title "call John" with the message as description |
| ChatInterpreter.InterpretNormalised | backend/src/domain/services/chat_service.py:66 | interpreting the already-normalised message gives the same result |
| ChatInterpreter.TitleNotBlank | backend/src/domain/services/chat_interpreter.py:46-48 | a title found is never blank |
| ChatInterpreter.BlankMessageHasNoTitle | backend/src/domain/services/chat_interpreter.py:46-48 | a blank message has no interpretation |
| ChatInterpreter.AddTaskTakesRest | backend/src/domain/services/chat_interpreter.py:20 | "add task X" captures X, without a leading "to " |
| ChatInterpreter.AddATaskTakesRest | backend/tests/test_services/test_chat_service.py:42-56 | "add a task X" captures X, without a leading "to ", so "Add a task to call John" captures "call John" |
| ChatService.RunSafety | backend/src/domain/services/chat_service.py:45-53 | a blank message is refused; otherwise refused exactly when the checker raises or flags it; a raised exception is passed on, and a flag gives the checker's reason or the default text |
| ChatService.BlankMessageSkipsChecker | backend/src/domain/services/chat_service.py:46-47 | a blank message gets the same error whatever the checker would say |
| ChatService.InterpretMessage | backend/src/domain/services/chat_service.py:55-70 | a usable primary result is used; otherwise the rule-based result, or "could not determine a task title" when it has none; the title is never empty |
| ChatService.FallbackIgnoresPrimaryFailure | backend/src/domain/services/chat_service.py:58-68 | a missing interpreter, an exception and an unusable result all lead to the same outcome |
| ChatService.ReplyQuotesTitle | backend/src/domain/services/chat_service.py:81 | the title can be read back from the reply |
| ChatService.CreateTaskFromMessage | backend/src/domain/services/chat_service.py:72-83 | safety errors first, then interpretation errors, then `create_task`'s; on success one task is appended with the user as owner, the stripped title, the cleaned description, TODO, MEDIUM, no due date and no tags, and the reply quotes its title |
| ChatService.FlaggedMessageCreatesNothing | backend/src/domain/services/chat_service.py:49-53 | a flagged message is refused with a validation error |
| ChatService.RaisingCheckerCreatesNothing | backend/src/domain/services/chat_service.py:49-50 | a checker that raises stops a non-blank message with its exception, before interpretation and creation |
| ChatService.FallbackTitleIsStored | backend/src/domain/services/chat_service.py:66-83 | without a usable primary result, a passed message whose rule-based title fits is stored with that title |

## Left out

- Time: `utc_now()` and time zones. `now` is a parameter, datetimes are integers in microseconds, and `_normalize_datetime` is the identity.
- Ids: `uuid4` is replaced by a counter.
- Storage: `secrets.token_hex` is a parameter. The storage path is the safe filename, and the file's location is its storage path.
- Metrics and logging: left out, since they do not affect results.
- Concurrency and transactions: every service call is one atomic step on the world. The reminder sweep is the exception: its write failures are taken one write at a time (see `ReminderService.Sweep` below).
- ReminderService.Sweep: a refused write is modelled against the repository interface, one write at a time, and the writes that succeeded are kept. With the shipped repositories this is not what happens. Both `create` methods flush into the sweep's single session (backend/src/infrastructure/repositories/reminder_repository.py, backend/src/infrastructure/repositories/audit_repository.py), and the worker commits once at the end (backend/src/worker/tasks.py). So a refused flush rolls back the whole transaction, including a log written just before a refused event. The next lookup then raises, and the whole sweep aborts with no writes. The model does not promise that abort.
- The language-model interpreter and safety checker: their outcomes are inputs.
- Configured interpreters: the fallback interpreter is the rule-based one, as it is by default.
- Authentication, users and refresh tokens, and `delete_tasks_for_owner`: outside the modelled core.
- Text.Lower: folds ASCII letters only. Python's `str.lower` and Postgres `ILIKE` fold all of Unicode.
- AttachmentService.Nfkc: maps only the full-width forms U+FF01 to U+FF5E and U+3000. Full NFKC decomposition is not modelled.
- AttachmentService.FileTooLarge: the message leaves out the sizes, which the source formats from floating-point division.
- ChatInterpreter.LetterMatches: `re.IGNORECASE` also matches U+017F for `s` and U+212A for `k`. No other Unicode case folding is modelled.
- ChatInterpreter.SpaceAt: `\s+` is read as one whitespace character, which is exact only on text that has already been collapsed, as it always is here.
- TaskRepository.SearchMatches: `%` and `_` inside the search text act as SQL wildcards in the source, and the model treats them literally.
- TaskRepository.Sort: rows that are equal on the sort column keep their table order. SQL leaves the order of such ties unspecified, and each page is a separate query, so in the database consecutive pages can repeat or skip tasks even without a tag filter. `TaskRepository.PagesTile`, `TaskRepository.PagePositionUnique` and the page contents of `TaskRepository.List` hold over one fixed ordering.
- ChatService.RunSafety: the checker's exception is carried as its message in `ServiceError`; its Python class is not modelled.
- TaskRepository.Update: the error message leaves out the task id that the source formats into it.
- TaskService.UpdateTaskAsWritten: the failure is `DatabaseError` with a message of the model's own, since the exception class and its text depend on the database driver. Tags created before the failure are not kept, because the failed request's transaction is rolled back.
- TaskRepository.LexLe: sorting by title uses code-point order rather than a database collation.
- Entities.Attachment: `size_in_mb` is not modelled, because it is floating point.

## Findings

| source | as written | input that shows it | evidently intended | confidence | as-written member | corrected member |
|---|---|---|---|---|---|---|
| backend/src/domain/services/task_service.py:269-275 | the `Tag` entities from `ensure_tags_exist` are compared with, and stored into, `task.tags`, which holds names. So they always count as a change, and `task_repo.update` (task_repository.py:185-188) then binds each entity where a tag name is expected, which fails | a task tagged ["work"], updated with tags ["work"] | compare and store tag names, as `create_task` does at lines 68-70, so a repeated tag list is not a change and the update succeeds | high, not executed | TaskService.UpdateTaskAsWritten, TaskService.RepeatedTagFailsAsWritten | TaskService.UpdateTask, TaskService.RepeatedTagUnchanged, TaskService.UpdateIdempotent |
| backend/src/domain/services/attachment_service.py:312-321 | NFKC runs after the basename step, so a full-width solidus becomes `/` after directory components were removed | the filename "..／x" gives "../x"; an upload of "..／x.txt" is recorded as "../x.txt" | normalise before taking the basename, so the result has no directory component | high, not executed | AttachmentService.SanitizeFilenameAsWritten, AttachmentService.SanitizeAsWrittenKeepsDirectory, AttachmentService.UploadAttachment, AttachmentService.UploadStoresDirectory | AttachmentService.SanitizeFilename, AttachmentService.SanitizeOrdersAgree, AttachmentService.UploadAttachmentCorrected, AttachmentService.UploadsAgree |
| backend/src/infrastructure/repositories/task_repository.py:118-140 | with a tag filter, the count query and OFFSET/LIMIT run over task-tag join rows | one task tagged "a" and "b", listed with tags ["a", "b"] and page size 1: total 2, and page 2 shows the task again | count and page distinct tasks; paging that tiles also needs a unique tie-breaker in the ORDER BY, such as the id | medium, not executed | TaskRepository.ListAsWritten, TaskRepository.JoinedCountOvercounts, TaskRepository.JoinedPagesOverlap, TaskService.ListTasks | TaskRepository.List, TaskRepository.PagesTile, TaskService.ListTasksCorrected |

=== FILE: attachment_service.dfy ===
/** Attachments of tasks: file-name sanitising, the upload checks, reading, listing
    and deleting. File contents are represented by their length only; the storage
    provider keeps each file under the random name the service generates for it. */
module AttachmentService {
  import opened Results
  import opened Text
  import opened Entities
  import opened Seqs
  import opened Database

  // ---------------------------------------------------------------- POSIX path names

  /** The slash-free tail of `p`: its last path component, possibly empty. */
  function LastComponent(p: string): (r: string)
    ensures |r| <= |p| && r == p[|p| - |r|..]
    ensures '/' !in r
    ensures |r| < |p| ==> p[|p| - |r| - 1] == '/'
  {
    if p == [] || p[|p| - 1] == '/' then []
    else LastComponent(p[..|p| - 1]) + [p[|p| - 1]]
  }

  /** `Path(p).name` for a POSIX path: the last component that is neither empty nor
      `.`, or "" when there is none. */
  function Name(p: string): (r: string)
    ensures '/' !in r
    ensures r != "."
    ensures forall c :: c in r ==> c in p
    decreases |p|
  {
    if p == [] then []
    else if p[|p| - 1] == '/' then Name(p[..|p| - 1])
    else
      var c := LastComponent(p);
      if c == "." then Name(p[..|p| - 1]) else c
  }

  /** The index of the last `.` of `s`, or -1 (`str.rfind`). */
  function LastDot(s: string): (i: int)
    ensures -1 <= i < |s|
    ensures i >= 0 ==> s[i] == '.'
    ensures forall j :: i < j < |s| ==> s[j] != '.'
  {
    if s == [] then -1
    else if s[|s| - 1] == '.' then |s| - 1
    else LastDot(s[..|s| - 1])
  }

  /** The suffix of a single name: from the last dot on, unless that dot is the first
      or the last character. */
  function NameSuffix(name: string): string {
    var i := LastDot(name);
    if 0 < i < |name| - 1 then name[i..] else ""
  }

  /** `Path(p).suffix`: the suffix of the path's name, its last component. */
  function Suffix(p: string): string {
    NameSuffix(Name(p))
  }

  /** A suffix is empty, or a dot followed by at least one character and no further
      dot, taken from the end of the path's name; it never holds a `/`. */
  lemma SuffixShape(p: string)
    ensures var e := Suffix(p); var n := Name(p);
            && |e| <= |n| && e == n[|n| - |e|..]
            && (e == "" || (|e| >= 2 && e[0] == '.' && '.' !in e[1..] && |e| < |n|))
            && '/' !in e
  {
    var n := Name(p);
    NameSuffixShape(n);
    var e := Suffix(p);
    forall k | 0 <= k < |e| ensures e[k] != '/' {
      assert e[k] == n[|n| - |e| + k];
    }
  }


  lemma NameSuffixShape(name: string)
    ensures var e := NameSuffix(name);
            && |e| <= |name| && e == name[|name| - |e|..]
            && (e == "" || (|e| >= 2 && e[0] == '.' && '.' !in e[1..] && |e| < |name|))
  {
    var i := LastDot(name);
    if 0 < i < |name| - 1 {
      var e := name[i..];
      forall k | 1 <= k < |e| ensures e[k] != '.' {
        assert e[k] == name[i + k];
      }
    }
  }

  /** A name without dots has no suffix, and a name with a one-dot suffix keeps it
      after any prefix that does not end in a dot is put before it. */
  lemma SuffixAfterPrefix(prefix: string, ext: string)
    requires prefix != [] && '.' !in prefix && '/' !in prefix
    requires ext == "" || (|ext| >= 2 && ext[0] == '.' && '.' !in ext[1..])
    requires '/' !in ext
    ensures Suffix(prefix + ext) == ext
  {
    var s := prefix + ext;
    assert '/' !in s && s != "." by {
      assert s[0] == prefix[0];
    }
    ComponentIsName(s);
    var i := LastDot(s);
    if ext == "" {
      assert s == prefix;
    } else {
      assert s[|prefix|] == '.';
      forall j | |prefix| < j < |s| ensures s[j] != '.' {
        assert s[j] == ext[j - |prefix|];
        assert ext[j - |prefix|] in ext[1..];
      }
      assert i == |prefix|;
    }
  }

  // ---------------------------------------------------------------- NFKC

  /** The halfwidth-and-fullwidth forms U+FF01 to U+FF5E and the ideographic space,
      whose NFKC normal form is a single ASCII character. */
  predicate IsWide(c: char) {
    ('\U{FF01}' <= c <= '\U{FF5E}') || c == '\U{3000}'
  }

  /** NFKC on one character, for the wide forms; every other character is its own
      normal form in this model. */
  function Fold(c: char): (r: char)
    ensures !IsWide(c) ==> r == c
    ensures IsWide(c) ==> ' ' <= r <= '~'
  {
    if '\U{FF01}' <= c <= '\U{FF5E}' then (c as int - 0xFEE0) as char
    else if c == '\U{3000}' then ' '
    else c
  }

  function Nfkc(s: string): (r: string)
    ensures |r| == |s|
    ensures forall i :: 0 <= i < |s| ==> r[i] == Fold(s[i])
  {
    Map(s, Fold)
  }

  /** `s.replace("\x00", "")`. */
  function RemoveNul(s: string): (r: string)
    ensures forall c :: c in r <==> c in s && c != '\0'
  {
    Filter(s, (c: char) => c != '\0')
  }

  // ---------------------------------------------------------------- _sanitize_filename

  /** `_sanitize_filename` as written: strip, take the base name, normalise to NFKC,
      drop NUL characters. */
  function SanitizeFilenameAsWritten(filename: string): (r: string)
    ensures filename == "" ==> r == ""
    ensures '\0' !in r
  {
    if filename == "" then "" else RemoveNul(Nfkc(Name(Strip(filename))))
  }

  /** The fullwidth solidus U+FF0F survives the base-name step and is normalised into a
      `/` afterwards, so the result has a directory component; the corrected order
      never yields one. */
  lemma WideSolidusBecomesSeparator(p: string, i: nat)
    requires i < |p| && p[i] == '\U{FF0F}'
    requires '/' !in p
    requires p[0] !in Whitespace && p[|p| - 1] !in Whitespace
    ensures '/' in SanitizeFilenameAsWritten(p)
    ensures '/' !in SanitizeFilename(p)
  {
    AsWrittenOfComponent(p, i);
    var n := Nfkc(p);
    assert n[i] == '/';
    assert '/' in n;
  }

  /** A stripped single component holding a non-dot character is only normalised and
      cleared of NUL characters by the as-written order. */
  lemma AsWrittenOfComponent(p: string, i: nat)
    requires i < |p| && p[i] != '.'
    requires '/' !in p
    requires p[0] !in Whitespace && p[|p| - 1] !in Whitespace
    ensures SanitizeFilenameAsWritten(p) == RemoveNul(Nfkc(p))
  {
    StripUnchanged(p);
    assert p != "." by {
      assert p[i] != '.';
    }
    ComponentIsName(p);
  }

  /** For instance `..／x` (with U+FF0F) is sanitised to `../x`. */
  lemma SanitizeAsWrittenKeepsDirectory()
    ensures '/' in SanitizeFilenameAsWritten("..\U{FF0F}x")
  {
    var p: string := "..\U{FF0F}x";
    assert p[2] == '\U{FF0F}';
    assert '/' !in p;
    assert p[0] == '.' && p[|p| - 1] == 'x';
    WideSolidusBecomesSeparator(p, 2);
  }

  lemma StripUnchanged(s: string)
    requires s != [] && s[0] !in Whitespace && s[|s| - 1] !in Whitespace
    ensures Strip(s) == s
  {
  }

  lemma {:induction false} LastComponentOfComponent(p: string)
    requires '/' !in p
    ensures LastComponent(p) == p
  {
    if p != [] {
      LastComponentOfComponent(p[..|p| - 1]);
    }
  }

  /** A single component other than `.` is its own base name. */
  /** The name of a path is what follows its last `/`, when that is neither empty
      nor `.`: `Path("a/b").name` is "b". */
  lemma NameAfterSlash(a: string, b: string)
    requires '/' !in b && b != [] && b != "."
    ensures Name(a + "/" + b) == b
  {
    LastComponentAfterSlash(a, b);
    NameIsLastComponent(a + "/" + b);
  }

  /** The name of a path is its last component whenever that is neither empty nor
      `.`; otherwise `Path` looks further left. */
  lemma NameIsLastComponent(p: string)
    ensures LastComponent(p) != [] && LastComponent(p) != "." ==> Name(p) == LastComponent(p)
  {
  }

  lemma ComponentIsName(p: string)
    requires '/' !in p && p != [] && p != "."
    ensures Name(p) == p
  {
    LastComponentOfComponent(p);
  }

  lemma RemoveNulUnchanged(s: string)
    requires '\0' !in s
    ensures RemoveNul(s) == s
  {
    FilterAll(s, (c: char) => c != '\0');
  }

  /** `_sanitize_filename` with the normalisation done before the base name is taken,
      so that no normalised character can reintroduce a separator. */
  function SanitizeFilename(filename: string): (r: string)
    ensures filename == "" ==> r == ""
    ensures '/' !in r && '\0' !in r
  {
    if filename == "" then "" else RemoveNul(Name(Nfkc(Strip(filename))))
  }

  /** The two orders agree on every name without wide characters. */
  lemma SanitizeOrdersAgree(filename: string)
    requires forall c :: c in filename ==> !IsWide(c)
    ensures SanitizeFilename(filename) == SanitizeFilenameAsWritten(filename)
  {
    if filename != "" {
      var s := Strip(filename);
      StripKeepsCharacters(filename);
      NfkcIdentity(s);
      NfkcIdentity(Name(s));
    }
  }

  lemma StripKeepsCharacters(s: string)
    ensures forall c :: c in Strip(s) ==> c in s
  {
    var l := TrimLeft(s, Whitespace);
    assert forall c :: c in l ==> c in s;
    assert forall c :: c in TrimRight(l, Whitespace) ==> c in l;
  }

  lemma NfkcIdentity(s: string)
    requires forall c :: c in s ==> !IsWide(c)
    ensures Nfkc(s) == s
  {
    assert forall i :: 0 <= i < |s| ==> !IsWide(s[i]);
  }

  // ---------------------------------------------------------------- upload checks

  const MaxAttachmentsPerTask: int := 50
  const MaxFilenameLength: int := 255
  const DefaultMaxUploadMb: int := 10
  const OctetStream: string := Application + "octet-stream"

  const AllowedContentTypes: set<string> := {
    Application + "pdf",
    Application + "msword",
    DocxType,
    Application + "vnd.ms-excel",
    XlsxType,
    Application + "vnd.ms-powerpoint",
    PptxType,
    "text/plain",
    "text/csv",
    "image/jpeg",
    "image/png",
    "image/gif",
    "image/webp",
    "image/svg+xml",
    Application + "zip",
    Application + "x-7z-compressed",
    Application + "x-tar",
    Application + "gzip",
    Application + "json",
    Application + "xml",
    OctetStream
  }

  const ForbiddenExtensions: set<string> := {
    ".exe", ".dll", ".bat", ".cmd", ".sh", ".ps1", ".scr", ".com", ".pif", ".vbs", ".js", ".jar"
  }

  const AllowedExtensions: set<string> := {
    ".pdf", ".doc", ".docx", ".xls", ".xlsx", ".ppt", ".pptx", ".txt", ".csv",
    ".jpg", ".jpeg", ".png", ".gif", ".webp", ".svg", ".zip", ".7z", ".tar", ".gz",
    ".json", ".xml"
  }

  /** `", ".join(sorted(ALLOWED_EXTENSIONS))`. */
  const AllowedExtensionList: string :=
    ".7z, .csv, .doc, .docx, .gif, .gz, .jpeg, .jpg, .json, .pdf, .png, .ppt, .pptx, "
    + ".svg, .tar, .txt, .webp, .xls, .xlsx, .xml, .zip"

  /** Every document type of `Attachment.is_document` can be uploaded, and no
      extension is both forbidden and allowed. */
  lemma ListsAgree()
    ensures DocumentTypes <= AllowedContentTypes
    ensures ForbiddenExtensions !! AllowedExtensions
  {
    DocumentTypesAllowed();
    ExtensionListsDisjoint();
  }

  lemma DocumentTypesAllowed()
    ensures DocumentTypes <= AllowedContentTypes
  {
  }

  lemma ExtensionListsDisjoint()
    ensures ForbiddenExtensions !! AllowedExtensions
  {
  }

  /** The upload size limit: `max_file_size_mb` when given, else the setting
      `max_upload_size_mb`, else 10 megabytes. */
  datatype Limits = Limits(maxFileSizeMb: Option<int>, settingsMb: Option<int>)

  function MaxFileSizeBytes(l: Limits): (r: int)
    ensures l.maxFileSizeMb.None? && l.settingsMb.None? ==> r == 10_485_760
  {
    var mb := if l.maxFileSizeMb.Some? then l.maxFileSizeMb.value
              else if l.settingsMb.Some? then l.settingsMb.value
              else DefaultMaxUploadMb;
    mb * 1024 * 1024
  }

  datatype UploadRequest = UploadRequest(
    taskId: Id,
    userId: Id,
    filename: string,
    size: nat,
    mimeType: string)

  /** `mime_type or "application/octet-stream"`. */
  function ContentTypeOf(mimeType: string): string {
    if mimeType == "" then OctetStream else mimeType
  }

  /** `Path(name).suffix.lower()`. */
  function Extension(name: string): string {
    Lower(Suffix(name))
  }

  function AttachmentsOf(w: World, taskId: Id): (r: seq<Attachment>)
    ensures forall a :: a in r <==> a in w.attachments && a.taskId == taskId
  {
    Filter(w.attachments, (a: Attachment) => IsForTask(a, taskId))
  }

  const AttachmentNotFound: Error := NotFoundError("Attachment not found")
  const TaskNotFound: Error := NotFoundError("Task not found")
  const NotAuthorized: Error := AuthorizationError("Not authorized")
  const EmptyFilename: Error := ValidationError("Filename cannot be empty")
  const FilenameTooLong: Error := ValidationError("Filename cannot exceed 255 characters")
  const EmptyFile: Error := ValidationError("File cannot be empty")
  const FileTooLarge: Error := ValidationError("File size exceeds maximum allowed size")
  const TooManyAttachments: Error := ValidationError("Maximum number of attachments (50) reached for this task")

  /** The two extension checks: a forbidden extension is refused, and so is any other
      non-empty extension outside the allow-list. */
  function ExtensionError(ext: string): (r: Option<Error>)
    ensures r.None? <==> ext == "" || ext in AllowedExtensions
    ensures ext in ForbiddenExtensions ==>
              r == Some(ValidationError("File type '" + ext + "' is not allowed for security reasons"))
  {
    ListsAgree();
    if ext in ForbiddenExtensions then
      Some(ValidationError("File type '" + ext + "' is not allowed for security reasons"))
    else if ext != "" && ext !in AllowedExtensions then
      Some(ValidationError("File type '" + ext + "' is not permitted. Allowed types: " + AllowedExtensionList))
    else None
  }

  /** The checks of `upload_attachment`, in order, given the sanitised file name. */
  function CheckError(w: World, req: UploadRequest, name: string, limits: Limits): Option<Error> {
    match FindTask(w.tasks, req.taskId)
    case None => Some(TaskNotFound)
    case Some(task) =>
      if !CanBeModifiedBy(task, req.userId) then Some(NotAuthorized)
      else FileError(name, ContentTypeOf(req.mimeType), req.size,
                     MaxFileSizeBytes(limits), |AttachmentsOf(w, req.taskId)|)
  }

  /** The checks of `upload_attachment` on the name `_sanitize_filename` gives. */
  function UploadError(w: World, req: UploadRequest, limits: Limits): Option<Error> {
    CheckError(w, req, SanitizeFilenameAsWritten(req.filename), limits)
  }

  /** The checks on the file, in order, given the sanitised name, the content type, the
      size, the size limit and the number of attachments the task already has. */
  function FileError(name: string, ct: string, size: nat, maxBytes: int, count: nat): Option<Error> {
    var ext := Extension(name);
    if name == "" then Some(EmptyFilename)
    else if ExtensionError(ext).Some? then ExtensionError(ext)
    else if |name| > MaxFilenameLength then Some(FilenameTooLong)
    else if ct !in AllowedContentTypes then Some(ValidationError("Content type '" + ct + "' is not allowed"))
    else if size == 0 then Some(EmptyFile)
    else if size > maxBytes then Some(FileTooLarge)
    else if count >= MaxAttachmentsPerTask then Some(TooManyAttachments)
    else None
  }

  /** What an accepted file satisfies, stated independently of the order of the
      checks. */
  predicate FileAcceptable(name: string, ct: string, size: nat, maxBytes: int, count: nat) {
    && name != ""
    && (Extension(name) == "" || Extension(name) in AllowedExtensions)
    && |name| <= MaxFilenameLength
    && ct in AllowedContentTypes
    && 0 < size <= maxBytes
    && count < MaxAttachmentsPerTask
  }

  lemma FileErrorIff(name: string, ct: string, size: nat, maxBytes: int, count: nat)
    ensures FileError(name, ct, size, maxBytes, count).None? <==> FileAcceptable(name, ct, size, maxBytes, count)
  {
  }

  /** What an accepted upload satisfies: the task exists, the user owns it, and the
      file under its sanitised name is acceptable. */
  predicate Acceptable(w: World, req: UploadRequest, limits: Limits) {
    && FindTask(w.tasks, req.taskId).Some?
    && FindTask(w.tasks, req.taskId).value.ownerId == req.userId
    && FileAcceptable(SanitizeFilenameAsWritten(req.filename), ContentTypeOf(req.mimeType), req.size,
                      MaxFileSizeBytes(limits), |AttachmentsOf(w, req.taskId)|)
  }

  /** The checks pass exactly on acceptable uploads; a missing task and a foreign task
      are reported before anything about the file. */
  lemma UploadErrorIffUnacceptable(w: World, req: UploadRequest, limits: Limits)
    ensures UploadError(w, req, limits).None? <==> Acceptable(w, req, limits)
    ensures FindTask(w.tasks, req.taskId).None? ==> UploadError(w, req, limits) == Some(TaskNotFound)
    ensures FindTask(w.tasks, req.taskId).Some? && FindTask(w.tasks, req.taskId).value.ownerId != req.userId ==>
              UploadError(w, req, limits) == Some(NotAuthorized)
  {
    FileErrorIff(SanitizeFilenameAsWritten(req.filename), ContentTypeOf(req.mimeType), req.size,
                 MaxFileSizeBytes(limits), |AttachmentsOf(w, req.taskId)|);
  }

  /** A hex string as `secrets.token_hex` returns it. */
  predicate IsHexToken(token: string) {
    token != [] && forall i :: 0 <= i < |token| ==> token[i] in "0123456789abcdef"
  }

  /** `_generate_safe_filename`: the random token followed by the lowercased suffix. */
  function SafeFilename(token: string, name: string): string {
    token + Extension(name)
  }

  /** An extension is empty or a dot followed by dot-free text, and it has no `/`,
      whatever directories the name holds. */
  lemma ExtensionShape(name: string)
    ensures var l := Extension(name);
            l == "" || (|l| >= 2 && l[0] == '.' && '.' !in l[1..])
    ensures '/' !in Extension(name)
  {
    var e := Suffix(name);
    SuffixShape(name);
    var l := Lower(e);
    if e != "" {
      assert l[0] == '.';
      forall k | 1 <= k < |l| ensures l[k] != '.' {
        assert e[k] in e[1..];
      }
    }
    LowerKeepsSlashFree(e);
  }

  lemma LowerKeepsSlashFree(e: string)
    requires '/' !in e
    ensures '/' !in Lower(e)
  {
    var l := Lower(e);
    forall k | 0 <= k < |l| ensures l[k] != '/' {
      assert e[k] in e;
    }
  }

  lemma HexTokenHasNoDot(token: string)
    requires IsHexToken(token)
    ensures '.' !in token && '/' !in token
  {
    forall i | 0 <= i < |token| ensures token[i] != '.' && token[i] != '/' {
      assert token[i] in "0123456789abcdef";
    }
  }

  /** The stored file keeps the extension that was checked, and its name has no
      directory component, even when the sanitised name has one. */
  lemma SafeFilenameKeepsExtension(token: string, name: string)
    requires IsHexToken(token)
    ensures Suffix(SafeFilename(token, name)) == Extension(name)
    ensures '/' !in SafeFilename(token, name)
  {
    ExtensionShape(name);
    HexTokenHasNoDot(token);
    SuffixAfterPrefix(token, Extension(name));
  }

  // ---------------------------------------------------------------- operations

  /** The upload of a file whose sanitised name is `name`: the checks, then the file
      is saved under its safe name, the attachment row is inserted and an
      `ATTACHMENT_ADDED` event is written. The event records the file name as the
      client sent it. */
  function Store(w: World, req: UploadRequest, name: string, limits: Limits, token: string, now: Instant)
    : (r: Result<(World, Attachment)>)
    requires Consistent(w)
    requires IsHexToken(token)
    ensures r.Err? <==> CheckError(w, req, name, limits).Some?
    ensures r.Err? ==> r.error == CheckError(w, req, name, limits).value
    ensures r.Ok? ==>
              var (w', a) := r.value;
              && a == Attachment(w.nextId, req.taskId, name, ContentTypeOf(req.mimeType),
                                 req.size, SafeFilename(token, name), None, now)
              && FindAttachment(w.attachments, a.id).None?
              && w'.attachments == w.attachments + [a]
              && w'.files == w.files + {a.storagePath}
              && w'.audit == w.audit + [AuditEvent(Some(req.userId), AttachmentAdded, Some(req.taskId), Some(a.id),
                                                   FileInfo(req.filename, req.size, a.contentType), now)]
              && w'.tasks == w.tasks && w'.tags == w.tags && w'.reminders == w.reminders
              && Consistent(w')
  {
    match CheckError(w, req, name, limits)
    case Some(e) => Err(e)
    case None =>
      FreshIdAbsent(w);
      var a := Attachment(w.nextId, req.taskId, name, ContentTypeOf(req.mimeType), req.size,
                          SafeFilename(token, name), None, now);
      var event := AuditEvent(Some(req.userId), AttachmentAdded, Some(req.taskId), Some(a.id),
                              FileInfo(req.filename, req.size, a.contentType), now);
      Ok((Attach(w, a, event), a))
  }

  /** `upload_attachment`: the file is stored under the name `_sanitize_filename`
      gives, which may hold a directory component (see `SanitizeFilenameAsWritten`);
      the stored file's own name never does. */
  function UploadAttachment(w: World, req: UploadRequest, limits: Limits, token: string, now: Instant)
    : (r: Result<(World, Attachment)>)
    requires Consistent(w)
    requires IsHexToken(token)
    ensures r.Err? <==> UploadError(w, req, limits).Some?
    ensures r.Err? ==> r.error == UploadError(w, req, limits).value
    ensures r.Ok? ==>
              var (w', a) := r.value;
              && a == Attachment(w.nextId, req.taskId, SanitizeFilenameAsWritten(req.filename), ContentTypeOf(req.mimeType),
                                 req.size, SafeFilename(token, SanitizeFilenameAsWritten(req.filename)), None, now)
              && '/' !in a.storagePath && Suffix(a.storagePath) == Extension(a.filename)
              && FindAttachment(w.attachments, a.id).None?
              && w'.attachments == w.attachments + [a]
              && w'.files == w.files + {a.storagePath}
              && w'.audit == w.audit + [AuditEvent(Some(req.userId), AttachmentAdded, Some(req.taskId), Some(a.id),
                                                   FileInfo(req.filename, req.size, a.contentType), now)]
              && w'.tasks == w.tasks && w'.tags == w.tags && w'.reminders == w.reminders
              && Consistent(w')
  {
    var name := SanitizeFilenameAsWritten(req.filename);
    SafeFilenameKeepsExtension(token, name);
    Store(w, req, name, limits, token, now)
  }

  /** The upload with the sanitiser corrected: the stored name has no directory
      component. */
  function UploadAttachmentCorrected(w: World, req: UploadRequest, limits: Limits, token: string, now: Instant)
    : (r: Result<(World, Attachment)>)
    requires Consistent(w)
    requires IsHexToken(token)
    ensures r.Err? <==> CheckError(w, req, SanitizeFilename(req.filename), limits).Some?
    ensures r.Ok? ==>
              var (w', a) := r.value;
              && a.filename == SanitizeFilename(req.filename)
              && '/' !in a.filename && '\0' !in a.filename && a.filename != ""
              && w'.attachments == w.attachments + [a]
              && Consistent(w')
  {
    CheckedNameNotEmpty(w, req, SanitizeFilename(req.filename), limits);
    Store(w, req, SanitizeFilename(req.filename), limits, token, now)
  }

  lemma CheckedNameNotEmpty(w: World, req: UploadRequest, name: string, limits: Limits)
    ensures CheckError(w, req, name, limits).None? ==> name != ""
  {
  }

  /** Both uploads do the same on every file name without wide characters. */
  lemma UploadsAgree(w: World, req: UploadRequest, limits: Limits, token: string, now: Instant)
    requires Consistent(w) && IsHexToken(token)
    requires forall c :: c in req.filename ==> !IsWide(c)
    ensures UploadAttachment(w, req, limits, token, now) == UploadAttachmentCorrected(w, req, limits, token, now)
  {
    SanitizeOrdersAgree(req.filename);
  }

  /** "..／x.txt", with the fullwidth solidus U+FF0F. */
  const WideName: string := "..\U{FF0F}x.txt"

  /** What a small text file named `WideName` needs to pass the checks, the name aside:
      a task the user owns with room for it. */
  predicate TextUpload(w: World, req: UploadRequest, limits: Limits) {
    && req.filename == WideName && req.mimeType == "text/plain"
    && FindTask(w.tasks, req.taskId).Some? && FindTask(w.tasks, req.taskId).value.ownerId == req.userId
    && 0 < req.size <= MaxFileSizeBytes(limits)
    && |AttachmentsOf(w, req.taskId)| < MaxAttachmentsPerTask
  }

  /** A small text file named `WideName`, uploaded to a task the user owns: as written
      it is accepted and stored under the name "../x.txt"; the corrected upload stores
      it as "x.txt". */
  lemma UploadStoresDirectory(w: World, req: UploadRequest, limits: Limits, token: string, now: Instant)
    requires Consistent(w) && IsHexToken(token)
    requires TextUpload(w, req, limits)
    ensures UploadAttachment(w, req, limits, token, now).Ok?
    ensures UploadAttachment(w, req, limits, token, now).value.1.filename == "../x.txt"
    ensures UploadAttachmentCorrected(w, req, limits, token, now).Ok?
    ensures UploadAttachmentCorrected(w, req, limits, token, now).value.1.filename == "x.txt"
  {
    StoredAsWritten(w, req, limits, token, now);
    StoredCorrected(w, req, limits, token, now);
  }

  lemma StoredAsWritten(w: World, req: UploadRequest, limits: Limits, token: string, now: Instant)
    requires Consistent(w) && IsHexToken(token)
    requires TextUpload(w, req, limits)
    ensures UploadAttachment(w, req, limits, token, now).Ok?
    ensures UploadAttachment(w, req, limits, token, now).value.1.filename == "../x.txt"
  {
    WideChecksPass(w, req, limits);
  }

  lemma StoredCorrected(w: World, req: UploadRequest, limits: Limits, token: string, now: Instant)
    requires Consistent(w) && IsHexToken(token)
    requires TextUpload(w, req, limits)
    ensures UploadAttachmentCorrected(w, req, limits, token, now).Ok?
    ensures UploadAttachmentCorrected(w, req, limits, token, now).value.1.filename == "x.txt"
  {
    WideChecksPass(w, req, limits);
  }

  /** Both sanitised forms of `WideName` pass the checks. */
  lemma WideChecksPass(w: World, req: UploadRequest, limits: Limits)
    requires TextUpload(w, req, limits)
    ensures SanitizeFilenameAsWritten(req.filename) == "../x.txt"
    ensures SanitizeFilename(req.filename) == "x.txt"
    ensures UploadError(w, req, limits).None?
    ensures CheckError(w, req, SanitizeFilename(req.filename), limits).None?
  {
    SanitizedWideName();
    ExtensionOfTxt();
    TextFileAccepted(w, req, limits, "../x.txt");
    TextFileAccepted(w, req, limits, "x.txt");
  }

  /** A non-empty text file with the extension ".txt" passes the checks on a task the
      user owns that has room for it. */
  lemma TextFileAccepted(w: World, req: UploadRequest, limits: Limits, name: string)
    requires TextUpload(w, req, limits)
    requires name != "" && |name| <= MaxFilenameLength && Extension(name) in AllowedExtensions
    ensures CheckError(w, req, name, limits).None?
  {
    FileErrorIff(name, ContentTypeOf(req.mimeType), req.size, MaxFileSizeBytes(limits), |AttachmentsOf(w, req.taskId)|);
  }

  /** "..／x.txt" is sanitised to "../x.txt" as written and to "x.txt" when corrected. */
  lemma SanitizedWideName()
    ensures SanitizeFilenameAsWritten(WideName) == "../x.txt"
    ensures SanitizeFilename(WideName) == "x.txt"
  {
    SanitizedWideAsWritten();
    SanitizedWideCorrected();
  }

  lemma SanitizedWideAsWritten()
    ensures SanitizeFilenameAsWritten("..\U{FF0F}x.txt") == "../x.txt"
  {
    var p: string := "..\U{FF0F}x.txt";
    assert p[2] == '\U{FF0F}' && '/' !in p;
    assert p[0] == '.' && p[|p| - 1] == 't';
    AsWrittenOfComponent(p, 2);
    NfkcOfWide();
    NoNulInNames();
    RemoveNulUnchanged("../x.txt");
  }

  lemma SanitizedWideCorrected()
    ensures SanitizeFilename("..\U{FF0F}x.txt") == "x.txt"
  {
    var p: string := "..\U{FF0F}x.txt";
    assert p[0] == '.' && p[|p| - 1] == 't';
    StripUnchanged(p);
    NfkcOfWide();
    NameOfDotDotX();
    NoNulInNames();
    RemoveNulUnchanged("x.txt");
  }

  lemma NoNulInNames()
    ensures '\0' !in "../x.txt" && '\0' !in "x.txt"
  {
    var a: string := "../x.txt";
    forall i | 0 <= i < |a| ensures a[i] != '\0' {
      assert a[i] in {'.', '/', 'x', 't'};
    }
    assert "x.txt" == a[3..];
  }

  lemma NfkcOfWide()
    ensures Nfkc("..\U{FF0F}x.txt") == "../x.txt"
  {
    var p: string := "..\U{FF0F}x.txt";
    var n := Nfkc(p);
    forall i | 0 <= i < 8 ensures n[i] == "../x.txt"[i] {
      assert n[i] == Fold(p[i]);
    }
  }

  lemma NameOfDotDotX()
    ensures Name("../x.txt") == "x.txt"
  {
    var b: string := "x.txt";
    assert "../x.txt" == ".." + "/" + b;
    NameAfterSlash("..", b);
  }

  /** The last component of a path is what follows its last `/`. */
  lemma {:induction false} LastComponentAfterSlash(a: string, b: string)
    requires '/' !in b
    ensures LastComponent(a + "/" + b) == b
  {
    var p := a + "/" + b;
    if b != [] {
      var b' := b[..|b| - 1];
      assert '/' !in b' by {
        assert forall k :: 0 <= k < |b'| ==> b'[k] == b[k];
      }
      assert p[..|p| - 1] == a + "/" + b';
      LastComponentAfterSlash(a, b');
      InitLast(b);
    }
  }

  /** "x.txt" and "../x.txt" both have the allowed extension ".txt". */
  lemma ExtensionOfTxt()
    ensures Extension("x.txt") == ".txt" && Extension("../x.txt") == ".txt"
    ensures ".txt" in AllowedExtensions
  {
    NameOfDotDotX();
    ComponentIsName("x.txt");
    NameSuffixOfTxt();
    LowerTxt();
  }

  lemma NameSuffixOfTxt()
    ensures NameSuffix("x.txt") == ".txt"
  {
    var n: string := "x.txt";
    var i := LastDot(n);
    assert n[1] == '.';
    assert n[2] != '.' && n[3] != '.' && n[4] != '.';
    assert i == 1;
  }

  lemma LowerTxt()
    ensures Lower(".txt") == ".txt"
  {
    var l := Lower(".txt");
    forall i | 0 <= i < 4 ensures l[i] == ".txt"[i] {
      assert l[i] == LowerChar(".txt"[i]);
    }
  }

  /** The writes of an accepted upload: the file, the attachment row under the next
      id, and the audit event. */
  function Attach(w: World, a: Attachment, event: AuditEvent): (r: World)
    requires Consistent(w) && a.id == w.nextId
    ensures r == w.(attachments := w.attachments + [a], files := w.files + {a.storagePath},
                    audit := w.audit + [event], nextId := w.nextId + 1)
    ensures Consistent(r)
  {
    var r := w.(attachments := w.attachments + [a], files := w.files + {a.storagePath},
                audit := w.audit + [event], nextId := w.nextId + 1);
    assert forall i :: 0 <= i < |w.attachments| ==> r.attachments[i] == w.attachments[i];
    r
  }

  /** An upload leaves every task with at most 50 attachments if it had at most 50. */
  lemma UploadKeepsCap(w: World, req: UploadRequest, limits: Limits, token: string, now: Instant, taskId: Id)
    requires Consistent(w) && IsHexToken(token)
    requires |AttachmentsOf(w, taskId)| <= MaxAttachmentsPerTask
    requires UploadAttachment(w, req, limits, token, now).Ok?
    ensures |AttachmentsOf(UploadAttachment(w, req, limits, token, now).value.0, taskId)| <= MaxAttachmentsPerTask
  {
    var (w', a) := UploadAttachment(w, req, limits, token, now).value;
    UploadErrorIffUnacceptable(w, req, limits);
    FilterAppend(w.attachments, [a], (x: Attachment) => IsForTask(x, taskId));
  }

  /** `get_attachment`: the task must exist and be visible to the user, and the
      attachment must exist and belong to that task. */
  function GetAttachment(w: World, taskId: Id, attachmentId: Id, userId: Id): (r: Result<Attachment>)
    ensures FindTask(w.tasks, taskId).None? ==> r == Err(TaskNotFound)
    ensures FindTask(w.tasks, taskId).Some? && !CanBeViewedBy(FindTask(w.tasks, taskId).value, userId) ==>
              r == Err(NotAuthorized)
    ensures r.Ok? <==>
              && FindTask(w.tasks, taskId).Some? && FindTask(w.tasks, taskId).value.ownerId == userId
              && FindAttachment(w.attachments, attachmentId).Some?
              && FindAttachment(w.attachments, attachmentId).value.taskId == taskId
    ensures r.Ok? ==> r.value in w.attachments && r.value.id == attachmentId && r.value.taskId == taskId
    ensures r.Err? && FindTask(w.tasks, taskId).Some? && FindTask(w.tasks, taskId).value.ownerId == userId ==>
              r == Err(AttachmentNotFound)
  {
    match FindTask(w.tasks, taskId)
    case None => Err(TaskNotFound)
    case Some(task) =>
      if !CanBeViewedBy(task, userId) then Err(NotAuthorized)
      else match FindAttachment(w.attachments, attachmentId)
        case None => Err(AttachmentNotFound)
        case Some(a) => if IsForTask(a, taskId) then Ok(a) else Err(AttachmentNotFound)
  }

  /** `list_attachments`: the attachments of a task the user can see. */
  function ListAttachments(w: World, taskId: Id, userId: Id): (r: Result<seq<Attachment>>)
    ensures FindTask(w.tasks, taskId).None? ==> r == Err(TaskNotFound)
    ensures r.Ok? <==> FindTask(w.tasks, taskId).Some? && FindTask(w.tasks, taskId).value.ownerId == userId
    ensures r.Ok? ==> forall a :: a in r.value <==> a in w.attachments && a.taskId == taskId
    ensures r.Err? && FindTask(w.tasks, taskId).Some? ==> r == Err(NotAuthorized)
  {
    match FindTask(w.tasks, taskId)
    case None => Err(TaskNotFound)
    case Some(task) =>
      if !CanBeViewedBy(task, userId) then Err(NotAuthorized)
      else Ok(AttachmentsOf(w, taskId))
  }

  const FileMissing: Error := NotFoundError("File not found in storage. It may have been deleted or corrupted.")

  /** `get_attachment_file_path`: the attachment and the location of its file, which
      must still be in storage. The location is the storage path itself. */
  function GetAttachmentFilePath(w: World, taskId: Id, attachmentId: Id, userId: Id): (r: Result<(string, Attachment)>)
    ensures GetAttachment(w, taskId, attachmentId, userId).Err? ==>
              r == Err(GetAttachment(w, taskId, attachmentId, userId).error)
    ensures r.Ok? <==> GetAttachment(w, taskId, attachmentId, userId).Ok?
                       && GetAttachment(w, taskId, attachmentId, userId).value.storagePath in w.files
    ensures r.Ok? ==> r.value.1 == GetAttachment(w, taskId, attachmentId, userId).value
                      && r.value.0 == r.value.1.storagePath && r.value.0 in w.files
    ensures GetAttachment(w, taskId, attachmentId, userId).Ok? && r.Err? ==> r == Err(FileMissing)
  {
    var a :- GetAttachment(w, taskId, attachmentId, userId);
    if a.storagePath !in w.files then Err(FileMissing) else Ok((a.storagePath, a))
  }

  /** The `ATTACHMENT_REMOVED` event, before the deletion clears its attachment
      reference. */
  function RemovedEvent(a: Attachment, userId: Id, now: Instant): AuditEvent {
    AuditEvent(Some(userId), AttachmentRemoved, Some(a.taskId), Some(a.id),
               FileInfo(a.filename, a.sizeBytes, a.contentType), now)
  }

  /** `delete_attachment`: the audit event is written, the file is deleted from storage
      (a failure there, `storageFails`, is ignored) and the row is deleted. */
  function DeleteAttachment(w: World, taskId: Id, attachmentId: Id, userId: Id, now: Instant, storageFails: bool)
    : (r: Result<World>)
    ensures GetAttachment(w, taskId, attachmentId, userId).Err? ==>
              r == Err(GetAttachment(w, taskId, attachmentId, userId).error)
    ensures r.Ok? <==> GetAttachment(w, taskId, attachmentId, userId).Ok?
    ensures r.Ok? ==>
              var a := GetAttachment(w, taskId, attachmentId, userId).value;
              var w' := r.value;
              && (forall x :: x in w'.attachments <==> x in w.attachments && x.id != attachmentId)
              && |w'.audit| == |w.audit| + 1
              && w'.audit[|w.audit|] == RemovedEvent(a, userId, now).(attachmentId := None)
              && (forall i :: 0 <= i < |w.audit| ==> Detached(w.audit[i], w'.audit[i]))
              && w'.files == (if storageFails then w.files else w.files - {a.storagePath})
              && w'.tasks == w.tasks && w'.reminders == w.reminders && w'.tags == w.tags
  {
    var a :- GetAttachment(w, taskId, attachmentId, userId);
    var logged := AddAudit(w, RemovedEvent(a, userId, now));
    var cleaned := if storageFails then logged else logged.(files := logged.files - {a.storagePath});
    var w' := DeleteAttachmentRow(cleaned, attachmentId);
    assert w'.audit[|w.audit|] == DetachAttachments(cleaned.audit[|w.audit|], {attachmentId});
    Ok(w')
  }

  /** A storage failure on delete changes nothing but the files: the audit trail and
      the metadata are the same either way. */
  lemma StorageFailureIsSwallowed(w: World, taskId: Id, attachmentId: Id, userId: Id, now: Instant)
    ensures var failed := DeleteAttachment(w, taskId, attachmentId, userId, now, true);
            var deleted := DeleteAttachment(w, taskId, attachmentId, userId, now, false);
            && failed.Ok? == deleted.Ok?
            && (failed.Ok? ==> failed.value == deleted.value.(files := w.files))
  {
  }

  /** An uploaded attachment is read back by its owner, through its task only. */
  lemma UploadThenGet(w: World, req: UploadRequest, limits: Limits, token: string, now: Instant, otherTask: Id)
    requires Consistent(w) && IsHexToken(token)
    requires UploadAttachment(w, req, limits, token, now).Ok?
    requires otherTask != req.taskId
    ensures var (w', a) := UploadAttachment(w, req, limits, token, now).value;
            && GetAttachment(w', req.taskId, a.id, req.userId) == Ok(a)
            && GetAttachment(w', otherTask, a.id, req.userId).Err?
            && GetAttachmentFilePath(w', req.taskId, a.id, req.userId) == Ok((a.storagePath, a))
  {
    var (w', a) := UploadAttachment(w, req, limits, token, now).value;
    UploadErrorIffUnacceptable(w, req, limits);
    FindAttachmentLast(w.attachments, a);
  }

  lemma {:induction false} FindAttachmentLast(xs: seq<Attachment>, a: Attachment)
    requires FindAttachment(xs, a.id).None?
    ensures FindAttachment(xs + [a], a.id) == Some(a)
  {
    if xs != [] {
      assert (xs + [a])[1..] == xs[1..] + [a];
      FindAttachmentLast(xs[1..], a);
    }
  }

  /** After a delete, the attachment can no longer be read. */
  lemma DeleteThenGet(w: World, taskId: Id, attachmentId: Id, userId: Id, now: Instant, storageFails: bool)
    requires DeleteAttachment(w, taskId, attachmentId, userId, now, storageFails).Ok?
    ensures GetAttachment(DeleteAttachment(w, taskId, attachmentId, userId, now, storageFails).value,
                          taskId, attachmentId, userId) == Err(AttachmentNotFound)
  {
  }
}

=== FILE: chat_interpreter.dfy ===
/** The rule-based interpreter that turns a chat message into a task title and
    description: the message is collapsed, four case-insensitive patterns are searched
    in order, and the captured title is cleaned. */
module ChatInterpreter {
  import opened Results
  import opened Text

  datatype Interpretation = Interpretation(title: string, description: Option<string>)

  // ---------------------------------------------------------------- the patterns

  /** `c` matches the lower-case pattern letter `p` under `re.IGNORECASE`, which also
      folds U+017F (long s) to `s` and U+212A (Kelvin sign) to `k`. */
  predicate LetterMatches(c: char, p: char) {
    LowerChar(c) == p || (p == 's' && c == '\U{17F}') || (p == 'k' && c == '\U{212A}')
  }

  /** The literal `lit` matches case-insensitively at position `i`. */
  predicate LiteralAt(s: string, i: nat, lit: string) {
    i + |lit| <= |s| && forall k :: 0 <= k < |lit| ==> LetterMatches(s[i + k], lit[k])
  }

  /** `\s+` at position `i`. The text is always collapsed, so a run of whitespace is a
      single character followed by a non-space. */
  predicate SpaceAt(s: string, i: nat) {
    i < |s| && s[i] in Whitespace
  }

  /** `task\s+(?:to\s+)?(?P<title>.+)` at position `k`: the start of the title. */
  function TaskThenTitle(s: string, k: nat): (r: Option<nat>)
    ensures r.Some? ==> r.value < |s|
  {
    if LiteralAt(s, k, "task") && SpaceAt(s, k + 4) && k + 5 < |s| then
      Some(if LiteralAt(s, k + 5, "to") && SpaceAt(s, k + 7) && k + 8 < |s| then k + 8 else k + 5)
    else None
  }

  /** `<verb>\s+(?:a\s+)?task\s+(?:to\s+)?(?P<title>.+)` at position `i`; the optional
      article is tried first and dropped when the rest does not match after it. */
  function VerbTaskAt(s: string, i: nat, verb: string): (r: Option<nat>)
    ensures r.Some? ==> r.value < |s|
  {
    if !(LiteralAt(s, i, verb) && SpaceAt(s, i + |verb|)) then None
    else
      var j := i + |verb| + 1;
      if LiteralAt(s, j, "a") && SpaceAt(s, j + 1) && TaskThenTitle(s, j + 2).Some? then TaskThenTitle(s, j + 2)
      else TaskThenTitle(s, j)
  }

  /** `new\s+task[:\-]?\s+(?P<title>.+)` at position `i`. */
  function NewTaskAt(s: string, i: nat): (r: Option<nat>)
    ensures r.Some? ==> r.value < |s|
  {
    if !(LiteralAt(s, i, "new") && SpaceAt(s, i + 3) && LiteralAt(s, i + 4, "task")) then None
    else
      var k := i + 8;
      if k < |s| && s[k] in {':', '-'} && SpaceAt(s, k + 1) && k + 2 < |s| then Some(k + 2)
      else if SpaceAt(s, k) && k + 1 < |s| then Some(k + 1)
      else None
  }

  /** `task[:\-]\s*(?P<title>.+)` at position `i`. */
  function LabelAt(s: string, i: nat): (r: Option<nat>)
    ensures r.Some? ==> r.value < |s|
  {
    if !(LiteralAt(s, i, "task") && i + 4 < |s| && s[i + 4] in {':', '-'}) then None
    else
      var k := i + 5;
      if SpaceAt(s, k) && k + 1 < |s| then Some(k + 1)
      else if k < |s| then Some(k)
      else None
  }

  datatype Pattern = AddPattern | CreatePattern | NewPattern | LabelPattern

  const Patterns: seq<Pattern> := [AddPattern, CreatePattern, NewPattern, LabelPattern]

  function MatchAt(s: string, p: Pattern, i: nat): (r: Option<nat>)
    ensures r.Some? ==> r.value < |s|
  {
    match p
    case AddPattern => VerbTaskAt(s, i, "add")
    case CreatePattern => VerbTaskAt(s, i, "create")
    case NewPattern => NewTaskAt(s, i)
    case LabelPattern => LabelAt(s, i)
  }

  /** `re.search` from position `i`: the title start of the leftmost match. */
  function SearchFrom(s: string, p: Pattern, i: nat): (r: Option<nat>)
    ensures r.Some? ==> r.value < |s|
    ensures r.Some? ==> exists j :: i <= j <= |s| && MatchAt(s, p, j) == r
    ensures r.None? ==> forall j :: i <= j <= |s| ==> MatchAt(s, p, j).None?
    decreases |s| - i
  {
    if i > |s| then None
    else if MatchAt(s, p, i).Some? then MatchAt(s, p, i)
    else SearchFrom(s, p, i + 1)
  }

  /** The title start given by the first of `ps` that matches anywhere. */
  function FirstMatch(s: string, ps: seq<Pattern>): (r: Option<nat>)
    ensures r.Some? ==> r.value < |s|
    ensures r.None? <==> forall k :: 0 <= k < |ps| ==> SearchFrom(s, ps[k], 0).None?
    ensures r.Some? ==> exists k :: 0 <= k < |ps| && SearchFrom(s, ps[k], 0) == r
                                    && forall l :: 0 <= l < k ==> SearchFrom(s, ps[l], 0).None?
  {
    var hits := Searches(s, ps);
    var r := FirstSome(hits, 0);
    assert r.Some? ==> r.value < |s| by {
      if r.Some? {
        var k :| 0 <= k < |hits| && hits[k] == r;
      }
    }
    r
  }

  /** The search result of each pattern, in order. */
  function Searches(s: string, ps: seq<Pattern>): (r: seq<Option<nat>>)
    ensures |r| == |ps| && forall k :: 0 <= k < |ps| ==> r[k] == SearchFrom(s, ps[k], 0)
  {
    seq(|ps|, k requires 0 <= k < |ps| => SearchFrom(s, ps[k], 0))
  }

  /** The first present result of `hits` from index `i` on. */
  function FirstSome(hits: seq<Option<nat>>, i: nat): (r: Option<nat>)
    requires i <= |hits|
    ensures r.None? <==> forall k :: i <= k < |hits| ==> hits[k].None?
    ensures r.Some? ==> exists k :: i <= k < |hits| && hits[k] == r && forall l :: i <= l < k ==> hits[l].None?
    decreases |hits| - i
  {
    if i == |hits| then None
    else if hits[i].Some? then hits[i]
    else FirstSome(hits, i + 1)
  }

  // ---------------------------------------------------------------- _clean_title

  const Quotes: set<char> := {'"', '\'', '.'}
  const Closers: set<char> := {'.', '!', ' '}

  /** `text.lower().startswith("to ")`. Only `T` and `t` lower-case to `t`, and only
      `O` and `o` to `o`, so folding ASCII letters decides it. */
  predicate StartsWithTo(text: string) {
    |text| >= 3 && LowerChar(text[0]) == 't' && LowerChar(text[1]) == 'o' && text[2] == ' '
  }

  /** `r` is a contiguous block of `t`. */
  predicate Within(r: string, t: string) {
    exists a, b :: 0 <= a <= b <= |t| && r == t[a..b]
  }

  lemma WithinTrans(r: string, s: string, t: string)
    requires Within(r, s) && Within(s, t)
    ensures Within(r, t)
  {
    var a, b :| 0 <= a <= b <= |s| && r == s[a..b];
    var c, d :| 0 <= c <= d <= |t| && s == t[c..d];
    assert forall i :: 0 <= i < |r| ==> r[i] == s[a + i] == t[c + a + i];
    assert r == t[c + a..c + b];
  }

  lemma TrimWithin(s: string, cs: set<char>)
    ensures Within(Trim(s, cs), s)
  {
    TrimIsInfix(s, cs);
  }

  /** `_clean_title`: strip whitespace, then quotes and dots from both ends, then
      trailing dots, exclamation marks and spaces, then one leading "to ". */
  function CleanTitle(title: string): (r: string)
    ensures Within(r, title)
    ensures r == [] || r[|r| - 1] !in Closers
  {
    var c := Trimmed(title);
    if StartsWithTo(c) then
      var r := DropTo(c);
      WithinTrans(r, c, title);
      r
    else c
  }

  /** `text[3:].lstrip()`: the "to " and the whitespace after it are removed, and the
      rest of the text is kept. */
  function DropTo(c: string): (r: string)
    requires StartsWithTo(c)
    ensures Within(r, c)
    ensures r == [] || r[|r| - 1] == c[|c| - 1]
  {
    var r := LStrip(c[3..]);
    assert r == c[|c| - |r|..|c|];
    r
  }

  /** What `DropTo` removes is the "to " and the whitespace after it, and nothing
      else: the result is the rest of the text from its first non-whitespace
      character on. */
  lemma DropToRemovesSpace(c: string)
    requires StartsWithTo(c)
    ensures |DropTo(c)| <= |c| - 3 && DropTo(c) == c[|c| - |DropTo(c)|..]
    ensures forall i :: 3 <= i < |c| - |DropTo(c)| ==> c[i] in Whitespace
    ensures DropTo(c) == [] || DropTo(c)[0] !in Whitespace
  {
    var t := c[3..];
    var r := TrimLeft(t, Whitespace);
    assert DropTo(c) == r;
    forall i | 3 <= i < |c| - |r| ensures c[i] in Whitespace {
      assert c[i] == t[i - 3];
    }
  }

  /** The three strip steps of `_clean_title`. */
  function Trimmed(title: string): (r: string)
    ensures Within(r, title)
    ensures r == [] || r[|r| - 1] !in Closers
  {
    TrimmedWithin(title);
    TrimRight(Trim(Strip(title), Quotes), Closers)
  }

  lemma TrimmedWithin(title: string)
    ensures Within(TrimRight(Trim(Strip(title), Quotes), Closers), title)
  {
    var c1 := Strip(title);
    var c2 := Trim(c1, Quotes);
    var c3 := TrimRight(c2, Closers);
    TrimWithin(title, Whitespace);
    TrimWithin(c1, Quotes);
    WithinTrans(c2, c1, title);
    PrefixWithin(c3, c2);
    WithinTrans(c3, c2, title);
  }

  lemma PrefixWithin(p: string, s: string)
    requires |p| <= |s| && p == s[..|p|]
    ensures Within(p, s)
  {
    assert p == s[0..|p|];
  }

  /** A title `_clean_title` has nothing to remove from: no whitespace or quote at
      either end and no closer at the end. */
  predicate Clean(t: string) {
    && t != []
    && t[0] !in Whitespace && t[0] !in Quotes
    && t[|t| - 1] !in Whitespace && t[|t| - 1] !in Quotes && t[|t| - 1] !in Closers
  }

  /** The three strip steps leave a string alone whose ends are already clean. */
  lemma TrimmedOfClean(t: string)
    requires t != [] && t[0] !in Whitespace && t[0] !in Quotes
    requires t[|t| - 1] !in Whitespace && t[|t| - 1] !in Quotes && t[|t| - 1] !in Closers
    ensures Trimmed(t) == t
  {
    TrimLeftKeeps(t, Whitespace);
    TrimRightKeeps(t, Whitespace);
    TrimLeftKeeps(t, Quotes);
    TrimRightKeeps(t, Quotes);
    TrimRightKeeps(t, Closers);
  }

  /** A clean title that does not start with "to " is kept as it is. */
  lemma CleanTitleKeepsClean(t: string)
    requires Clean(t) && !StartsWithTo(t)
    ensures CleanTitle(t) == t
  {
    TrimmedOfClean(t);
  }

  /** A clean title after one leading "to " (in any letter case) loses exactly that
      "to ": `_clean_title("to call John")` is "call John". */
  lemma CleanTitleDropsTo(to: string, t: string)
    requires |to| == 3 && StartsWithTo(to) && Clean(t)
    ensures CleanTitle(to + t) == t
  {
    var c := to + t;
    assert c[0] !in Whitespace && c[0] !in Quotes by {
      assert LowerChar(c[0]) == 't';
    }
    assert c[|c| - 1] == t[|t| - 1];
    TrimmedOfClean(c);
    assert StartsWithTo(c) by {
      assert c[0] == to[0] && c[1] == to[1] && c[2] == to[2];
    }
    assert c[3..] == t;
    TrimLeftKeeps(t, Whitespace);
    assert DropTo(c) == t;
  }

  // ---------------------------------------------------------------- interpret

  /** The captured title: what follows the first matching pattern, or the whole text
      when none matches. */
  function Captured(normalized: string): (r: string)
    ensures Within(r, normalized)
  {
    match FirstMatch(normalized, Patterns)
    case Some(k) =>
      assert normalized[k..] == normalized[k..|normalized|];
      normalized[k..]
    case None =>
      assert normalized == normalized[0..|normalized|];
      normalized
  }

  /** `RegexTaskInterpreter.interpret`. */
  function Interpret(message: string): (r: Option<Interpretation>)
    ensures r.None? <==> CleanTitle(Captured(Collapse(message))) == []
    ensures r.Some? ==> r.value.title == CleanTitle(Captured(Collapse(message)))
    ensures r.Some? ==>
              && r.value.title != []
              && Within(r.value.title, Collapse(message))
              && r.value.title[|r.value.title| - 1] !in Closers
              && (r.value.description.None? <==> r.value.title == Collapse(message))
              && (r.value.description.Some? ==> r.value.description.value == Collapse(message))
  {
    var normalized := Collapse(message);
    var title := Captured(normalized);
    var cleaned := CleanTitle(title);
    WithinTrans(cleaned, title, normalized);
    if cleaned == [] then None
    else Some(Interpretation(cleaned, if normalized != cleaned then Some(normalized) else None))
  }

  /** Interpreting already-normalised text gives the same result. */
  lemma InterpretNormalised(message: string)
    ensures Interpret(Collapse(message)) == Interpret(message)
  {
    CollapseNormalises(message);
  }

  /** A title found is never blank: it ends in a character that is not whitespace. */
  lemma TitleNotBlank(message: string)
    requires Interpret(message).Some?
    ensures !IsBlank(Interpret(message).value.title)
  {
    CleanedNotBlank(message);
  }

  lemma CleanedNotBlank(message: string)
    requires CleanTitle(Captured(Collapse(message))) != []
    ensures !IsBlank(CleanTitle(Captured(Collapse(message))))
  {
    CollapseShape(message);
    ClosedTitleNotBlank(CleanTitle(Captured(Collapse(message))), Captured(Collapse(message)), Collapse(message));
  }

  lemma ClosedTitleNotBlank(t: string, cap: string, c: string)
    requires Collapsed(c) && Within(t, cap) && Within(cap, c)
    requires t != [] && t[|t| - 1] !in Closers
    ensures !IsBlank(t)
  {
    WithinTrans(t, cap, c);
    assert ' ' in Closers;
    EndsInNonSpace(t, c);
  }

  /** A non-empty block of collapsed text that does not end in a space is not blank. */
  lemma EndsInNonSpace(t: string, c: string)
    requires Collapsed(c) && Within(t, c)
    requires t != [] && t[|t| - 1] != ' '
    ensures !IsBlank(t)
  {
    var a, b :| 0 <= a <= b <= |c| && t == c[a..b];
    assert t[|t| - 1] == c[b - 1];
  }

  /** A blank message has no interpretation. */
  lemma BlankMessageHasNoTitle(message: string)
    requires Strip(message) == []
    ensures Interpret(message).None?
  {
    CollapseEmptyIffStripEmpty(message);
  }

  /** Where the collapsed `rest` sits in `s`, the pattern's `to\s+` is a leading "to ". */
  lemma SpacedToStartsWithTo(rest: string, s: string, i: nat)
    requires Collapsed(rest) && i + |rest| == |s| && s[i..] == rest
    requires LiteralAt(s, i, "to") && SpaceAt(s, i + 2)
    ensures StartsWithTo(rest)
  {
    assert s[i] == rest[0] && s[i + 1] == rest[1] && s[i + 2] == rest[2];
    assert LetterMatches(s[i], "to"[0]) && LetterMatches(s[i + 1], "to"[1]);
  }

  /** A message that begins with "add task " takes the rest as the title, after one
      "to " is skipped. */
  lemma AddTaskTakesRest(verb: string, rest: string)
    requires LiteralAt(verb, 0, "add task") && |verb| == 8
    requires rest != [] && Collapsed(rest)
    ensures Captured(verb + " " + rest) == if StartsWithTo(rest) then rest[3..] else rest
  {
    var s := verb + " " + rest;
    assert s[8] == ' ' && s[9] == rest[0];
    assert LiteralAt(s, 0, "add") by {
      forall k | 0 <= k < 3 ensures LetterMatches(s[k], "add"[k]) {
        assert s[k] == verb[k] && "add"[k] == "add task"[k];
      }
    }
    assert SpaceAt(s, 3) by {
      assert s[3] == verb[3];
      assert "add task"[3] == ' ';
      assert LetterMatches(verb[3], "add task"[3]);
    }
    assert !LiteralAt(s, 4, "a") by {
      assert s[4] == verb[4];
      assert "add task"[4] == 't';
      assert LetterMatches(verb[4], "add task"[4]);
      assert LowerChar(s[4]) == 't' && "a"[0] == 'a';
    }
    assert LiteralAt(s, 4, "task") by {
      forall k | 0 <= k < 4 ensures LetterMatches(s[4 + k], "task"[k]) {
        assert s[4 + k] == verb[4 + k] && "task"[k] == "add task"[4 + k];
      }
    }
    assert rest[0] !in Whitespace;
    if StartsWithTo(rest) {
      assert rest[2] in Whitespace;
      assert |rest| > 3;
      assert LiteralAt(s, 9, "to") by {
        assert s[9] == rest[0] && s[10] == rest[1];
      }
      assert s[11] == rest[2] && SpaceAt(s, 11);
      assert MatchAt(s, AddPattern, 0) == Some(12);
      assert s[12..] == rest[3..];
    } else {
      if LiteralAt(s, 9, "to") && SpaceAt(s, 11) && 12 < |s| {
        SpacedToStartsWithTo(rest, s, 9);
        assert false;
      }
      assert MatchAt(s, AddPattern, 0) == Some(9);
      assert s[9..] == rest;
    }
    assert Patterns[0] == AddPattern;
  }

  /** A message that begins with "add a task " takes the rest as the title, after one
      "to " is skipped: "Add a task to call John" captures "call John". */
  lemma AddATaskTakesRest(verb: string, rest: string)
    requires LiteralAt(verb, 0, "add a task") && |verb| == 10
    requires rest != [] && Collapsed(rest)
    ensures Captured(verb + " " + rest) == if StartsWithTo(rest) then rest[3..] else rest
  {
    var s := verb + " " + rest;
    assert s[10] == ' ' && s[11] == rest[0];
    assert LiteralAt(s, 0, "add") by {
      forall k | 0 <= k < 3 ensures LetterMatches(s[k], "add"[k]) {
        assert s[k] == verb[k] && "add"[k] == "add a task"[k];
      }
    }
    assert SpaceAt(s, 3) by {
      assert s[3] == verb[3];
      assert "add a task"[3] == ' ';
      assert LetterMatches(verb[3], "add a task"[3]);
    }
    assert LiteralAt(s, 4, "a") by {
      assert s[4] == verb[4] && "a"[0] == "add a task"[4];
      assert LetterMatches(verb[4], "add a task"[4]);
    }
    assert SpaceAt(s, 5) by {
      assert s[5] == verb[5];
      assert "add a task"[5] == ' ';
      assert LetterMatches(verb[5], "add a task"[5]);
    }
    assert LiteralAt(s, 6, "task") by {
      forall k | 0 <= k < 4 ensures LetterMatches(s[6 + k], "task"[k]) {
        assert s[6 + k] == verb[6 + k] && "task"[k] == "add a task"[6 + k];
      }
    }
    assert rest[0] !in Whitespace;
    if StartsWithTo(rest) {
      assert rest[2] in Whitespace;
      assert |rest| > 3;
      assert LiteralAt(s, 11, "to") by {
        assert s[11] == rest[0] && s[12] == rest[1];
      }
      assert s[13] == rest[2] && SpaceAt(s, 13);
      assert TaskThenTitle(s, 6) == Some(14);
      assert MatchAt(s, AddPattern, 0) == Some(14);
      assert s[14..] == rest[3..];
    } else {
      if LiteralAt(s, 11, "to") && SpaceAt(s, 13) && 14 < |s| {
        SpacedToStartsWithTo(rest, s, 11);
        assert false;
      }
      assert TaskThenTitle(s, 6) == Some(11);
      assert MatchAt(s, AddPattern, 0) == Some(11);
      assert s[11..] == rest;
    }
    assert Patterns[0] == AddPattern;
  }

  /** The example of the chat tests: "Add a task to call John" becomes the title
      "call John", with the whole message as its description. */
  lemma CallJohnExample()
    ensures Interpret("Add a task to call John")
            == Some(Interpretation("call John", Some("Add a task to call John")))
  {
    CallJohnCollapsed();
    CallJohnCaptured();
    CallJohnClean();
    CleanTitleKeepsClean("call John");
  }

  lemma CallJohnClean()
    ensures Clean("call John") && !StartsWithTo("call John")
  {
    LettersAreNotSpace("call John", 8);
    LettersAreNotSpace("call John", 0);
  }

  /** A letter is neither whitespace, nor a quote, nor a closer. */
  lemma LettersAreNotSpace(s: string, i: nat)
    requires i < |s| && ('a' <= s[i] <= 'z' || 'A' <= s[i] <= 'Z')
    ensures s[i] !in Whitespace && s[i] !in Quotes && s[i] !in Closers
  {
  }

  const CallJohnWords: seq<string> := ["Add", "a", "task", "to", "call", "John"]

  lemma CallJohnCollapsed()
    ensures Collapse("Add a task to call John") == "Add a task to call John"
  {
    JoinCallJohn();
    CallJohnWordsAreWords();
    WordsOfJoin(CallJohnWords);
  }

  lemma JoinCallJohn()
    ensures Join(CallJohnWords) == "Add a task to call John"
  {
    JoinCallJohnTail();
  }

  lemma JoinCallJohnTail()
    ensures Join(CallJohnWords[1..]) == "a task to call John"
  {
    JoinToCallJohn();
    assert CallJohnWords[1..][1..] == CallJohnWords[2..];
  }

  lemma JoinToCallJohn()
    ensures Join(CallJohnWords[2..]) == "task to call John"
  {
    var ws := CallJohnWords[2..];
    assert Join(ws[2..]) == "call John";
    assert Join(ws[1..]) == "to call John";
  }

  lemma CallJohnWordsAreWords()
    ensures forall k :: 0 <= k < |CallJohnWords| ==> IsWord(CallJohnWords[k])
  {
    WordsOfLetters(CallJohnWords);
  }

  /** Non-empty runs of letters are words. */
  lemma WordsOfLetters(ws: seq<string>)
    requires forall k, i :: 0 <= k < |ws| && 0 <= i < |ws[k]| ==> 'a' <= ws[k][i] <= 'z' || 'A' <= ws[k][i] <= 'Z'
    requires forall k :: 0 <= k < |ws| ==> ws[k] != []
    ensures forall k :: 0 <= k < |ws| ==> IsWord(ws[k])
  {
    forall k, i | 0 <= k < |ws| && 0 <= i < |ws[k]| ensures ws[k][i] !in Whitespace {
      LettersAreNotSpace(ws[k], i);
    }
  }

  lemma CallJohnCaptured()
    ensures Captured("Add a task to call John") == "call John"
  {
    var rest := "to call John";
    RestCollapsed();
    assert "Add a task to call John" == "Add a task" + " " + rest;
    RestStartsWithTo();
    AddATaskTakesRest("Add a task", rest);
  }

  lemma RestStartsWithTo()
    ensures StartsWithTo("to call John") && "to call John"[3..] == "call John"
  {
    assert ' ' in Whitespace;
  }

  lemma RestCollapsed()
    ensures Collapsed("to call John")
  {
    var ws := ["to", "call", "John"];
    assert Join(ws[2..]) == "John";
    assert Join(ws[1..]) == "call John";
    assert Join(ws) == "to call John";
    WordsOfLetters(ws);
    JoinCollapsed(ws);
  }
}

=== FILE: chat_service.dfy ===
/** Creating a task from a chat message: the message is checked for emptiness and by
    the optional safety checker, interpreted by the optional primary interpreter with the
    rule-based interpreter as fallback, and handed to `create_task` with default
    settings. What the safety checker and the primary interpreter do is an input,
    since both are calls to an external language model. */
module ChatService {
  import opened Results
  import opened Text
  import opened Entities
  import opened Database
  import opened ChatInterpreter
  import TaskService

  /** `SafetyCheckResult`. */
  datatype SafetyVerdict = SafetyVerdict(flagged: bool, reason: Option<string>)

  /** What the configured safety checker did with the message: there is none, it
      returned a verdict, or it raised an exception, which `_run_safety` does not
      catch. */
  datatype Safety = NoChecker | Checked(verdict: SafetyVerdict) | CheckRaised(error: string)

  /** The checker stops the message: it raised, or it flagged the message. */
  predicate Stops(safety: Safety) {
    safety.CheckRaised? || (safety.Checked? && safety.verdict.flagged)
  }

  /** What the configured primary interpreter did with the normalised message: there is
      none, it raised an exception, or it returned a result. */
  datatype Primary = NoInterpreter | Raised | Returned(result: Option<Interpretation>)

  /** `ChatMessageResult` of a successful call: the reply and the created task. */
  datatype ChatReply = ChatReply(reply: string, createdTask: Task)

  const EmptyMessage: Error := ValidationError("Message cannot be empty")
  const DefaultSafetyReason: string := "Message failed safety checks"
  const NoTitle: Error := ValidationError("Could not determine a task title from the message")

  const ReplyPrefix: string := "Created a task titled \""
  const ReplySuffix: string := "\" with default settings."

  // ---------------------------------------------------------------- _run_safety

  /** `_run_safety`: the error it raises, if any, given what the checker does with
      the message. */
  function RunSafety(message: string, safety: Safety): (r: Option<Error>)
    ensures Strip(message) == [] ==> r == Some(EmptyMessage)
    ensures Strip(message) != [] ==> (r.Some? <==> Stops(safety))
    ensures Strip(message) != [] && safety.CheckRaised? ==> r == Some(ServiceError(safety.error))
    ensures Strip(message) != [] && safety.Checked? && r.Some? ==>
              && r.value.ValidationError?
              && r.value.message != []
              && (r.value.message == DefaultSafetyReason <==>
                    safety.verdict.reason.None? || safety.verdict.reason.value in {[], DefaultSafetyReason})
              && (safety.verdict.reason.Some? && safety.verdict.reason.value != [] ==>
                    r.value.message == safety.verdict.reason.value)
  {
    if Strip(message) == [] then Some(EmptyMessage)
    else match safety
      case NoChecker => None
      case CheckRaised(e) => Some(ServiceError(e))
      case Checked(v) =>
        if !v.flagged then None
        else
          var reason := if v.reason.Some? && v.reason.value != [] then v.reason.value else DefaultSafetyReason;
          Some(ValidationError(reason))
  }

  /** A blank message is refused whatever the checker would have said: it is refused
      before the checker is consulted. */
  lemma BlankMessageSkipsChecker(message: string, s1: Safety, s2: Safety)
    requires IsBlank(message)
    ensures RunSafety(message, s1) == RunSafety(message, s2) == Some(EmptyMessage)
  {
    StripEmptyIffBlank(message);
  }

  // ---------------------------------------------------------------- _interpret

  /** An interpreter's result is used when it exists and has a non-empty title. */
  predicate Usable(i: Option<Interpretation>) {
    i.Some? && i.value.title != []
  }

  /** `_interpret`: the primary interpreter's result when usable, otherwise the
      rule-based fallback's, otherwise an error. Both are given the message with its
      whitespace collapsed. */
  function InterpretMessage(message: string, primary: Primary): (r: Result<Interpretation>)
    ensures primary.Returned? && Usable(primary.result) ==> r == Ok(primary.result.value)
    ensures !(primary.Returned? && Usable(primary.result)) ==>
              && (r.Ok? <==> Interpret(message).Some?)
              && (r.Ok? ==> r.value == Interpret(message).value)
              && (r.Err? ==> r.error == NoTitle)
    ensures r.Ok? ==> r.value.title != []
  {
    var normalized := Collapse(message);
    if primary.Returned? && Usable(primary.result) then Ok(primary.result.value)
    else
      var fallback := Interpret(normalized);
      InterpretNormalised(message);
      if Usable(fallback) then Ok(fallback.value) else Err(NoTitle)
  }

  /** Without a usable primary result, the message has a title exactly when the
      rule-based interpreter finds one, and the primary outcome does not matter. */
  lemma FallbackIgnoresPrimaryFailure(message: string, p1: Primary, p2: Primary)
    requires !(p1.Returned? && Usable(p1.result))
    requires !(p2.Returned? && Usable(p2.result))
    ensures InterpretMessage(message, p1) == InterpretMessage(message, p2)
  {
  }

  // ---------------------------------------------------------------- create_task_from_message

  function Reply(title: string): string {
    ReplyPrefix + title + ReplySuffix
  }

  /** The title quoted in a reply. */
  function QuotedTitle(reply: string): string
    requires |reply| >= |ReplyPrefix| + |ReplySuffix|
  {
    reply[|ReplyPrefix|..|reply| - |ReplySuffix|]
  }

  /** The reply quotes the title in full: it can be read back from the reply. */
  lemma ReplyQuotesTitle(title: string)
    ensures |Reply(title)| == |ReplyPrefix| + |title| + |ReplySuffix|
    ensures QuotedTitle(Reply(title)) == title
  {
    var r := Reply(title);
    assert forall i :: 0 <= i < |title| ==> r[|ReplyPrefix| + i] == title[i];
  }

  /** The request `create_task_from_message` makes: only the owner, title and
      description, so every other field takes its default. */
  function Request(userId: Id, i: Interpretation): TaskService.NewTask {
    TaskService.NewTask(userId, i.title, i.description, None, None, None, None)
  }

  /** `create_task_from_message`. */
  function CreateTaskFromMessage(w: World, userId: Id, message: string, safety: Safety,
                                 primary: Primary, now: Instant): (r: Result<(World, ChatReply)>)
    requires Consistent(w)
    ensures RunSafety(message, safety).Some? ==> r == Err(RunSafety(message, safety).value)
    ensures RunSafety(message, safety).None? && InterpretMessage(message, primary).Err? ==> r == Err(NoTitle)
    ensures RunSafety(message, safety).None? && InterpretMessage(message, primary).Ok? ==>
              var i := InterpretMessage(message, primary).value;
              && (r.Err? <==> TaskService.CreateError(Request(userId, i), now).Some?)
              && (r.Err? ==> r.error == TaskService.CreateError(Request(userId, i), now).value)
    ensures r.Ok? ==> var (w', c) := r.value; var t := c.createdTask;
              var i := InterpretMessage(message, primary).value;
              && t.ownerId == userId
              && t.title == Strip(i.title)
              && t.description == TaskService.CleanDescription(i.description)
              && t.status == Todo && t.priority == Medium && t.dueDate.None? && t.tags == []
              && w'.tasks == w.tasks + [t]
              && FindTask(w.tasks, t.id).None?
              && w'.tags == w.tags
              && |w'.audit| == |w.audit| + 1
              && Consistent(w')
              && c.reply == ReplyPrefix + t.title + ReplySuffix
  {
    match RunSafety(message, safety)
    case Some(e) => Err(e)
    case None =>
      var i :- InterpretMessage(message, primary);
      var created :- TaskService.CreateTask(w, Request(userId, i), now);
      var (w', t) := created;
      Ok((w', ChatReply(Reply(t.title), t)))
  }

  /** A flagged message is refused with a validation error and creates no task. */
  lemma FlaggedMessageCreatesNothing(w: World, userId: Id, message: string, verdict: SafetyVerdict,
                                     primary: Primary, now: Instant)
    requires Consistent(w)
    requires verdict.flagged
    ensures CreateTaskFromMessage(w, userId, message, Checked(verdict), primary, now).Err?
    ensures CreateTaskFromMessage(w, userId, message, Checked(verdict), primary, now).error.ValidationError?
  {
  }

  /** A checker that raises stops the request with its exception before anything is
      interpreted or created. */
  lemma RaisingCheckerCreatesNothing(w: World, userId: Id, message: string, error: string,
                                     primary: Primary, now: Instant)
    requires Consistent(w)
    requires !IsBlank(message)
    ensures CreateTaskFromMessage(w, userId, message, CheckRaised(error), primary, now) == Err(ServiceError(error))
  {
    StripEmptyIffBlank(message);
  }

  /** A message the checker passes, whose title the rule-based interpreter finds, with
      no usable primary result and a title of at most 500 characters, creates a task
      whose title is the interpreter's title with its surrounding whitespace stripped. */
  lemma FallbackTitleIsStored(w: World, userId: Id, message: string, safety: Safety,
                              primary: Primary, now: Instant)
    requires Consistent(w)
    requires Strip(message) != []
    requires !Stops(safety)
    requires !(primary.Returned? && Usable(primary.result))
    requires Interpret(message).Some? && |Interpret(message).value.title| <= TaskService.MaxTitleLength
    ensures CreateTaskFromMessage(w, userId, message, safety, primary, now).Ok?
    ensures CreateTaskFromMessage(w, userId, message, safety, primary, now).value.1.createdTask.title
            == Strip(Interpret(message).value.title)
  {
    var i := Interpret(message).value;
    TitleNotBlank(message);
    TitleAccepted(userId, i, now);
    CreatedFrom(w, userId, message, safety, primary, now, i);
  }

  /** A non-blank title of at most 500 characters passes `create_task`'s checks when
      no due date is given. */
  lemma TitleAccepted(userId: Id, i: Interpretation, now: Instant)
    requires !IsBlank(i.title) && |i.title| <= TaskService.MaxTitleLength
    ensures TaskService.CreateError(Request(userId, i), now).None?
  {
    StripEmptyIffBlank(i.title);
  }

  /** A message that passes the checks and is interpreted as `i` creates a task whose
      title is `i`'s, stripped, when `create_task` accepts the request. */
  lemma CreatedFrom(w: World, userId: Id, message: string, safety: Safety,
                    primary: Primary, now: Instant, i: Interpretation)
    requires Consistent(w)
    requires RunSafety(message, safety).None?
    requires InterpretMessage(message, primary) == Ok(i)
    requires TaskService.CreateError(Request(userId, i), now).None?
    ensures CreateTaskFromMessage(w, userId, message, safety, primary, now).Ok?
    ensures CreateTaskFromMessage(w, userId, message, safety, primary, now).value.1.createdTask.title
            == Strip(i.title)
  {
  }
}

=== FILE: database.dfy ===
/** The persistent state the services work on: the task, tag, audit, reminder and
    attachment tables, the files in storage, and the counter fresh ids are drawn from.
    Deleting rows applies the schema's `ON DELETE` rules. */
module Database {
  import opened Results
  import opened Entities
  import opened Seqs
  import TagRepository

  datatype World = World(
    tasks: seq<Task>,
    tags: TagRepository.TagStore,
    audit: seq<AuditEvent>,
    reminders: seq<ReminderLog>,
    attachments: seq<Attachment>,
    files: set<string>,
    nextId: Id)

  /** Primary keys are unique and were drawn from the counter, and the tag table is valid. */
  predicate UniqueTaskIds(tasks: seq<Task>) {
    forall i, j :: 0 <= i < j < |tasks| ==> tasks[i].id != tasks[j].id
  }

  predicate Consistent(w: World) {
    && UniqueTaskIds(w.tasks)
    && (forall i :: 0 <= i < |w.tasks| ==> w.tasks[i].id < w.nextId)
    && (forall i, j :: 0 <= i < j < |w.attachments| ==> w.attachments[i].id != w.attachments[j].id)
    && (forall i :: 0 <= i < |w.attachments| ==> w.attachments[i].id < w.nextId)
    && TagRepository.Valid(w.tags)
  }

  /** The task row with this primary key. */
  function FindTask(tasks: seq<Task>, id: Id): (r: Option<Task>)
    ensures r.Some? <==> exists t :: t in tasks && t.id == id
    ensures r.Some? ==> r.value in tasks && r.value.id == id
  {
    if tasks == [] then None
    else if tasks[0].id == id then Some(tasks[0])
    else FindTask(tasks[1..], id)
  }

  /** The attachment row with this primary key. */
  function FindAttachment(attachments: seq<Attachment>, id: Id): (r: Option<Attachment>)
    ensures r.Some? <==> exists a :: a in attachments && a.id == id
    ensures r.Some? ==> r.value in attachments && r.value.id == id
  {
    if attachments == [] then None
    else if attachments[0].id == id then Some(attachments[0])
    else FindAttachment(attachments[1..], id)
  }

  /** With unique keys, the row found is the only one with that key. */
  lemma {:induction false} FindTaskUnique(tasks: seq<Task>, id: Id, i: nat)
    requires UniqueTaskIds(tasks)
    requires i < |tasks| && tasks[i].id == id
    ensures FindTask(tasks, id) == Some(tasks[i])
  {
    if i > 0 {
      assert tasks[0].id != id;
      FindTaskUnique(tasks[1..], id, i - 1);
    }
  }

  /** Appending a task row whose id is the counter's keeps the ids unique and below
      the advanced counter. */
  lemma AppendFreshTask(w: World, t: Task)
    requires Consistent(w) && t.id == w.nextId
    ensures UniqueTaskIds(w.tasks + [t])
    ensures forall i :: 0 <= i < |w.tasks + [t]| ==> (w.tasks + [t])[i].id < w.nextId + 1
  {
    var ts := w.tasks + [t];
    forall i, j | 0 <= i < j < |ts| ensures ts[i].id != ts[j].id {
      if j == |w.tasks| {
        assert ts[i] == w.tasks[i];
      }
    }
  }

  /** The counter is ahead of every stored key, so the next id is free. */
  lemma FreshIdAbsent(w: World)
    requires Consistent(w)
    ensures FindTask(w.tasks, w.nextId).None?
    ensures FindAttachment(w.attachments, w.nextId).None?
  {
  }

  function AddAudit(w: World, e: AuditEvent): (r: World)
    ensures r.audit == w.audit + [e]
    ensures r == w.(audit := r.audit)
  {
    w.(audit := w.audit + [e])
  }

  /** The audit table's `ON DELETE SET NULL` on its task reference. */
  function DetachTask(e: AuditEvent, taskId: Id): AuditEvent {
    if e.taskId == Some(taskId) then e.(taskId := None) else e
  }

  /** The audit table's `ON DELETE SET NULL` on its attachment reference. */
  function DetachAttachments(e: AuditEvent, ids: set<Id>): AuditEvent {
    if e.attachmentId.Some? && e.attachmentId.value in ids then e.(attachmentId := None) else e
  }

  /** `after` is `before` with each of its two references kept or set to null. */
  predicate Detached(before: AuditEvent, after: AuditEvent) {
    && after == before.(taskId := after.taskId, attachmentId := after.attachmentId)
    && (after.taskId == before.taskId || after.taskId.None?)
    && (after.attachmentId == before.attachmentId || after.attachmentId.None?)
  }

  /** The ids of the task's attachments. */
  function AttachmentIdsOf(w: World, taskId: Id): set<Id> {
    set a | a in w.attachments && a.taskId == taskId :: a.id
  }

  /** Deleting a task row. Its attachment and reminder rows are deleted with it, audit
      events that refer to it or to those attachments keep the event with the reference
      cleared, and the stored files are left in storage. */
  function DeleteTaskRow(w: World, taskId: Id): (r: World)
    ensures forall t :: t in r.tasks <==> t in w.tasks && t.id != taskId
    ensures forall a :: a in r.attachments <==> a in w.attachments && a.taskId != taskId
    ensures forall m :: m in r.reminders <==> m in w.reminders && m.taskId != taskId
    ensures |r.audit| == |w.audit|
    ensures forall i :: 0 <= i < |r.audit| ==> r.audit[i].taskId != Some(taskId)
    ensures forall i :: 0 <= i < |r.audit| ==> Detached(w.audit[i], r.audit[i])
    ensures r.files == w.files && r.tags == w.tags && r.nextId == w.nextId
  {
    var gone := AttachmentIdsOf(w, taskId);
    w.(tasks := Filter(w.tasks, (t: Task) => t.id != taskId),
       attachments := Filter(w.attachments, (a: Attachment) => a.taskId != taskId),
       reminders := Filter(w.reminders, (m: ReminderLog) => m.taskId != taskId),
       audit := Map(w.audit, (e: AuditEvent) => DetachAttachments(DetachTask(e, taskId), gone)))
  }

  /** Deleting an attachment row; audit events that refer to it have the reference
      cleared. */
  function DeleteAttachmentRow(w: World, attachmentId: Id): (r: World)
    ensures forall a :: a in r.attachments <==> a in w.attachments && a.id != attachmentId
    ensures |r.audit| == |w.audit|
    ensures forall i :: 0 <= i < |r.audit| ==> r.audit[i].attachmentId != Some(attachmentId)
    ensures forall i :: 0 <= i < |r.audit| ==> Detached(w.audit[i], r.audit[i]) && r.audit[i].taskId == w.audit[i].taskId
    ensures r == w.(attachments := r.attachments, audit := r.audit)
  {
    w.(attachments := Filter(w.attachments, (a: Attachment) => a.id != attachmentId),
       audit := Map(w.audit, (e: AuditEvent) => DetachAttachments(e, {attachmentId})))
  }
}

=== FILE: entities.dfy ===
/** The domain entities (tasks, tags, attachments, audit events, reminder logs), the
    enumerations they use, and the small predicates and mutators defined on them. */
module Entities {
  import opened Results
  import opened Text

  /** A UUID. Fresh ones are drawn from a counter in this model. */
  type Id = nat

  /** A naive UTC datetime, in microseconds. */
  type Instant = int

  const MicrosPerHour: int := 3_600_000_000

  datatype TaskStatus = Todo | InProgress | Done | Blocked
  datatype TaskPriority = Low | Medium | High | Critical

  datatype EventType =
    | TaskCreated | TaskUpdated | TaskDeleted
    | AttachmentAdded | AttachmentRemoved
    | ReminderSent | Login | PasswordChanged

  datatype ReminderType = DueSoon

  datatype Task = Task(
    id: Id,
    ownerId: Id,
    title: string,
    description: Option<string>,
    status: TaskStatus,
    priority: TaskPriority,
    dueDate: Option<Instant>,
    createdAt: Instant,
    updatedAt: Instant,
    tags: seq<string>)

  datatype Attachment = Attachment(
    id: Id,
    taskId: Id,
    filename: string,
    contentType: string,
    sizeBytes: nat,
    storagePath: string,
    uploadedBy: Option<Id>,
    createdAt: Instant)

  /** One row of `reminder_logs`: a reminder of a type was recorded for a task. */
  datatype ReminderLog = ReminderLog(taskId: Id, reminderType: ReminderType, sentAt: Instant)

  /** The task fields an update can change; the keys of the `changes` dictionary. */
  datatype Field = TitleField | DescriptionField | StatusField | PriorityField | DueDateField | TagsField

  /** One `{"old": ..., "new": ...}` entry of the `changes` dictionary. */
  datatype Change =
    | TitleChange(oldTitle: string, newTitle: string)
    | DescriptionChange(oldDescription: Option<string>, newDescription: Option<string>)
    | StatusChange(oldStatus: TaskStatus, newStatus: TaskStatus)
    | PriorityChange(oldPriority: TaskPriority, newPriority: TaskPriority)
    | DueDateChange(oldDue: Option<Instant>, newDue: Instant)
    | TagsChange(oldTags: seq<string>, newTags: seq<string>)

  /** The `details` dictionary of each kind of audit event the core writes. */
  datatype Details =
    | TaskSnapshot(title: string, status: TaskStatus, priority: TaskPriority)
    | TaskChanges(changes: map<Field, Change>)
    | DeletedTask(deletedTitle: string, deletedStatus: TaskStatus)
    | FileInfo(filename: string, sizeBytes: nat, contentType: string)
    | ReminderDue(dueDate: Option<Instant>)

  datatype AuditEvent = AuditEvent(
    userId: Option<Id>,
    eventType: EventType,
    taskId: Option<Id>,
    attachmentId: Option<Id>,
    details: Details,
    createdAt: Instant)

  // ---------------------------------------------------------------- Task

  predicate IsOverdue(t: Task, now: Instant) {
    match t.dueDate
    case None => false
    case Some(due) => now > due && t.status != Done
  }

  predicate CanBeModifiedBy(t: Task, userId: Id) {
    t.ownerId == userId
  }

  predicate CanBeViewedBy(t: Task, userId: Id) {
    t.ownerId == userId
  }

  function MarkAsDone(t: Task, now: Instant): (r: Task)
    ensures r.status == Done && r.updatedAt == now
    ensures r == t.(status := r.status, updatedAt := r.updatedAt)
  {
    t.(status := Done, updatedAt := now)
  }

  function MarkAsInProgress(t: Task, now: Instant): (r: Task)
    ensures r.status == InProgress && r.updatedAt == now
    ensures r == t.(status := r.status, updatedAt := r.updatedAt)
  {
    t.(status := InProgress, updatedAt := now)
  }

  predicate HasTag(t: Task, tag: string) {
    tag in t.tags
  }

  /** `add_tag`: appends an absent tag and reports whether it did. */
  function AddTag(t: Task, tag: string, now: Instant): (r: (Task, bool))
    ensures r.1 <==> !HasTag(t, tag)
    ensures HasTag(r.0, tag)
    ensures r.1 ==> r.0 == t.(tags := t.tags + [tag], updatedAt := now)
    ensures !r.1 ==> r.0 == t
  {
    if tag !in t.tags then (t.(tags := t.tags + [tag], updatedAt := now), true)
    else (t, false)
  }

  /** Python's `list.index`: the position of the first occurrence of `x`. */
  function FirstIndex(s: seq<string>, x: string): (i: nat)
    requires x in s
    ensures i < |s| && s[i] == x && x !in s[..i]
  {
    if s[0] == x then 0 else 1 + FirstIndex(s[1..], x)
  }

  /** Python's `list.remove`: drops the first occurrence of `x`. */
  function RemoveFirst(s: seq<string>, x: string): (r: seq<string>)
    requires x in s
    ensures |r| == |s| - 1
    ensures multiset(r) == multiset(s) - multiset{x}
  {
    var i := FirstIndex(s, x);
    assert s == s[..i] + [x] + s[i + 1..];
    s[..i] + s[i + 1..]
  }

  /** `remove_tag`: removes the first occurrence of a present tag and reports whether
      it did. */
  function RemoveTag(t: Task, tag: string, now: Instant): (r: (Task, bool))
    ensures r.1 <==> HasTag(t, tag)
    ensures r.1 ==> r.0 == t.(tags := RemoveFirst(t.tags, tag), updatedAt := now)
    ensures !r.1 ==> r.0 == t
  {
    if tag in t.tags then (t.(tags := RemoveFirst(t.tags, tag), updatedAt := now), true)
    else (t, false)
  }

  predicate NoDuplicates<T(==)>(s: seq<T>) {
    forall i, j :: 0 <= i < j < |s| ==> s[i] != s[j]
  }

  /** `add_tag` never introduces a duplicate, so a duplicate-free tag list stays so. */
  lemma AddTagKeepsTagsDistinct(t: Task, tag: string, now: Instant)
    requires NoDuplicates(t.tags)
    ensures NoDuplicates(AddTag(t, tag, now).0.tags)
  {
  }

  /** Adding an absent tag and then removing it restores the tag list. */
  lemma AddThenRemoveTagRestoresTags(t: Task, tag: string, now: Instant)
    requires !HasTag(t, tag)
    ensures RemoveTag(AddTag(t, tag, now).0, tag, now).0.tags == t.tags
  {
    var added := t.tags + [tag];
    var i := FirstIndex(added, tag);
    assert i == |t.tags|;
    assert added[..i] == t.tags;
  }

  /** A task with no due date is never overdue; otherwise it is overdue exactly when
      the due date has passed and the task is not done. */
  lemma OverdueCharacterisation(t: Task, now: Instant)
    ensures t.dueDate.None? ==> !IsOverdue(t, now)
    ensures t.dueDate.Some? ==> (IsOverdue(t, now) <==> now > t.dueDate.value && t.status != Done)
    ensures !IsOverdue(MarkAsDone(t, now), now)
    ensures IsOverdue(t, now) ==> forall later :: later >= now ==> IsOverdue(t, later)
  {
  }

  // ---------------------------------------------------------------- Attachment

  predicate StartsWith(s: string, prefix: string) {
    |prefix| <= |s| && s[..|prefix|] == prefix
  }

  /** Media types are written as a top-level type plus a subtype, so that the
      verifier can see their first characters. */
  const Application: string := "application/"
  const DocxType: string := Application + "vnd.openxmlformats-officedocument.wordprocessingml.document"
  const XlsxType: string := Application + "vnd.openxmlformats-officedocument.spreadsheetml.sheet"
  const PptxType: string := Application + "vnd.openxmlformats-officedocument.presentationml.presentation"

  const DocumentTypes: set<string> := {
    Application + "pdf",
    Application + "msword",
    DocxType,
    Application + "vnd.ms-excel",
    XlsxType,
    "text/plain",
    "text/csv"
  }

  predicate IsForTask(a: Attachment, taskId: Id) {
    a.taskId == taskId
  }

  predicate IsImage(a: Attachment) {
    StartsWith(a.contentType, "image/")
  }

  predicate IsDocument(a: Attachment) {
    a.contentType in DocumentTypes
  }

  /** No content type is classified as both an image and a document. */
  lemma ImageAndDocumentDisjoint(a: Attachment)
    ensures !(IsImage(a) && IsDocument(a))
  {
    if IsImage(a) {
      assert a.contentType[0] == 'i' by {
        assert a.contentType[..6] == "image/";
      }
      assert Application[0] == 'a';
    }
  }
}

=== FILE: reminder_service.dfy ===
/** The due-soon reminder sweep. Each listed task without a `DUE_SOON` log gets one,
    plus a `REMINDER_SENT` audit event; the reminder log is the only record of what
    was sent, so the sweep is idempotent as long as the logs it writes are kept. */
module ReminderService {
  import opened Results
  import opened Entities
  import opened Database
  import TaskRepository

  /** What happens to the writes for one task, as the repository interface allows:
      the log row is refused, or it is accepted and the audit row is refused. The
      loop catches both exceptions and goes on with the next task. Each outcome
      affects only its own task's writes; a storage layer whose refused write undoes
      earlier writes of the same transaction is not modelled here. */
  datatype Outcome = Written | LogRefused | AuditRefused

  /** `get_by_task_and_type(task_id, DUE_SOON)`: the log row for the pair, if any. */
  function FindReminder(reminders: seq<ReminderLog>, taskId: Id): (r: Option<ReminderLog>)
    ensures r.Some? <==> exists m :: m in reminders && m.taskId == taskId && m.reminderType == DueSoon
    ensures r.Some? ==> r.value in reminders && r.value.taskId == taskId
  {
    if reminders == [] then None
    else if reminders[0].taskId == taskId && reminders[0].reminderType == DueSoon then Some(reminders[0])
    else FindReminder(reminders[1..], taskId)
  }

  /** The ids of the tasks that hold a `DUE_SOON` log. */
  function Reminded(reminders: seq<ReminderLog>): set<Id> {
    set m | m in reminders && m.reminderType == DueSoon :: m.taskId
  }

  lemma FindReminderIffReminded(reminders: seq<ReminderLog>, taskId: Id)
    ensures FindReminder(reminders, taskId).Some? <==> taskId in Reminded(reminders)
  {
    if taskId in Reminded(reminders) {
      var m :| m in reminders && m.reminderType == DueSoon && m.taskId == taskId;
    }
  }

  /** The unique constraint on `(task_id, reminder_type)` of the reminder table. */
  predicate AtMostOneLogPerTask(reminders: seq<ReminderLog>) {
    forall i, j :: 0 <= i < j < |reminders| ==>
      reminders[i].taskId != reminders[j].taskId || reminders[i].reminderType != reminders[j].reminderType
  }

  function NewLog(t: Task, now: Instant): ReminderLog {
    ReminderLog(t.id, DueSoon, now)
  }

  /** The audit event of a sent reminder: the owner as user, the due date as details. */
  function SentEvent(t: Task, now: Instant): AuditEvent {
    AuditEvent(Some(t.ownerId), ReminderSent, Some(t.id), None, ReminderDue(t.dueDate), now)
  }

  /** The tasks of `due` whose log write goes through. */
  function LogWritten(due: seq<Task>, outcome: Id -> Outcome): set<Id> {
    set t | t in due && outcome(t.id) != LogRefused :: t.id
  }

  /** The loop of `send_due_soon_reminders` over the listed tasks: returns the new state
      and the number of tasks for which both writes succeeded. */
  function Sweep(w: World, due: seq<Task>, outcome: Id -> Outcome, now: Instant): (r: (World, nat))
    ensures r.0 == w.(reminders := r.0.reminders, audit := r.0.audit)
    ensures |w.reminders| <= |r.0.reminders| && forall i :: 0 <= i < |w.reminders| ==> r.0.reminders[i] == w.reminders[i]
    ensures |r.0.audit| == |w.audit| + r.1 && forall i :: 0 <= i < |w.audit| ==> r.0.audit[i] == w.audit[i]
    ensures r.1 <= |due|
    decreases |due|
  {
    if due == [] then (w, 0)
    else
      var t := due[0];
      if FindReminder(w.reminders, t.id).Some? then
        Sweep(w, due[1..], outcome, now)
      else
        match outcome(t.id)
        case LogRefused =>
          Sweep(w, due[1..], outcome, now)
        case AuditRefused =>
          var logged := w.(reminders := w.reminders + [NewLog(t, now)]);
          Sweep(logged, due[1..], outcome, now)
        case Written =>
          var logged := w.(reminders := w.reminders + [NewLog(t, now)], audit := w.audit + [SentEvent(t, now)]);
          var (w', n) := Sweep(logged, due[1..], outcome, now);
          (w', n + 1)
  }

  /** After a sweep, the tasks holding a log are those that held one before and the
      listed tasks whose log write went through. */
  lemma {:induction false} SweepReminded(w: World, due: seq<Task>, outcome: Id -> Outcome, now: Instant)
    ensures Reminded(Sweep(w, due, outcome, now).0.reminders) == Reminded(w.reminders) + LogWritten(due, outcome)
    decreases |due|
  {
    if due != [] {
      var t := due[0];
      SweepStep(w, due, outcome, now);
      NextReminded(w, t, outcome, now);
      LogWrittenStep(due, outcome);
      SweepReminded(Next(w, t, outcome, now), due[1..], outcome, now);
    }
  }

  /** One step adds the task to the reminded ones exactly when its log write goes
      through; a task that already held a log was reminded before. */
  lemma NextReminded(w: World, t: Task, outcome: Id -> Outcome, now: Instant)
    ensures Reminded(Next(w, t, outcome, now).reminders) ==
              Reminded(w.reminders) + if outcome(t.id) != LogRefused then {t.id} else {}
  {
    FindReminderIffReminded(w.reminders, t.id);
    if FindReminder(w.reminders, t.id).None? && outcome(t.id) != LogRefused {
      assert Reminded(w.reminders + [NewLog(t, now)]) == Reminded(w.reminders) + {t.id};
    }
  }

  lemma LogWrittenStep(due: seq<Task>, outcome: Id -> Outcome)
    requires due != []
    ensures LogWritten(due, outcome) ==
              LogWritten(due[1..], outcome) + if outcome(due[0].id) != LogRefused then {due[0].id} else {}
  {
    assert due == [due[0]] + due[1..];
  }

  /** The rows of `rs` from index `from` on are `DUE_SOON` logs, stamped `now`, for
      tasks of `due` that held no log in `prior`. */
  predicate LogsFor(rs: seq<ReminderLog>, from: nat, due: seq<Task>, prior: set<Id>, now: Instant) {
    forall i :: from <= i < |rs| ==>
      exists t :: t in due && rs[i] == NewLog(t, now) && t.id !in prior
  }

  /** The rows of `events` from index `from` on are `REMINDER_SENT` events of tasks of
      `due` that held no log in `prior` and whose two writes went through. */
  predicate EventsFor(events: seq<AuditEvent>, from: nat, due: seq<Task>, prior: set<Id>,
                      outcome: Id -> Outcome, now: Instant) {
    forall i :: from <= i < |events| ==> SentFor(events[i], due, prior, outcome, now)
  }

  predicate SentFor(e: AuditEvent, due: seq<Task>, prior: set<Id>, outcome: Id -> Outcome, now: Instant) {
    exists t :: t in due && e == SentEvent(t, now) && t.id !in prior && outcome(t.id) == Written
  }

  /** Each log row a sweep writes is a `DUE_SOON` log, stamped now, for a listed task
      that had none. */
  lemma {:induction false} SweepWritesLogs(w: World, due: seq<Task>, outcome: Id -> Outcome, now: Instant)
    ensures LogsFor(Sweep(w, due, outcome, now).0.reminders, |w.reminders|, due, Reminded(w.reminders), now)
    decreases |due|
  {
    if due != [] {
      var t := due[0];
      var prior := Reminded(w.reminders);
      FindReminderIffReminded(w.reminders, t.id);
      var logged := if FindReminder(w.reminders, t.id).Some? || outcome(t.id) == LogRefused then w
                    else if outcome(t.id) == Written
                    then w.(reminders := w.reminders + [NewLog(t, now)], audit := w.audit + [SentEvent(t, now)])
                    else w.(reminders := w.reminders + [NewLog(t, now)]);
      var rs := Sweep(w, due, outcome, now).0.reminders;
      assert rs == Sweep(logged, due[1..], outcome, now).0.reminders;
      assert prior <= Reminded(logged.reminders);
      SweepWritesLogs(logged, due[1..], outcome, now);
      forall i | |w.reminders| <= i < |rs|
        ensures exists x :: x in due && rs[i] == NewLog(x, now) && x.id !in prior
      {
        if i < |logged.reminders| {
          assert rs[i] == logged.reminders[i] == NewLog(t, now);
          assert t in due;
        } else {
          var x :| x in due[1..] && rs[i] == NewLog(x, now) && x.id !in Reminded(logged.reminders);
          assert x in due;
        }
      }
    }
  }

  /** Each audit row a sweep writes is the `REMINDER_SENT` event of a listed task that
      had no log and whose two writes went through. */
  lemma {:induction false} SweepWritesEvents(w: World, due: seq<Task>, outcome: Id -> Outcome, now: Instant)
    ensures EventsFor(Sweep(w, due, outcome, now).0.audit, |w.audit|, due, Reminded(w.reminders), outcome, now)
    decreases |due|
  {
    if due != [] {
      var t := due[0];
      var prior := Reminded(w.reminders);
      FindReminderIffReminded(w.reminders, t.id);
      var logged := if FindReminder(w.reminders, t.id).Some? || outcome(t.id) == LogRefused then w
                    else if outcome(t.id) == Written
                    then w.(reminders := w.reminders + [NewLog(t, now)], audit := w.audit + [SentEvent(t, now)])
                    else w.(reminders := w.reminders + [NewLog(t, now)]);
      var es := Sweep(w, due, outcome, now).0.audit;
      assert es == Sweep(logged, due[1..], outcome, now).0.audit;
      assert prior <= Reminded(logged.reminders);
      SweepWritesEvents(logged, due[1..], outcome, now);
      forall i | |w.audit| <= i < |es|
        ensures SentFor(es[i], due, prior, outcome, now)
      {
        if i < |logged.audit| {
          assert logged != w && outcome(t.id) == Written;
          assert es[i] == logged.audit[i] == SentEvent(t, now);
          assert t in due && t.id !in prior;
        } else {
          assert SentFor(es[i], due[1..], Reminded(logged.reminders), outcome, now);
          var x :| x in due[1..] && es[i] == SentEvent(x, now) && x.id !in Reminded(logged.reminders)
                   && outcome(x.id) == Written;
          assert x in due;
        }
      }
    }
  }

  /** `send_due_soon_reminders(window_hours)`: the sweep over the tasks due in
      `[now, now + window_hours]`. */
  function SendDueSoonReminders(w: World, windowHours: int, now: Instant, outcome: Id -> Outcome): (r: (World, nat))
    ensures r.0 == w.(reminders := r.0.reminders, audit := r.0.audit)
    ensures |r.0.audit| == |w.audit| + r.1
    ensures var due := TaskRepository.ListDueBetween(w.tasks, now, now + windowHours * MicrosPerHour);
            && (forall t :: t in due <==> t in w.tasks && TaskRepository.DueWithin(t, now, now + windowHours * MicrosPerHour))
            && LogsFor(r.0.reminders, |w.reminders|, due, Reminded(w.reminders), now)
            && EventsFor(r.0.audit, |w.audit|, due, Reminded(w.reminders), outcome, now)
  {
    var due := TaskRepository.ListDueBetween(w.tasks, now, now + windowHours * MicrosPerHour);
    SweepWritesLogs(w, due, outcome, now);
    SweepWritesEvents(w, due, outcome, now);
    Sweep(w, due, outcome, now)
  }

  /** A sweep over tasks that all hold a log writes nothing and counts nothing. */
  lemma {:induction false} SweepOverRemindedIsNoOp(w: World, due: seq<Task>, outcome: Id -> Outcome, now: Instant)
    requires forall t :: t in due ==> t.id in Reminded(w.reminders)
    ensures Sweep(w, due, outcome, now) == (w, 0)
    decreases |due|
  {
    if due != [] {
      FindReminderIffReminded(w.reminders, due[0].id);
      assert forall x :: x in due[1..] ==> x in due;
      SweepOverRemindedIsNoOp(w, due[1..], outcome, now);
    }
  }

  /** Idempotence: when every log write of a sweep went through, running the sweep
      again with the same window, at the same instant, writes nothing and returns 0,
      whatever the storage layer does the second time. */
  lemma SecondSweepSendsNothing(w: World, windowHours: int, now: Instant, first: Id -> Outcome, second: Id -> Outcome)
    requires forall t :: t in w.tasks ==> first(t.id) != LogRefused
    ensures var w1 := SendDueSoonReminders(w, windowHours, now, first).0;
            SendDueSoonReminders(w1, windowHours, now, second) == (w1, 0)
  {
    var due := TaskRepository.ListDueBetween(w.tasks, now, now + windowHours * MicrosPerHour);
    var w1 := SendDueSoonReminders(w, windowHours, now, first).0;
    assert w1.tasks == w.tasks;
    SweepReminded(w, due, first, now);
    assert forall t :: t in due ==> t.id in LogWritten(due, first);
    SweepOverRemindedIsNoOp(w1, due, second, now);
  }

  /** With failures taken one write at a time, a task whose log write was refused is
      the only kind a later sweep can still remind about: every other listed task
      holds a log afterwards. */
  lemma RefusedLogIsRetried(w: World, due: seq<Task>, outcome: Id -> Outcome, now: Instant, t: Task)
    requires t in due
    ensures (t.id in Reminded(Sweep(w, due, outcome, now).0.reminders)) <==>
            (t.id in Reminded(w.reminders) || outcome(t.id) != LogRefused)
  {
    SweepReminded(w, due, outcome, now);
    if outcome(t.id) != LogRefused {
      assert t.id in LogWritten(due, outcome);
    }
  }

  /** The sweep keeps the reminder table free of two logs for one task, however often
      it runs and even when a task is listed twice. */
  lemma {:induction false} SweepKeepsOneLogPerTask(w: World, due: seq<Task>, outcome: Id -> Outcome, now: Instant)
    requires AtMostOneLogPerTask(w.reminders)
    ensures AtMostOneLogPerTask(Sweep(w, due, outcome, now).0.reminders)
    decreases |due|
  {
    if due != [] {
      var t := due[0];
      FindReminderIffReminded(w.reminders, t.id);
      if FindReminder(w.reminders, t.id).None? && outcome(t.id) != LogRefused {
        var rs := w.reminders + [NewLog(t, now)];
        forall i, j | 0 <= i < j < |rs|
          ensures rs[i].taskId != rs[j].taskId || rs[i].reminderType != rs[j].reminderType
        {
          if j == |w.reminders| {
            assert rs[i] in w.reminders;
          }
        }
        var logged := if outcome(t.id) == Written
                      then w.(reminders := rs, audit := w.audit + [SentEvent(t, now)])
                      else w.(reminders := rs);
        SweepKeepsOneLogPerTask(logged, due[1..], outcome, now);
      } else {
        SweepKeepsOneLogPerTask(w, due[1..], outcome, now);
      }
    }
  }

  /** The tasks of `due` that get a log and an audit event in a sweep from `w`. */
  function Counted(w: World, due: seq<Task>, outcome: Id -> Outcome): set<Id> {
    set t | t in due && t.id !in Reminded(w.reminders) && outcome(t.id) == Written :: t.id
  }

  predicate DistinctIds(due: seq<Task>) {
    forall i, j :: 0 <= i < j < |due| ==> due[i].id != due[j].id
  }

  /** The count returned is the number of listed tasks that had no log and whose two
      writes both went through (the listing has one row per task). */
  lemma {:induction false} SweepCount(w: World, due: seq<Task>, outcome: Id -> Outcome, now: Instant)
    requires DistinctIds(due)
    ensures Sweep(w, due, outcome, now).1 == |Counted(w, due, outcome)|
    decreases |due|
  {
    if due != [] {
      var w' := Next(w, due[0], outcome, now);
      SweepStep(w, due, outcome, now);
      CountedStep(w, due, outcome, now);
      assert DistinctIds(due[1..]);
      SweepCount(w', due[1..], outcome, now);
    }
  }

  /** The state after the loop body has handled task `t`. */
  function Next(w: World, t: Task, outcome: Id -> Outcome, now: Instant): World {
    if FindReminder(w.reminders, t.id).Some? || outcome(t.id) == LogRefused then w
    else if outcome(t.id) == AuditRefused then w.(reminders := w.reminders + [NewLog(t, now)])
    else w.(reminders := w.reminders + [NewLog(t, now)], audit := w.audit + [SentEvent(t, now)])
  }

  /** Task `t` is counted: it had no log and both writes went through. */
  predicate Sends(w: World, t: Task, outcome: Id -> Outcome) {
    FindReminder(w.reminders, t.id).None? && outcome(t.id) == Written
  }

  /** One iteration of the sweep. */
  lemma SweepStep(w: World, due: seq<Task>, outcome: Id -> Outcome, now: Instant)
    requires due != []
    ensures var r := Sweep(Next(w, due[0], outcome, now), due[1..], outcome, now);
            Sweep(w, due, outcome, now) == (r.0, r.1 + if Sends(w, due[0], outcome) then 1 else 0)
  {
  }

  /** The tasks counted over `due` are those counted over the rest after the first
      step, plus the first task when it is sent; it is not among the rest. */
  lemma CountedStep(w: World, due: seq<Task>, outcome: Id -> Outcome, now: Instant)
    requires due != [] && DistinctIds(due)
    ensures var t := due[0];
            var rest := Counted(Next(w, t, outcome, now), due[1..], outcome);
            && t.id !in rest
            && Counted(w, due, outcome) == rest + if Sends(w, t, outcome) then {t.id} else {}
  {
    var t := due[0];
    var rest := due[1..];
    assert forall x :: x in rest ==> x.id != t.id by {
      forall x | x in rest ensures x.id != t.id {
        var k :| 0 <= k < |rest| && rest[k] == x;
        assert due[k + 1] == x;
      }
    }
    FindReminderIffReminded(w.reminders, t.id);
    var w' := Next(w, t, outcome, now);
    assert Reminded(w'.reminders) <= Reminded(w.reminders) + {t.id};
    assert Reminded(w.reminders) <= Reminded(w'.reminders);
    assert Counted(w', rest, outcome) == Counted(w, rest, outcome);
    if Sends(w, t, outcome) {
      assert Counted(w, due, outcome) == Counted(w, rest, outcome) + {t.id};
    } else {
      assert Counted(w, due, outcome) == Counted(w, rest, outcome);
    }
  }
}

=== FILE: results.dfy ===
/** Optional values, the typed errors the services raise, and a failure-compatible
    result type that carries either a value or one of those errors. */
module Results {

  datatype Option<+T> = None | Some(value: T)

  /** The exception classes the domain layer raises. `ValueError` is Python's built-in
      exception, which `create_task` raises for title problems instead of a
      `ValidationError`. `DatabaseError` stands for an exception raised by the database
      driver while a query is executed. `ServiceError` stands for an exception raised
      by an external service the core calls and lets propagate. */
  datatype Error =
    | ValidationError(message: string)
    | NotFoundError(message: string)
    | AuthorizationError(message: string)
    | ValueError(message: string)
    | DatabaseError(message: string)
    | ServiceError(message: string)

  datatype Result<+T> = Ok(value: T) | Err(error: Error) {

    predicate IsFailure() {
      Err?
    }

    function PropagateFailure<U>(): Result<U>
      requires Err?
    {
      Err(error)
    }

    function Extract(): T
      requires Ok?
    {
      value
    }
  }
}

=== FILE: seqs.dfy ===
/** Order-preserving filtering and mapping of sequences, used for the table scans. */
module Seqs {

  /** The elements of `xs` that satisfy `p`, in their order in `xs`. */
  function Filter<T(!new)>(xs: seq<T>, p: T -> bool): (r: seq<T>)
    ensures |r| <= |xs|
    ensures forall x :: x in r <==> x in xs && p(x)
  {
    if xs == [] then []
    else (if p(xs[0]) then [xs[0]] else []) + Filter(xs[1..], p)
  }

  function Map<T, U>(xs: seq<T>, f: T -> U): (r: seq<U>)
    ensures |r| == |xs|
    ensures forall i :: 0 <= i < |xs| ==> r[i] == f(xs[i])
  {
    if xs == [] then [] else [f(xs[0])] + Map(xs[1..], f)
  }

  /** Filtering keeps every element exactly when all of them satisfy the predicate. */
  lemma {:induction false} FilterAll<T(!new)>(xs: seq<T>, p: T -> bool)
    ensures Filter(xs, p) == xs <==> forall x :: x in xs ==> p(x)
  {
    if xs != [] {
      FilterAll(xs[1..], p);
      if Filter(xs, p) == xs {
        assert |Filter(xs[1..], p)| <= |xs| - 1;
        assert p(xs[0]);
        assert Filter(xs[1..], p) == xs[1..];
      }
      if forall x :: x in xs ==> p(x) {
        assert forall x :: x in xs[1..] ==> x in xs;
      }
    }
  }

  /** Filtering is a subsequence: it is obtained by deleting elements, so it keeps the
      multiplicity of each kept element. */
  lemma {:induction false} FilterMultiset<T(!new)>(xs: seq<T>, p: T -> bool)
    ensures multiset(Filter(xs, p)) <= multiset(xs)
    ensures forall x :: p(x) ==> multiset(Filter(xs, p))[x] == multiset(xs)[x]
  {
    if xs != [] {
      FilterMultiset(xs[1..], p);
      assert xs == [xs[0]] + xs[1..];
    }
  }

  /** Filtering distributes over concatenation. */
  lemma {:induction false} FilterAppend<T(!new)>(xs: seq<T>, ys: seq<T>, p: T -> bool)
    ensures Filter(xs + ys, p) == Filter(xs, p) + Filter(ys, p)
  {
    if xs == [] {
      assert xs + ys == ys;
    } else {
      assert (xs + ys)[1..] == xs[1..] + ys;
      FilterAppend(xs[1..], ys, p);
    }
  }

  /** A non-empty sequence is its head followed by its tail. */
  lemma HeadTail<T>(xs: seq<T>)
    requires xs != []
    ensures [xs[0]] + xs[1..] == xs
  {
  }

  /** A non-empty sequence is its prefix followed by its last element. */
  lemma InitLast<T>(xs: seq<T>)
    requires xs != []
    ensures xs[..|xs| - 1] + [xs[|xs| - 1]] == xs
  {
  }
}

=== FILE: tag_repository.dfy ===
/** The `tags` table as a map from exact tag name to tag id. Names are matched
    exactly: "Work" and "work" are different rows. */
module TagRepository {
  import opened Entities

  datatype Tag = Tag(id: Id, name: string)

  /** Stored names with their ids; fresh ids are drawn from `nextId`. */
  datatype TagStore = TagStore(ids: map<string, Id>, nextId: Id)

  /** Every stored id was drawn from the counter, and no two names share an id. */
  predicate Valid(s: TagStore) {
    && (forall n :: n in s.ids ==> s.ids[n] < s.nextId)
    && (forall m, n :: m in s.ids && n in s.ids && m != n ==> s.ids[m] != s.ids[n])
  }

  /** `get_or_create`: the row with exactly this name, inserted with a fresh id when
      there is none. */
  function GetOrCreate(s: TagStore, name: string): (r: (TagStore, Tag))
    ensures r.1.name == name
    ensures name in r.0.ids && r.0.ids[name] == r.1.id
    ensures r.0.ids.Keys == s.ids.Keys + {name}
    ensures forall n :: n in s.ids ==> r.0.ids[n] == s.ids[n]
    ensures name in s.ids ==> r.0 == s
    ensures Valid(s) ==> Valid(r.0)
    ensures Valid(s) && name !in s.ids ==> forall n :: n in s.ids ==> s.ids[n] != r.1.id
  {
    if name in s.ids then (s, Tag(s.ids[name], name))
    else (TagStore(s.ids[name := s.nextId], s.nextId + 1), Tag(s.nextId, name))
  }

  /** `get_by_names`: the stored rows whose name is exactly one of `names`. The query
      has no ORDER BY, so the result is a set. */
  function GetByNames(s: TagStore, names: seq<string>): (r: set<Tag>)
    ensures forall t :: t in r <==> t.name in names && t.name in s.ids && t.id == s.ids[t.name]
    ensures names == [] ==> r == {}
  {
    set n | n in s.ids && n in names :: Tag(s.ids[n], n)
  }

  /** Inserting every name of `names` in turn, as repeated `get_or_create` calls do. */
  function CreateAll(s: TagStore, names: seq<string>): TagStore
    decreases |names|
  {
    if names == [] then s else CreateAll(GetOrCreate(s, names[0]).0, names[1..])
  }

  /** Distinct names resolved one after the other get distinct ids. */
  lemma DistinctNamesGetDistinctIds(s: TagStore, a: string, b: string)
    requires Valid(s)
    requires a != b
    ensures GetOrCreate(s, a).1.id != GetOrCreate(GetOrCreate(s, a).0, b).1.id
  {
  }

  /** Inserting names that are all stored already changes nothing. */
  lemma {:induction false} CreateAllExisting(s: TagStore, names: seq<string>)
    requires forall n :: n in names ==> n in s.ids
    ensures CreateAll(s, names) == s
  {
    if names != [] {
      assert names[0] in names;
      CreateAllExisting(s, names[1..]);
    }
  }
}

=== FILE: tag_service.dfy ===
/** `TagService`: normalising a list of tag names (trim, drop blanks, cap the length,
    deduplicate case-insensitively keeping the first spelling) and resolving the
    normalised names against the tag store. */
module TagService {
  import opened Results
  import opened Text
  import opened Entities
  import opened TagRepository
  import opened Seqs

  const MaxTagLength: nat := 100
  const TagTooLong: Error := ValidationError("Tag cannot exceed 100 characters")

  // ---------------------------------------------------------------- reference definitions

  /** One input entry after `strip()`: nothing for `None` or a blank entry. */
  function CleanOne(o: Option<string>): seq<string> {
    match o
    case None => []
    case Some(t) => NonEmpty(Strip(t))
  }

  function NonEmpty(n: string): seq<string> {
    if n == [] then [] else [n]
  }

  /** The stripped, non-blank entries of `tags`, in input order. */
  function Cleaned(tags: seq<Option<string>>): seq<string> {
    if tags == [] then [] else Cleaned(tags[..|tags| - 1]) + CleanOne(tags[|tags| - 1])
  }

  predicate Overlong(o: Option<string>) {
    o.Some? && |Strip(o.value)| > MaxTagLength
  }

  /** Some entry of `tags` strips to more than 100 characters. */
  predicate HasOverlong(tags: seq<Option<string>>) {
    tags != [] && (HasOverlong(tags[..|tags| - 1]) || Overlong(tags[|tags| - 1]))
  }

  /** The lower-case forms of the elements of `xs`. */
  function Lowers(xs: seq<string>): set<string> {
    if xs == [] then {} else Lowers(xs[..|xs| - 1]) + {Lower(xs[|xs| - 1])}
  }

  predicate DistinctLowers(xs: seq<string>) {
    forall i, j :: 0 <= i < j < |xs| ==> Lower(xs[i]) != Lower(xs[j])
  }

  /** The elements of `xs` whose lower-case form does not occur earlier in `xs`. */
  function FirstSpellings(xs: seq<string>): seq<string> {
    if xs == [] then []
    else
      var init, last := xs[..|xs| - 1], xs[|xs| - 1];
      FirstSpellings(init) + (if Lower(last) in Lowers(init) then [] else [last])
  }

  /** What a normalised tag name looks like: stripped, non-empty, at most 100 characters. */
  predicate IsTagName(n: string) {
    n != [] && Strip(n) == n && |n| <= MaxTagLength
  }

  predicate AllTagNames(xs: seq<string>) {
    forall x :: x in xs ==> IsTagName(x)
  }

  // ---------------------------------------------------------------- normalize_tags

  /** The state of the loop of `normalize_tags`: the lower-case forms seen so far and
      the names kept so far. */
  datatype Progress = Progress(seen: set<string>, kept: seq<string>)

  /** One iteration of the loop. The length check comes before the duplicate check. */
  function Step(p: Progress, o: Option<string>): Result<Progress> {
    match o
    case None => Ok(p)
    case Some(t) => StepStripped(p, Strip(t))
  }

  /** The part of an iteration after `strip()`. */
  function StepStripped(p: Progress, n: string): Result<Progress> {
    if n == [] then Ok(p)
    else if |n| > MaxTagLength then Err(TagTooLong)
    else if Lower(n) in p.seen then Ok(p)
    else Ok(Progress(p.seen + {Lower(n)}, p.kept + [n]))
  }

  /** The loop state after the entries of `tags`, or the error that stopped it. */
  function Loop(tags: seq<Option<string>>): Result<Progress> {
    if tags == [] then Ok(Progress({}, []))
    else
      match Loop(tags[..|tags| - 1])
      case Err(e) => Err(e)
      case Ok(p) => Step(p, tags[|tags| - 1])
  }

  /** `normalize_tags`: `None` gives the empty list; an entry that strips to more than
      100 characters is an error; otherwise the first spelling of each lower-case form
      among the stripped, non-blank entries, in input order. */
  function Normalize(tags: Option<seq<Option<string>>>): (r: Result<seq<string>>)
    ensures tags.None? ==> r == Ok([])
    ensures tags.Some? ==> (r.Err? <==> exists j :: 0 <= j < |tags.value| && Overlong(tags.value[j]))
    ensures r.Err? ==> r.error == TagTooLong
    ensures r.Ok? && tags.Some? ==> r.value == FirstSpellings(Cleaned(tags.value))
    ensures r.Ok? ==> DistinctLowers(r.value) && AllTagNames(r.value)
  {
    match tags
    case None => Ok([])
    case Some(ts) =>
      LoopReference(ts);
      HasOverlongIffSome(ts);
      match Loop(ts)
      case Err(e) => Err(e)
      case Ok(p) =>
        FirstSpellingsDistinct(Cleaned(ts));
        CleanedAreTagNames(ts);
        FirstSpellingsFrom(Cleaned(ts));
        Ok(p.kept)
  }

  // ---------------------------------------------------------------- proofs about the reference

  lemma {:induction false} HasOverlongIffSome(tags: seq<Option<string>>)
    ensures HasOverlong(tags) <==> exists j :: 0 <= j < |tags| && Overlong(tags[j])
  {
    if tags != [] {
      var init := tags[..|tags| - 1];
      HasOverlongIffSome(init);
      if HasOverlong(init) {
        var j :| 0 <= j < |init| && Overlong(init[j]);
        assert tags[j] == init[j];
      }
      if exists j :: 0 <= j < |tags| && Overlong(tags[j]) {
        var j :| 0 <= j < |tags| && Overlong(tags[j]);
        if j < |init| {
          assert tags[j] == init[j];
        }
      }
    }
  }

  lemma {:induction false} KeepReference(c: seq<string>, n: string)
    requires n != [] && |n| <= MaxTagLength
    ensures StepStripped(Progress(Lowers(c), FirstSpellings(c)), n)
            == Ok(Progress(Lowers(c + [n]), FirstSpellings(c + [n])))
  {
    var d := c + [n];
    assert d[..|d| - 1] == c && d[|d| - 1] == n;
    assert Lowers(d) == Lowers(c) + {Lower(n)};
    if Lower(n) in Lowers(c) {
      assert Lowers(d) == Lowers(c);
      assert FirstSpellings(d) == FirstSpellings(c) + [];
      assert FirstSpellings(c) + [] == FirstSpellings(c);
    }
  }

  /** One iteration from the reference state of the entries before it. */
  lemma {:induction false} StepReference(c: seq<string>, o: Option<string>)
    ensures Step(Progress(Lowers(c), FirstSpellings(c)), o)
            == if Overlong(o) then Err(TagTooLong)
               else Ok(Progress(Lowers(c + CleanOne(o)), FirstSpellings(c + CleanOne(o))))
  {
    assert c + [] == c;
    if o.Some? {
      var n := Strip(o.value);
      if n != [] && |n| <= MaxTagLength {
        KeepReference(c, n);
      }
    }
  }

  /** The loop computes the reference: it stops with an error exactly when some entry
      is overlong, and otherwise has seen the lower-case forms of the cleaned entries
      and kept their first spellings. */
  lemma {:induction false} LoopReference(tags: seq<Option<string>>)
    ensures Loop(tags) == if HasOverlong(tags) then Err(TagTooLong)
                          else Ok(Progress(Lowers(Cleaned(tags)), FirstSpellings(Cleaned(tags))))
  {
    if tags != [] {
      var init, last := tags[..|tags| - 1], tags[|tags| - 1];
      LoopReference(init);
      StepReference(Cleaned(init), last);
    }
  }

  lemma {:induction false} LowersOfMember(xs: seq<string>, i: nat)
    requires i < |xs|
    ensures Lower(xs[i]) in Lowers(xs)
  {
    if i < |xs| - 1 {
      LowersOfMember(xs[..|xs| - 1], i);
    }
  }

  lemma {:induction false} FirstSpellingsLowers(xs: seq<string>)
    ensures Lowers(FirstSpellings(xs)) == Lowers(xs)
  {
    if xs != [] {
      var init, last := xs[..|xs| - 1], xs[|xs| - 1];
      var f := FirstSpellings(init);
      FirstSpellingsLowers(init);
      if Lower(last) in Lowers(init) {
        assert f + [] == f;
      } else {
        assert (f + [last])[..|f|] == f;
      }
    }
  }

  /** No two kept names share a lower-case form. */
  lemma {:induction false} FirstSpellingsDistinct(xs: seq<string>)
    ensures DistinctLowers(FirstSpellings(xs))
  {
    if xs != [] {
      var init, last := xs[..|xs| - 1], xs[|xs| - 1];
      FirstSpellingsDistinct(init);
      FirstSpellingsLowers(init);
      var f := FirstSpellings(init);
      if Lower(last) !in Lowers(init) {
        var r := f + [last];
        forall i, j | 0 <= i < j < |r| ensures Lower(r[i]) != Lower(r[j]) {
          if j == |f| {
            LowersOfMember(f, i);
          } else {
            assert r[i] == f[i] && r[j] == f[j];
          }
        }
      } else {
        assert f + [] == f;
      }
    }
  }

  /** Every kept name occurs in `xs`. */
  lemma {:induction false} FirstSpellingsFrom(xs: seq<string>)
    ensures forall x :: x in FirstSpellings(xs) ==> x in xs
  {
    if xs != [] {
      var init := xs[..|xs| - 1];
      FirstSpellingsFrom(init);
      assert forall x :: x in init ==> x in xs;
    }
  }

  /** Every kept name is the first spelling of its lower-case form in `xs`. */
  lemma {:induction false} FirstSpellingsKeepFirstSeen(xs: seq<string>, k: nat)
    requires k < |FirstSpellings(xs)|
    ensures exists j :: 0 <= j < |xs| && FirstSpellings(xs)[k] == xs[j] && Lower(xs[j]) !in Lowers(xs[..j])
  {
    var init, last := xs[..|xs| - 1], xs[|xs| - 1];
    var f := FirstSpellings(init);
    if k < |f| {
      FirstSpellingsKeepFirstSeen(init, k);
      var j :| 0 <= j < |init| && f[k] == init[j] && Lower(init[j]) !in Lowers(init[..j]);
      assert FirstSpellings(xs)[k] == f[k];
      assert xs[j] == init[j] && xs[..j] == init[..j];
    } else {
      assert FirstSpellings(xs)[k] == last;
      assert xs[..|xs| - 1] == init;
    }
  }

  /** A list whose lower-case forms are already distinct is kept whole. */
  lemma {:induction false} FirstSpellingsOfDistinct(xs: seq<string>)
    requires DistinctLowers(xs)
    ensures FirstSpellings(xs) == xs
  {
    if xs != [] {
      var init, last := xs[..|xs| - 1], xs[|xs| - 1];
      DistinctLowersSplit(xs);
      FirstSpellingsOfDistinct(init);
      assert FirstSpellings(xs) == FirstSpellings(init) + [last];
      assert init + [last] == xs;
    }
  }

  /** Dropping the last name keeps the lower-case forms distinct, and the last name's
      form does not occur before it. */
  lemma DistinctLowersSplit(xs: seq<string>)
    requires xs != [] && DistinctLowers(xs)
    ensures DistinctLowers(xs[..|xs| - 1])
    ensures Lower(xs[|xs| - 1]) !in Lowers(xs[..|xs| - 1])
  {
    var init, last := xs[..|xs| - 1], xs[|xs| - 1];
    forall i, j | 0 <= i < j < |init| ensures Lower(init[i]) != Lower(init[j]) {
      assert init[i] == xs[i] && init[j] == xs[j];
    }
    if Lower(last) in Lowers(init) {
      LowersMembers(init, Lower(last));
      assert false;
    }
  }

  lemma {:induction false} LowersMembers(xs: seq<string>, l: string)
    requires l in Lowers(xs)
    ensures exists i :: 0 <= i < |xs| && Lower(xs[i]) == l
  {
    var init := xs[..|xs| - 1];
    if l != Lower(xs[|xs| - 1]) {
      LowersMembers(init, l);
      var i :| 0 <= i < |init| && Lower(init[i]) == l;
      assert xs[i] == init[i];
    }
  }

  /** The cleaned entries are stripped and non-empty, and within the length cap when no
      entry is overlong. */
  lemma {:induction false} CleanedAreTagNames(tags: seq<Option<string>>)
    requires !HasOverlong(tags)
    ensures AllTagNames(Cleaned(tags))
  {
    if tags != [] {
      var init := tags[..|tags| - 1];
      CleanedAreTagNames(init);
      match tags[|tags| - 1]
      case None =>
      case Some(t) => TrimIdempotent(t, Whitespace);
    }
  }

  // ---------------------------------------------------------------- properties of normalize_tags

  /** Each normalised name is the first spelling of its lower-case form among the
      stripped entries, and every lower-case form among them is represented. */
  lemma NormalizeKeepsFirstSeen(tags: seq<Option<string>>, k: nat)
    requires Normalize(Some(tags)).Ok? && k < |Normalize(Some(tags)).value|
    ensures var c := Cleaned(tags);
            exists j :: 0 <= j < |c| && Normalize(Some(tags)).value[k] == c[j] && Lower(c[j]) !in Lowers(c[..j])
    ensures Lowers(Normalize(Some(tags)).value) == Lowers(Cleaned(tags))
  {
    KeptFirstSeen(Cleaned(tags), Normalize(Some(tags)).value, k);
  }

  lemma KeptFirstSeen(c: seq<string>, v: seq<string>, k: nat)
    requires v == FirstSpellings(c) && k < |v|
    ensures exists j :: 0 <= j < |c| && v[k] == c[j] && Lower(c[j]) !in Lowers(c[..j])
    ensures Lowers(v) == Lowers(c)
  {
    FirstSpellingsKeepFirstSeen(c, k);
    FirstSpellingsLowers(c);
  }

  /** Normalising never lengthens the list: each entry yields at most one name. */
  lemma NormalizeNoLonger(tags: seq<Option<string>>)
    requires Normalize(Some(tags)).Ok?
    ensures |Normalize(Some(tags)).value| <= |Cleaned(tags)| <= |tags|
  {
    CleanedNoLonger(tags);
    FirstSpellingsNoLonger(Cleaned(tags));
  }

  lemma {:induction false} CleanedNoLonger(tags: seq<Option<string>>)
    ensures |Cleaned(tags)| <= |tags|
  {
    if tags != [] {
      CleanedNoLonger(tags[..|tags| - 1]);
    }
  }

  lemma {:induction false} FirstSpellingsNoLonger(xs: seq<string>)
    ensures |FirstSpellings(xs)| <= |xs|
  {
    if xs != [] {
      FirstSpellingsNoLonger(xs[..|xs| - 1]);
    }
  }

  /** The list of optional names that holds exactly `names`. */
  function Wrap(names: seq<string>): (r: seq<Option<string>>)
    ensures |r| == |names|
  {
    if names == [] then [] else Wrap(names[..|names| - 1]) + [Some(names[|names| - 1])]
  }

  lemma CleanedOfWrap(names: seq<string>)
    requires AllTagNames(names)
    ensures Cleaned(Wrap(names)) == names
  {
    CleanedOfWrapAt(names);
  }

  lemma {:induction false} CleanedOfWrapAt(names: seq<string>)
    requires forall i :: 0 <= i < |names| ==> IsTagName(names[i])
    ensures Cleaned(Wrap(names)) == names
  {
    if names != [] {
      var init, last := names[..|names| - 1], names[|names| - 1];
      assert forall i :: 0 <= i < |init| ==> init[i] == names[i];
      CleanedOfWrapAt(init);
      assert Wrap(names) == Wrap(init) + [Some(last)];
      CleanedAppend(Wrap(init), init, last);
      InitLast(names);
    }
  }

  /** Appending a tag name to entries that clean to `init` appends it to `init`. */
  lemma CleanedAppend(ws: seq<Option<string>>, init: seq<string>, last: string)
    requires Cleaned(ws) == init && IsTagName(last)
    ensures Cleaned(ws + [Some(last)]) == init + [last]
  {
    CleanedSnoc(ws, Some(last));
    CleanOneOfTagName(last);
  }

  lemma CleanOneOfTagName(n: string)
    requires IsTagName(n)
    ensures CleanOne(Some(n)) == [n]
  {
  }

  lemma CleanedSnoc(tags: seq<Option<string>>, o: Option<string>)
    ensures Cleaned(tags + [o]) == Cleaned(tags) + CleanOne(o)
  {
    assert (tags + [o])[..|tags|] == tags;
  }

  lemma {:induction false} WrapNotOverlong(names: seq<string>)
    requires AllTagNames(names)
    ensures !HasOverlong(Wrap(names))
  {
    if names != [] {
      var init, last := names[..|names| - 1], names[|names| - 1];
      var w := Wrap(init);
      assert AllTagNames(init) by {
        assert forall x :: x in init ==> x in names;
      }
      WrapNotOverlong(init);
      assert (w + [Some(last)])[..|w|] == w;
      assert last in names;
    }
  }

  /** Normalising an already normalised list returns it unchanged. */
  lemma NormalizeIdempotent(tags: Option<seq<Option<string>>>)
    requires Normalize(tags).Ok?
    ensures Normalize(Some(Wrap(Normalize(tags).value))) == Normalize(tags)
  {
    var names := Normalize(tags).value;
    WrapNotOverlong(names);
    CleanedOfWrap(names);
    HasOverlongIffSome(Wrap(names));
    FirstSpellingsOfDistinct(names);
  }

  // ---------------------------------------------------------------- ensure_tags_exist

  /** The outcome of resolving names against the store: the updated store, one tag per
      name, and the names `get_or_create` inserted, in call order. */
  datatype Resolution = Resolution(store: TagStore, tags: seq<Tag>, created: seq<string>)

  /** The names of `names` that the store does not hold exactly, in order. */
  function Absent(s: TagStore, names: seq<string>): (r: seq<string>)
    ensures forall n :: n in r <==> n in names && n !in s.ids
  {
    if names == [] then []
    else (if names[0] in s.ids then [] else [names[0]]) + Absent(s, names[1..])
  }

  /** No name is absent from a store that holds them all. */
  lemma {:induction false} AbsentOfStored(s: TagStore, names: seq<string>)
    requires forall n :: n in names ==> n in s.ids
    ensures Absent(s, names) == []
  {
    if names != [] {
      AbsentOfStored(s, names[1..]);
    }
  }

  lemma {:induction false} AbsentAgrees(s: TagStore, s1: TagStore, names: seq<string>)
    requires forall n :: n in names ==> (n in s.ids <==> n in s1.ids)
    ensures Absent(s, names) == Absent(s1, names)
  {
    if names != [] {
      AbsentAgrees(s, s1, names[1..]);
    }
  }

  /** The `existing` index of `ensure_tags_exist` agrees with the store on each name. */
  predicate IndexAgrees(s: TagStore, names: seq<string>, existing: map<string, Tag>) {
    forall n :: n in names ==>
      && (Lower(n) in existing <==> n in s.ids)
      && (Lower(n) in existing ==> existing[Lower(n)] == Tag(s.ids[n], n))
  }

  /** The loop of `ensure_tags_exist`: take the indexed tag or call `get_or_create`. */
  function ResolveEach(s: TagStore, names: seq<string>, existing: map<string, Tag>): (r: Resolution)
    ensures |r.tags| == |names|
    decreases |names|
  {
    if names == [] then Resolution(s, [], [])
    else
      var key := Lower(names[0]);
      if key in existing then
        var rest := ResolveEach(s, names[1..], existing);
        Resolution(rest.store, [existing[key]] + rest.tags, rest.created)
      else
        var (s1, t) := GetOrCreate(s, names[0]);
        var rest := ResolveEach(s1, names[1..], existing);
        Resolution(rest.store, [t] + rest.tags, [names[0]] + rest.created)
  }

  /** What the loop promises for `names` started from store `s`: one tag per name with
      that exact name and its stored id, and exactly the absent names inserted, in order. */
  predicate Resolved(s: TagStore, names: seq<string>, r: Resolution) {
    && |r.tags| == |names|
    && (forall i :: 0 <= i < |names| ==> r.tags[i].name == names[i])
    && (forall i :: 0 <= i < |names| ==> names[i] in r.store.ids && r.tags[i].id == r.store.ids[names[i]])
    && r.created == Absent(s, names)
    && r.store == CreateAll(s, r.created)
  }

  /** With an index that agrees with the store, the loop does what it promises. */
  lemma {:induction false} ResolveEachSpec(s: TagStore, names: seq<string>, existing: map<string, Tag>)
    requires DistinctLowers(names)
    requires IndexAgrees(s, names, existing)
    ensures Resolved(s, names, ResolveEach(s, names, existing))
    decreases |names|
  {
    if names != [] {
      var n, tail := names[0], names[1..];
      assert forall i :: 0 <= i < |tail| ==> tail[i] == names[i + 1];
      assert DistinctLowers(tail);
      assert forall m :: m in tail ==> m != n;
      if Lower(n) in existing {
        ResolveEachSpec(s, tail, existing);
        IndexedStep(s, names, existing);
      } else {
        var s1 := GetOrCreate(s, n).0;
        assert IndexAgrees(s1, tail, existing);
        ResolveEachSpec(s1, tail, existing);
        CreatedStep(s, names, existing);
      }
    }
  }

  lemma IndexedStep(s: TagStore, names: seq<string>, existing: map<string, Tag>)
    requires names != [] && Lower(names[0]) in existing && names[0] in s.ids
    requires existing[Lower(names[0])] == Tag(s.ids[names[0]], names[0])
    requires Resolved(s, names[1..], ResolveEach(s, names[1..], existing))
    ensures Resolved(s, names, ResolveEach(s, names, existing))
  {
    var r := ResolveEach(s, names, existing);
    var rest := ResolveEach(s, names[1..], existing);
    assert r.tags == [existing[Lower(names[0])]] + rest.tags;
    CreateAllPreserves(s, rest.created);
    IdsFromTail(names, r, rest);
  }

  lemma CreatedStep(s: TagStore, names: seq<string>, existing: map<string, Tag>)
    requires names != [] && Lower(names[0]) !in existing && names[0] !in s.ids
    requires forall m :: m in names[1..] ==> m != names[0]
    requires Resolved(GetOrCreate(s, names[0]).0, names[1..], ResolveEach(GetOrCreate(s, names[0]).0, names[1..], existing))
    ensures Resolved(s, names, ResolveEach(s, names, existing))
  {
    var p := GetOrCreate(s, names[0]);
    var rest := ResolveEach(p.0, names[1..], existing);
    assert ResolveEach(s, names, existing) == Resolution(rest.store, [p.1] + rest.tags, [names[0]] + rest.created);
    PrependCreated(s, names, p.0, p.1, rest);
  }

  /** Creating the first name and then resolving the rest resolves the whole list. */
  lemma PrependCreated(s: TagStore, names: seq<string>, s1: TagStore, t: Tag, rest: Resolution)
    requires names != [] && names[0] !in s.ids
    requires (s1, t) == GetOrCreate(s, names[0])
    requires forall m :: m in names[1..] ==> m != names[0]
    requires Resolved(s1, names[1..], rest)
    ensures Resolved(s, names, Resolution(rest.store, [t] + rest.tags, [names[0]] + rest.created))
  {
    var r := Resolution(rest.store, [t] + rest.tags, [names[0]] + rest.created);
    assert t.name == names[0] && names[0] in s1.ids && s1.ids[names[0]] == t.id;
    PrependCreatedStore(s, names, s1, rest.created);
    CreateAllKeeps(s1, rest.created, names[0]);
    assert |r.tags| == |names|;
    PrependTags(names, t, r, rest);
  }

  /** A stored name keeps its id when more names are inserted. */
  lemma CreateAllKeeps(s: TagStore, names: seq<string>, n: string)
    requires n in s.ids
    ensures n in CreateAll(s, names).ids && CreateAll(s, names).ids[n] == s.ids[n]
  {
    CreateAllPreserves(s, names);
  }

  /** The names created over the whole list are the first one and those created after it. */
  lemma PrependCreatedStore(s: TagStore, names: seq<string>, s1: TagStore, created: seq<string>)
    requires names != [] && names[0] !in s.ids
    requires s1 == GetOrCreate(s, names[0]).0
    requires forall m :: m in names[1..] ==> m != names[0]
    requires created == Absent(s1, names[1..])
    ensures [names[0]] + created == Absent(s, names)
    ensures CreateAll(s, [names[0]] + created) == CreateAll(s1, created)
  {
    AbsentAgrees(s, s1, names[1..]);
    assert ([names[0]] + created)[1..] == created;
  }

  /** Prepending the first name's tag to the rest's tags covers the whole list. */
  lemma PrependTags(names: seq<string>, t: Tag, r: Resolution, rest: Resolution)
    requires names != [] && t.name == names[0]
    requires r.tags == [t] + rest.tags && r.store == rest.store
    requires names[0] in r.store.ids && t.id == r.store.ids[names[0]]
    requires |rest.tags| == |names| - 1
    requires forall i :: 0 <= i < |names| - 1 ==> rest.tags[i].name == names[i + 1]
    requires forall i :: 0 <= i < |names| - 1 ==> names[i + 1] in rest.store.ids && rest.tags[i].id == rest.store.ids[names[i + 1]]
    ensures forall i :: 0 <= i < |names| ==> r.tags[i].name == names[i]
    ensures forall i :: 0 <= i < |names| ==> names[i] in r.store.ids && r.tags[i].id == r.store.ids[names[i]]
  {
    forall i | 0 < i < |names| ensures r.tags[i].name == names[i] {
      assert r.tags[i] == rest.tags[i - 1];
    }
    IdsFromTail(names, r, rest);
  }

  lemma IdsFromTail(names: seq<string>, r: Resolution, rest: Resolution)
    requires names != [] && |r.tags| == |names| && |rest.tags| == |names| - 1
    requires r.tags[1..] == rest.tags && r.store == rest.store
    requires names[0] in r.store.ids && r.tags[0].id == r.store.ids[names[0]]
    requires forall i :: 0 <= i < |names| - 1 ==> names[i + 1] in rest.store.ids && rest.tags[i].id == rest.store.ids[names[i + 1]]
    ensures forall i :: 0 <= i < |names| ==> names[i] in r.store.ids && r.tags[i].id == r.store.ids[names[i]]
  {
    forall i | 0 < i < |names| ensures names[i] in r.store.ids && r.tags[i].id == r.store.ids[names[i]] {
      assert r.tags[i] == rest.tags[i - 1];
    }
  }

  /** Inserting names keeps every stored entry and the store's validity. */
  lemma {:induction false} CreateAllPreserves(s: TagStore, names: seq<string>)
    ensures forall n :: n in s.ids ==> n in CreateAll(s, names).ids && CreateAll(s, names).ids[n] == s.ids[n]
    ensures Valid(s) ==> Valid(CreateAll(s, names))
    decreases |names|
  {
    if names != [] {
      CreateAllPreserves(GetOrCreate(s, names[0]).0, names[1..]);
    }
  }

  /** `tag.name.lower() -> tag` over the fetched tags. The fetched names are normalised
      names, whose lower-case forms are distinct, so no entry overwrites another. */
  function LowerIndex(s: TagStore, names: seq<string>): (m: map<string, Tag>)
    requires DistinctLowers(names)
    ensures IndexAgrees(s, names, m)
  {
    var fetched := GetByNames(s, names);
    var m := map t | t in fetched :: Lower(t.name) := t;
    assert IndexAgrees(s, names, m) by {
      forall n | n in names
        ensures Lower(n) in m <==> n in s.ids
        ensures Lower(n) in m ==> m[Lower(n)] == Tag(s.ids[n], n)
      {
        if n in s.ids {
          assert Tag(s.ids[n], n) in fetched;
        }
        if Lower(n) in m {
          var t :| t in fetched && Lower(t.name) == Lower(n);
          var i :| 0 <= i < |names| && names[i] == t.name;
          var j :| 0 <= j < |names| && names[j] == n;
          assert i == j;
          forall u | u in fetched && Lower(u.name) == Lower(n) ensures u == t {
            var k :| 0 <= k < |names| && names[k] == u.name;
            assert k == j;
          }
        }
      }
    }
    m
  }

  /** `ensure_tags_exist`: normalise, batch-fetch the stored tags, and resolve each name
      in order, creating the missing ones. */
  function EnsureTagsExist(s: TagStore, tags: Option<seq<Option<string>>>): (r: Result<Resolution>)
    ensures Normalize(tags).Err? <==> r.Err?
    ensures r.Err? ==> r.error == Normalize(tags).error
    ensures r.Ok? ==> var names := Normalize(tags).value;
      && |r.value.tags| == |names|
      && (forall i :: 0 <= i < |names| ==> r.value.tags[i].name == names[i])
      && (forall i :: 0 <= i < |names| ==> names[i] in s.ids ==> r.value.tags[i].id == s.ids[names[i]])
      && (forall i :: 0 <= i < |names| ==> names[i] in r.value.store.ids && r.value.tags[i].id == r.value.store.ids[names[i]])
      && r.value.created == Absent(s, names)
      && r.value.store == CreateAll(s, r.value.created)
  {
    var names :- Normalize(tags);
    if names == [] then Ok(Resolution(s, [], []))
    else
      var existing := LowerIndex(s, names);
      var res := ResolveEach(s, names, existing);
      ResolveEachSpec(s, names, existing);
      assert Resolved(s, names, res);
      CreateAllPreserves(s, res.created);
      Ok(res)
  }

  /** Resolving keeps every stored tag and the store's validity, and a second resolution
      of the same names creates nothing and returns the same tags. */
  lemma EnsureTagsExistStable(s: TagStore, tags: Option<seq<Option<string>>>)
    requires EnsureTagsExist(s, tags).Ok?
    ensures var r := EnsureTagsExist(s, tags).value;
            && (forall n :: n in s.ids ==> n in r.store.ids && r.store.ids[n] == s.ids[n])
            && (Valid(s) ==> Valid(r.store))
            && EnsureTagsExist(r.store, tags) == Ok(Resolution(r.store, r.tags, []))
  {
    var r := EnsureTagsExist(s, tags).value;
    var names := Normalize(tags).value;
    CreateAllPreserves(s, r.created);
    var r2 := EnsureTagsExist(r.store, tags).value;
    forall n | n in names ensures n in r.store.ids {
      var i :| 0 <= i < |names| && names[i] == n;
    }
    AbsentOfStored(r.store, names);
    assert r2.store == r.store;
    TagsDetermined(names, r.store, r.tags, r2.tags);
  }

  /** The tags for `names` are determined by the store's ids. */
  lemma TagsDetermined(names: seq<string>, store: TagStore, a: seq<Tag>, b: seq<Tag>)
    requires |a| == |names| == |b|
    requires forall i :: 0 <= i < |names| ==> a[i].name == names[i] && names[i] in store.ids && a[i].id == store.ids[names[i]]
    requires forall i :: 0 <= i < |names| ==> b[i].name == names[i] && names[i] in store.ids && b[i].id == store.ids[names[i]]
    ensures a == b
  {
    forall i | 0 <= i < |names| ensures a[i] == b[i] {
      assert a[i] == Tag(store.ids[names[i]], names[i]);
    }
  }

  /** The store matches names exactly while the service deduplicates by lower case: with
      "Work" stored, a request for "work" does not find it and inserts a second tag with
      a fresh id. */
  lemma CaseVariantIsCreatedAgain(s: TagStore, stored: string, requested: string)
    requires Valid(s)
    requires stored in s.ids && requested !in s.ids && Lower(stored) == Lower(requested)
    requires IsTagName(requested)
    ensures var r := EnsureTagsExist(s, Some([Some(requested)]));
            && r.Ok?
            && r.value.created == [requested]
            && r.value.tags[0].name == requested
            && r.value.tags[0].id != s.ids[stored]
  {
    var names := [requested];
    assert AllTagNames(names);
    assert Wrap(names) == [Some(requested)];
    CleanedOfWrap(names);
    WrapNotOverlong(names);
    HasOverlongIffSome(Wrap(names));
    FirstSpellingsOfDistinct(names);
    assert Normalize(Some([Some(requested)])) == Ok(names);
    var r := EnsureTagsExist(s, Some([Some(requested)])).value;
    assert Absent(s, names) == [requested];
    assert CreateAll(s, [requested]) == GetOrCreate(s, requested).0;
  }

  // ---------------------------------------------------------------- get_tags_by_names

  /** `get_tags_by_names`: the stored tags whose exact name is a normalised name. */
  function GetTagsByNames(s: TagStore, names: seq<Option<string>>): (r: Result<set<Tag>>)
    ensures Normalize(Some(names)).Err? <==> r.Err?
    ensures r.Ok? ==> forall t :: t in r.value <==>
              t.name in Normalize(Some(names)).value && t.name in s.ids && t.id == s.ids[t.name]
  {
    var normalized :- Normalize(Some(names));
    if normalized == [] then Ok({}) else Ok(GetByNames(s, normalized))
  }
}

=== FILE: task_repository.dfy ===
/** The task repository: row create/update/delete, and the two queries — the filtered,
    sorted, paged listing and the scan for tasks due in a window. */
module TaskRepository {
  import opened Results
  import opened Text
  import opened Entities
  import opened Seqs
  import opened Database
  import TagRepository

  // ---------------------------------------------------------------- rows

  /** `create`: inserts the row and resolves each tag name with an exact-name lookup,
      inserting the missing tags. */
  function Create(w: World, t: Task): (r: (World, Task))
    requires FindTask(w.tasks, t.id).None?
    ensures r.1 == t
    ensures r.0.tasks == w.tasks + [t]
    ensures r.0.tags == TagRepository.CreateAll(w.tags, t.tags)
    ensures r.0 == w.(tasks := r.0.tasks, tags := r.0.tags)
  {
    (w.(tasks := w.tasks + [t], tags := TagRepository.CreateAll(w.tags, t.tags)), t)
  }

  /** `get_by_id`. */
  function GetById(w: World, id: Id): (r: Option<Task>)
    ensures r.Some? <==> exists t :: t in w.tasks && t.id == id
    ensures r.Some? ==> r.value in w.tasks && r.value.id == id
  {
    FindTask(w.tasks, id)
  }

  /** The stored row after `update` copies the entity's fields onto it: the owner and
      the creation time are not copied. */
  function Merge(row: Task, t: Task): (r: Task)
    ensures r.id == row.id && r.ownerId == row.ownerId && r.createdAt == row.createdAt
    ensures r.(id := t.id, ownerId := t.ownerId, createdAt := t.createdAt) == t
  {
    row.(title := t.title, description := t.description, status := t.status,
         priority := t.priority, dueDate := t.dueDate, updatedAt := t.updatedAt, tags := t.tags)
  }

  /** `update`: a missing row is a `ValueError`; otherwise the row takes the entity's
      editable fields and tags (missing tags are inserted) and every other row is kept. */
  function Update(w: World, t: Task): (r: Result<(World, Task)>)
    ensures r.Err? <==> FindTask(w.tasks, t.id).None?
    ensures r.Err? ==> r.error == ValueError("Task not found")
    ensures r.Ok? ==> var (w', u) := r.value;
      && |w'.tasks| == |w.tasks|
      && (forall i :: 0 <= i < |w.tasks| ==> w'.tasks[i].id == w.tasks[i].id)
      && (forall i :: 0 <= i < |w.tasks| && w.tasks[i].id != t.id ==> w'.tasks[i] == w.tasks[i])
      && (forall i :: 0 <= i < |w.tasks| && w.tasks[i].id == t.id ==> w'.tasks[i] == Merge(w.tasks[i], t))
      && u == Merge(FindTask(w.tasks, t.id).value, t)
      && w'.tags == TagRepository.CreateAll(w.tags, t.tags)
      && w' == w.(tasks := w'.tasks, tags := w'.tags)
  {
    match FindTask(w.tasks, t.id)
    case None => Err(ValueError("Task not found"))
    case Some(row) =>
      var tasks := Map(w.tasks, (x: Task) => if x.id == t.id then Merge(x, t) else x);
      Ok((w.(tasks := tasks, tags := TagRepository.CreateAll(w.tags, t.tags)), Merge(row, t)))
  }

  /** `delete`: removes the row (with the schema's cascades) when present; a missing id is
      not an error and changes nothing. */
  function Delete(w: World, id: Id): (r: World)
    ensures FindTask(w.tasks, id).None? ==> r == w
    ensures FindTask(w.tasks, id).Some? ==> r == DeleteTaskRow(w, id)
    ensures FindTask(r.tasks, id).None?
  {
    if FindTask(w.tasks, id).Some? then DeleteTaskRow(w, id) else w
  }

  /** Updating a row and reading it back gives the merged row. */
  lemma UpdateThenGet(w: World, t: Task, i: nat)
    requires UniqueTaskIds(w.tasks)
    requires i < |w.tasks| && w.tasks[i].id == t.id
    ensures Update(w, t).Ok?
    ensures GetById(Update(w, t).value.0, t.id) == Some(Merge(w.tasks[i], t))
  {
    FindTaskUnique(w.tasks, t.id, i);
    var w' := Update(w, t).value.0;
    assert UniqueTaskIds(w'.tasks) by {
      forall a, b | 0 <= a < b < |w'.tasks| ensures w'.tasks[a].id != w'.tasks[b].id {
        assert w'.tasks[a].id == w.tasks[a].id && w'.tasks[b].id == w.tasks[b].id;
      }
    }
    FindTaskUnique(w'.tasks, t.id, i);
  }

  /** Once deleted, a task cannot be read back. */
  lemma DeleteThenGet(w: World, id: Id)
    ensures GetById(Delete(w, id), id).None?
  {
  }

  // ---------------------------------------------------------------- list_due_between

  predicate DueWithin(t: Task, after: Instant, before: Instant) {
    t.dueDate.Some? && after <= t.dueDate.value <= before && t.status != Done
  }

  /** `list_due_between`: the tasks with a due date in `[after, before]` that are not
      done. The query has no ORDER BY; the model returns them in table order. */
  function ListDueBetween(tasks: seq<Task>, after: Instant, before: Instant): (r: seq<Task>)
    ensures forall t :: t in r <==> t in tasks && DueWithin(t, after, before)
    ensures forall t :: DueWithin(t, after, before) ==> multiset(r)[t] == multiset(tasks)[t]
    ensures multiset(r) <= multiset(tasks)
  {
    FilterMultiset(tasks, (t: Task) => DueWithin(t, after, before));
    Filter(tasks, (t: Task) => DueWithin(t, after, before))
  }

  // ---------------------------------------------------------------- list: filters

  predicate IsPrefix(p: string, s: string) {
    |p| <= |s| && s[..|p|] == p
  }

  /** `p` occurs in `s` as a contiguous block. */
  predicate IsInfix(p: string, s: string)
    decreases |s|
  {
    IsPrefix(p, s) || (s != [] && IsInfix(p, s[1..]))
  }

  /** `ILIKE '%search%'` on the title or on a present description. */
  predicate SearchMatches(t: Task, search: string) {
    || IsInfix(Lower(search), Lower(t.title))
    || (t.description.Some? && IsInfix(Lower(search), Lower(t.description.value)))
  }

  /** The arguments of `list`. `page` and `pageSize` are taken as the caller passes them. */
  datatype ListQuery = ListQuery(
    ownerId: Option<Id>,
    search: Option<string>,
    status: Option<TaskStatus>,
    priority: Option<TaskPriority>,
    tags: Option<seq<string>>,
    dueBefore: Option<Instant>,
    dueAfter: Option<Instant>,
    sortBy: string,
    sortOrder: string,
    page: int,
    pageSize: int)

  /** The WHERE clause of `list`. Each filter applies only when its argument is given
      and non-empty; a missing due date fails both due-date bounds; the tag filter keeps
      a task carrying at least one of the names. */
  predicate Matches(t: Task, q: ListQuery) {
    && (q.ownerId.None? || t.ownerId == q.ownerId.value)
    && (q.search.None? || q.search.value == [] || SearchMatches(t, q.search.value))
    && (q.status.None? || t.status == q.status.value)
    && (q.priority.None? || t.priority == q.priority.value)
    && (q.tags.None? || q.tags.value == [] || exists n :: n in t.tags && n in q.tags.value)
    && (q.dueAfter.None? || (t.dueDate.Some? && t.dueDate.value >= q.dueAfter.value))
    && (q.dueBefore.None? || (t.dueDate.Some? && t.dueDate.value <= q.dueBefore.value))
  }

  /** The number of rows satisfying the WHERE clause, counted one by one. */
  function CountMatching(tasks: seq<Task>, q: ListQuery): nat {
    if tasks == [] then 0
    else (if Matches(tasks[0], q) then 1 else 0) + CountMatching(tasks[1..], q)
  }

  lemma {:induction false} CountIsFilterLength(tasks: seq<Task>, q: ListQuery)
    ensures CountMatching(tasks, q) == |Filter(tasks, (t: Task) => Matches(t, q))|
  {
    if tasks != [] {
      CountIsFilterLength(tasks[1..], q);
    }
  }

  // ---------------------------------------------------------------- list: ordering

  datatype SortField = ByCreatedAt | ByUpdatedAt | ByTitle | ByPriority | ByStatus | ByDueDate

  /** The sort-field allow-list, by column name. */
  function SortFieldNamed(name: string): (r: Option<SortField>)
    ensures r.Some? <==> name in {"created_at", "updated_at", "title", "priority", "status", "due_date"}
  {
    if name == "created_at" then Some(ByCreatedAt)
    else if name == "updated_at" then Some(ByUpdatedAt)
    else if name == "title" then Some(ByTitle)
    else if name == "priority" then Some(ByPriority)
    else if name == "status" then Some(ByStatus)
    else if name == "due_date" then Some(ByDueDate)
    else None
  }

  /** Positions in the database enum types, which order by declaration. */
  function StatusRank(s: TaskStatus): nat {
    match s
    case Todo => 0
    case InProgress => 1
    case Done => 2
    case Blocked => 3
  }

  function PriorityRank(p: TaskPriority): nat {
    match p
    case Low => 0
    case Medium => 1
    case High => 2
    case Critical => 3
  }

  /** Lexicographic order on code points. */
  predicate LexLe(a: string, b: string)
    decreases |a|
  {
    a == [] || (b != [] && (a[0] < b[0] || (a[0] == b[0] && LexLe(a[1..], b[1..]))))
  }

  /** Ascending order on one column. A missing due date sorts last (`NULLS LAST`). */
  predicate AscLe(f: SortField, a: Task, b: Task) {
    match f
    case ByCreatedAt => a.createdAt <= b.createdAt
    case ByUpdatedAt => a.updatedAt <= b.updatedAt
    case ByTitle => LexLe(a.title, b.title)
    case ByPriority => PriorityRank(a.priority) <= PriorityRank(b.priority)
    case ByStatus => StatusRank(a.status) <= StatusRank(b.status)
    case ByDueDate => b.dueDate.None? || (a.dueDate.Some? && a.dueDate.value <= b.dueDate.value)
  }

  /** `a` may come before `b`. Descending is ascending reversed, which also puts missing
      due dates first, as `DESC` does. */
  predicate Before(f: SortField, descending: bool, a: Task, b: Task) {
    if descending then AscLe(f, b, a) else AscLe(f, a, b)
  }

  /** The ORDER BY of `list`: an allowed column, descending exactly when the order
      lower-cases to "desc"; any other column falls back to newest first. */
  function Ordering(q: ListQuery): (r: (SortField, bool))
    ensures SortFieldNamed(q.sortBy).None? ==> r == (ByCreatedAt, true)
    ensures SortFieldNamed(q.sortBy).Some? ==> r.0 == SortFieldNamed(q.sortBy).value && (r.1 <==> Lower(q.sortOrder) == "desc")
  {
    match SortFieldNamed(q.sortBy)
    case None => (ByCreatedAt, true)
    case Some(f) => (f, Lower(q.sortOrder) == "desc")
  }

  lemma {:induction false} LexLeTotal(a: string, b: string)
    ensures LexLe(a, b) || LexLe(b, a)
    decreases |a|
  {
    if a != [] && b != [] && a[0] == b[0] {
      LexLeTotal(a[1..], b[1..]);
    }
  }

  lemma {:induction false} LexLeTransitive(a: string, b: string, c: string)
    requires LexLe(a, b) && LexLe(b, c)
    ensures LexLe(a, c)
    decreases |a|
  {
    if a != [] && a[0] == b[0] && b[0] == c[0] {
      LexLeTransitive(a[1..], b[1..], c[1..]);
    }
  }

  lemma BeforeTotal(f: SortField, d: bool, a: Task, b: Task)
    ensures Before(f, d, a, b) || Before(f, d, b, a)
  {
    if f == ByTitle {
      LexLeTotal(a.title, b.title);
    }
  }

  lemma BeforeTransitive(f: SortField, d: bool, a: Task, b: Task, c: Task)
    requires Before(f, d, a, b) && Before(f, d, b, c)
    ensures Before(f, d, a, c)
  {
    if f == ByTitle {
      if d {
        LexLeTransitive(c.title, b.title, a.title);
      } else {
        LexLeTransitive(a.title, b.title, c.title);
      }
    }
  }

  predicate Sorted(f: SortField, d: bool, xs: seq<Task>) {
    forall i, j :: 0 <= i < j < |xs| ==> Before(f, d, xs[i], xs[j])
  }

  /** Inserting into a sorted list, before the first element `x` may precede. */
  function Insert(f: SortField, d: bool, x: Task, xs: seq<Task>): (r: seq<Task>)
    ensures multiset(r) == multiset(xs) + multiset{x}
    ensures |r| == |xs| + 1
  {
    if xs == [] then [x]
    else if Before(f, d, x, xs[0]) then [x] + xs
    else
      assert xs == [xs[0]] + xs[1..];
      [xs[0]] + Insert(f, d, x, xs[1..])
  }

  /** A sorted list stays sorted when an element that may precede all of it is put
      in front. */
  lemma SortedCons(f: SortField, d: bool, a: Task, ys: seq<Task>)
    requires forall y :: y in ys ==> Before(f, d, a, y)
    requires Sorted(f, d, ys)
    ensures Sorted(f, d, [a] + ys)
  {
    var r := [a] + ys;
    forall i, j | 0 <= i < j < |r| ensures Before(f, d, r[i], r[j]) {
      assert r[j] == ys[j - 1];
      if i > 0 {
        assert r[i] == ys[i - 1];
      }
    }
  }

  lemma SortedTail(f: SortField, d: bool, xs: seq<Task>)
    requires xs != [] && Sorted(f, d, xs)
    ensures Sorted(f, d, xs[1..])
    ensures forall y :: y in xs[1..] ==> Before(f, d, xs[0], y)
  {
    var t := xs[1..];
    forall i, j | 0 <= i < j < |t| ensures Before(f, d, t[i], t[j]) {
      assert t[i] == xs[i + 1] && t[j] == xs[j + 1];
    }
    forall y | y in t ensures Before(f, d, xs[0], y) {
      var k :| 0 <= k < |t| && t[k] == y;
      assert xs[k + 1] == y;
    }
  }

  lemma {:induction false} InsertSorted(f: SortField, d: bool, x: Task, xs: seq<Task>)
    requires Sorted(f, d, xs)
    ensures Sorted(f, d, Insert(f, d, x, xs))
  {
    if xs != [] {
      SortedTail(f, d, xs);
      if Before(f, d, x, xs[0]) {
        forall y | y in xs ensures Before(f, d, x, y) {
          if y != xs[0] {
            assert y in xs[1..] by {
              var k :| 0 <= k < |xs| && xs[k] == y;
              assert xs[1..][k - 1] == y;
            }
            BeforeTransitive(f, d, x, xs[0], y);
          }
        }
        SortedCons(f, d, x, xs);
      } else {
        BeforeTotal(f, d, x, xs[0]);
        InsertSorted(f, d, x, xs[1..]);
        var tail := Insert(f, d, x, xs[1..]);
        forall y | y in tail ensures Before(f, d, xs[0], y) {
          assert y in multiset(tail);
          assert y == x || y in multiset(xs[1..]);
        }
        SortedCons(f, d, xs[0], tail);
      }
    }
  }

  /** Insertion sort; ties keep their table order. */
  function Sort(f: SortField, d: bool, xs: seq<Task>): (r: seq<Task>)
    ensures multiset(r) == multiset(xs)
    ensures |r| == |xs|
  {
    if xs == [] then []
    else
      assert xs == [xs[0]] + xs[1..];
      Insert(f, d, xs[0], Sort(f, d, xs[1..]))
  }

  lemma {:induction false} SortSorted(f: SortField, d: bool, xs: seq<Task>)
    ensures Sorted(f, d, Sort(f, d, xs))
  {
    if xs != [] {
      SortSorted(f, d, xs[1..]);
      InsertSorted(f, d, xs[0], Sort(f, d, xs[1..]));
    }
  }

  // ---------------------------------------------------------------- list: paging

  function Min(a: int, b: int): int {
    if a <= b then a else b
  }

  /** `OFFSET offset LIMIT limit`. */
  function Page<T>(xs: seq<T>, offset: nat, limit: nat): (r: seq<T>)
    ensures |r| == if offset >= |xs| then 0 else Min(limit, |xs| - offset)
    ensures forall k :: 0 <= k < |r| ==> r[k] == xs[offset + k]
  {
    if offset >= |xs| then [] else xs[offset..Min(offset + limit, |xs|)]
  }

  /** The position `i` of the sorted result is item `i % size` of page `i / size + 1`:
      consecutive pages tile the result without gaps or overlaps. */
  lemma PagesTile<T>(xs: seq<T>, size: nat, i: nat)
    requires 0 < size && i < |xs|
    ensures var p := i / size + 1;
            var page := Page(xs, (p - 1) * size, size);
            i % size < |page| && page[i % size] == xs[i]
  {
    var p := i / size + 1;
    assert (p - 1) * size + i % size == i;
  }

  /** No other page holds position `i`: if item `j` of page `p` is position `i` of the
      result, then `p` and `j` are the page and the index `PagesTile` gives. */
  lemma PagePositionUnique<T>(xs: seq<T>, size: nat, i: nat, p: nat, j: nat)
    requires 0 < size && 1 <= p
    requires j < |Page(xs, (p - 1) * size, size)| && (p - 1) * size + j == i
    ensures p == i / size + 1 && j == i % size
  {
    assert j < size;
    DivisionUnique(i, size, p - 1, j);
  }

  /** Euclidean division has one quotient and one remainder. */
  lemma DivisionUnique(n: nat, d: nat, q: nat, m: nat)
    requires 0 < d && m < d && q * d + m == n
    ensures n / d == q && n % d == m
  {
    assert (n / d - q) * d == m - n % d;
    SmallMultiple(n / d - q, d);
  }

  /** The only multiple of `d` strictly between `-d` and `d` is zero. */
  lemma SmallMultiple(k: int, d: int)
    requires 0 < d && -d < k * d < d
    ensures k == 0
  {
  }

  // ---------------------------------------------------------------- list

  /** `page` is the block of `rows` that starts at `offset`; past the end of `rows`
      that block is empty. */
  predicate SliceAt(page: seq<Task>, rows: seq<Task>, offset: int) {
    && 0 <= offset
    && (page == [] || offset + |page| <= |rows|)
    && forall k :: 0 <= k < |page| ==> offset + k < |rows| && page[k] == rows[offset + k]
  }

  lemma PageIsSlice(xs: seq<Task>, offset: nat, limit: nat)
    ensures SliceAt(Page(xs, offset, limit), xs, offset)
  {
  }

  function Offset(q: ListQuery): int {
    (q.page - 1) * q.pageSize
  }

  /** The rows satisfying the WHERE clause, in table order. */
  function Matching(tasks: seq<Task>, q: ListQuery): (r: seq<Task>)
    ensures forall t :: t in r <==> t in tasks && Matches(t, q)
    ensures |r| == CountMatching(tasks, q)
    ensures forall t :: multiset(r)[t] == if Matches(t, q) then multiset(tasks)[t] else 0
  {
    CountIsFilterLength(tasks, q);
    FilterMultiset(tasks, (t: Task) => Matches(t, q));
    var r := Filter(tasks, (t: Task) => Matches(t, q));
    assert forall t :: !Matches(t, q) ==> t !in r;
    r
  }

  /** The matching rows in the requested order. */
  function Ordered(tasks: seq<Task>, q: ListQuery): (r: seq<Task>)
    ensures Sorted(Ordering(q).0, Ordering(q).1, r)
    ensures multiset(r) == multiset(Matching(tasks, q))
  {
    SortSorted(Ordering(q).0, Ordering(q).1, Matching(tasks, q));
    Sort(Ordering(q).0, Ordering(q).1, Matching(tasks, q))
  }

  lemma PageOfSorted(f: SortField, d: bool, xs: seq<Task>, offset: nat, limit: nat)
    requires Sorted(f, d, xs)
    ensures Sorted(f, d, Page(xs, offset, limit))
    ensures forall t :: t in Page(xs, offset, limit) ==> t in xs
    ensures offset == 0 && limit >= |xs| ==> Page(xs, offset, limit) == xs
  {
    var p := Page(xs, offset, limit);
    forall i, j | 0 <= i < j < |p| ensures Before(f, d, p[i], p[j]) {
      assert p[i] == xs[offset + i] && p[j] == xs[offset + j];
    }
  }

  /** `list`: the matching rows in the requested order, the requested page of them, and
      the number of matching rows. Postgres rejects a negative OFFSET or LIMIT. */
  function List(tasks: seq<Task>, q: ListQuery): (r: (seq<Task>, nat))
    requires Offset(q) >= 0 && q.pageSize >= 0
    ensures forall t :: t in r.0 ==> t in tasks && Matches(t, q)
    ensures Sorted(Ordering(q).0, Ordering(q).1, r.0)
    ensures r.1 == CountMatching(tasks, q)
    ensures |r.0| == if Offset(q) >= r.1 then 0 else Min(q.pageSize, r.1 - Offset(q))
    ensures Offset(q) == 0 && q.pageSize >= r.1 ==>
              forall t :: multiset(r.0)[t] == if Matches(t, q) then multiset(tasks)[t] else 0
    ensures |Ordered(tasks, q)| == r.1
    ensures SliceAt(r.0, Ordered(tasks, q), Offset(q))
  {
    var sorted := Ordered(tasks, q);
    PageOfSorted(Ordering(q).0, Ordering(q).1, sorted, Offset(q), q.pageSize);
    PageIsSlice(sorted, Offset(q), q.pageSize);
    OrderedMatching(tasks, q);
    (Page(sorted, Offset(q), q.pageSize), |sorted|)
  }

  // ---------------------------------------------------------------- list, as written

  /** With a tag filter, the join yields one row per tag of the task named in the filter;
      without one, one row per task. */
  function JoinedRows(t: Task, q: ListQuery): nat {
    if q.tags.None? || q.tags.value == [] then 1
    else |set n | n in t.tags && n in q.tags.value|
  }

  function Repeat(t: Task, n: nat): (r: seq<Task>)
    ensures |r| == n && forall u :: u in r ==> u == t
  {
    if n == 0 then [] else [t] + Repeat(t, n - 1)
  }

  /** The joined rows of the sorted tasks; a task's rows are adjacent. */
  function Expand(xs: seq<Task>, q: ListQuery): (r: seq<Task>)
    ensures forall t :: t in r ==> t in xs
  {
    if xs == [] then [] else Repeat(xs[0], JoinedRows(xs[0], q)) + Expand(xs[1..], q)
  }

  /** No row appears twice. */
  predicate NoDuplicates(xs: seq<Task>) {
    forall i, j :: 0 <= i < j < |xs| ==> xs[i] != xs[j]
  }

  function Except(x: Task): Task -> bool {
    (t: Task) => t != x
  }

  /** `scalars().unique()`: each entity once, at its first row. Rows that are already
      distinct are kept as they are. */
  function Unique(xs: seq<Task>): (r: seq<Task>)
    ensures forall t :: t in r <==> t in xs
    ensures |r| <= |xs|
    ensures NoDuplicates(r)
    ensures NoDuplicates(xs) ==> r == xs
    decreases |xs|
  {
    if xs == [] then []
    else
      var rest := Filter(xs[1..], Except(xs[0]));
      var u := Unique(rest);
      ConsNoDuplicates(xs[0], u);
      DistinctTail(xs);
      [xs[0]] + u
  }

  /** For distinct rows, removing the first row's copies from the rest removes
      nothing. */
  lemma DistinctTail(xs: seq<Task>)
    requires xs != []
    ensures NoDuplicates(xs) ==>
              && Filter(xs[1..], Except(xs[0])) == xs[1..]
              && NoDuplicates(xs[1..])
              && [xs[0]] + xs[1..] == xs
  {
    if NoDuplicates(xs) {
      TailNoDuplicates(xs);
      FilterAll(xs[1..], Except(xs[0]));
      HeadTail(xs);
    }
  }

  lemma ConsNoDuplicates(x: Task, ys: seq<Task>)
    requires NoDuplicates(ys) && x !in ys
    ensures NoDuplicates([x] + ys)
  {
    var r := [x] + ys;
    forall i, j | 0 <= i < j < |r| ensures r[i] != r[j] {
      assert r[j] == ys[j - 1];
      if i > 0 {
        assert r[i] == ys[i - 1];
      }
    }
  }

  lemma TailNoDuplicates(xs: seq<Task>)
    requires xs != [] && NoDuplicates(xs)
    ensures NoDuplicates(xs[1..])
    ensures forall t :: t in xs[1..] ==> t != xs[0]
  {
    var t := xs[1..];
    forall i, j | 0 <= i < j < |t| ensures t[i] != t[j] {
      assert t[i] == xs[i + 1] && t[j] == xs[j + 1];
    }
    forall y | y in t ensures y != xs[0] {
      var k :| 0 <= k < |t| && t[k] == y;
      assert xs[k + 1] == y;
    }
  }

  /** Rows are distinct exactly when no row occurs twice in their multiset. */
  lemma {:induction false} NoDuplicatesMultiset(xs: seq<Task>)
    ensures NoDuplicates(xs) <==> forall t :: multiset(xs)[t] <= 1
  {
    if xs != [] {
      var t := xs[1..];
      NoDuplicatesMultiset(t);
      HeadTail(xs);
      assert multiset(xs) == multiset{xs[0]} + multiset(t);
      if NoDuplicates(xs) {
        TailNoDuplicates(xs);
        assert multiset(t)[xs[0]] == 0;
      }
      if forall y :: multiset(xs)[y] <= 1 {
        assert forall y :: multiset(t)[y] <= multiset(xs)[y];
        assert xs[0] !in t by {
          assert multiset(t)[xs[0]] == 0;
        }
        ConsNoDuplicates(xs[0], t);
      }
    }
  }

  lemma PageNoDuplicates(xs: seq<Task>, offset: nat, limit: nat)
    requires NoDuplicates(xs)
    ensures NoDuplicates(Page(xs, offset, limit))
  {
    var p := Page(xs, offset, limit);
    forall i, j | 0 <= i < j < |p| ensures p[i] != p[j] {
      assert p[i] == xs[offset + i] && p[j] == xs[offset + j];
    }
  }

  /** Distinct table rows stay distinct through filtering and sorting. */
  lemma OrderedNoDuplicates(tasks: seq<Task>, q: ListQuery)
    requires NoDuplicates(tasks)
    ensures NoDuplicates(Ordered(tasks, q))
  {
    NoDuplicatesMultiset(tasks);
    var m := Matching(tasks, q);
    assert forall t :: multiset(m)[t] <= multiset(tasks)[t];
    NoDuplicatesMultiset(Ordered(tasks, q));
  }

  /** Table rows with distinct primary keys are distinct rows. */
  lemma UniqueIdsNoDuplicates(tasks: seq<Task>)
    requires UniqueTaskIds(tasks)
    ensures NoDuplicates(tasks)
  {
  }

  lemma SortedAppend(f: SortField, d: bool, a: seq<Task>, b: seq<Task>)
    requires Sorted(f, d, a) && Sorted(f, d, b)
    requires forall x, y :: x in a && y in b ==> Before(f, d, x, y)
    ensures Sorted(f, d, a + b)
  {
    var r := a + b;
    forall i, j | 0 <= i < j < |r| ensures Before(f, d, r[i], r[j]) {
      if j < |a| {
        assert r[i] == a[i] && r[j] == a[j];
      } else if i >= |a| {
        assert r[i] == b[i - |a|] && r[j] == b[j - |a|];
      } else {
        assert r[i] in a && r[j] in b;
      }
    }
  }

  /** Deleting rows from a sorted list leaves it sorted. */
  lemma {:induction false} FilterSorted(f: SortField, d: bool, xs: seq<Task>, p: Task -> bool)
    requires Sorted(f, d, xs)
    ensures Sorted(f, d, Filter(xs, p))
  {
    if xs != [] {
      SortedTail(f, d, xs);
      FilterSorted(f, d, xs[1..], p);
      if p(xs[0]) {
        SortedCons(f, d, xs[0], Filter(xs[1..], p));
      }
    }
  }

  lemma {:induction false} UniqueSorted(f: SortField, d: bool, xs: seq<Task>)
    requires Sorted(f, d, xs)
    ensures Sorted(f, d, Unique(xs))
    decreases |xs|
  {
    if xs != [] {
      var rest := Filter(xs[1..], Except(xs[0]));
      SortedTail(f, d, xs);
      FilterSorted(f, d, xs[1..], Except(xs[0]));
      UniqueSorted(f, d, rest);
      SortedCons(f, d, xs[0], Unique(rest));
    }
  }

  lemma RepeatSorted(f: SortField, d: bool, t: Task, n: nat)
    ensures Sorted(f, d, Repeat(t, n))
  {
    BeforeTotal(f, d, t, t);
    var r := Repeat(t, n);
    forall i, j | 0 <= i < j < |r| ensures Before(f, d, r[i], r[j]) {
      assert r[i] in r && r[j] in r;
    }
  }

  /** Expanding sorted tasks into their joined rows keeps the order. */
  lemma {:induction false} ExpandSorted(f: SortField, d: bool, xs: seq<Task>, q: ListQuery)
    requires Sorted(f, d, xs)
    ensures Sorted(f, d, Expand(xs, q))
  {
    if xs != [] {
      SortedTail(f, d, xs);
      ExpandSorted(f, d, xs[1..], q);
      RepeatSorted(f, d, xs[0], JoinedRows(xs[0], q));
      BeforeTotal(f, d, xs[0], xs[0]);
      SortedAppend(f, d, Repeat(xs[0], JoinedRows(xs[0], q)), Expand(xs[1..], q));
    }
  }

  /** Without a tag filter there is one joined row per task. */
  lemma {:induction false} ExpandWithoutTagFilter(xs: seq<Task>, q: ListQuery)
    requires q.tags.None? || q.tags.value == []
    ensures Expand(xs, q) == xs
  {
    if xs != [] {
      ExpandWithoutTagFilter(xs[1..], q);
      assert Repeat(xs[0], 1) == [xs[0]];
      HeadTail(xs);
    }
  }

  /** A matching task with a tag filter carries at least one of the named tags, so it
      yields at least one joined row. */
  lemma {:induction false} ExpandLength(xs: seq<Task>, q: ListQuery)
    requires forall t :: t in xs ==> Matches(t, q)
    ensures |Expand(xs, q)| >= |xs|
  {
    if xs != [] {
      var t := xs[0];
      assert t in xs;
      if !(q.tags.None? || q.tags.value == []) {
        var n :| n in t.tags && n in q.tags.value;
        var named := set m | m in t.tags && m in q.tags.value;
        assert n in named;
        assert |named| == |named - {n}| + 1;
      }
      assert JoinedRows(t, q) >= 1;
      assert forall u :: u in xs[1..] ==> u in xs;
      ExpandLength(xs[1..], q);
      assert |Expand(xs, q)| == JoinedRows(t, q) + |Expand(xs[1..], q)|;
    }
  }

  /** `list` as written: the count query joins the tag table, so it counts joined rows,
      and OFFSET and LIMIT are applied to the joined rows before the duplicates are
      merged. The count is never below the number of matching tasks. */
  function ListAsWritten(tasks: seq<Task>, q: ListQuery): (r: (seq<Task>, nat))
    requires Offset(q) >= 0 && q.pageSize >= 0
    ensures forall t :: t in r.0 ==> t in tasks && Matches(t, q)
    ensures Sorted(Ordering(q).0, Ordering(q).1, r.0)
    ensures NoDuplicates(r.0)
    ensures |r.0| <= q.pageSize
    ensures r.1 >= CountMatching(tasks, q)
  {
    var rows := Expand(Ordered(tasks, q), q);
    JoinedRowsMatch(tasks, q);
    JoinedPageSorted(tasks, q, Offset(q), q.pageSize);
    (Unique(Page(rows, Offset(q), q.pageSize)), |rows|)
  }

  /** The joined rows are matching table rows, at least one per matching task. */
  lemma JoinedRowsMatch(tasks: seq<Task>, q: ListQuery)
    ensures forall t :: t in Expand(Ordered(tasks, q), q) ==> t in tasks && Matches(t, q)
    ensures |Expand(Ordered(tasks, q), q)| >= CountMatching(tasks, q)
  {
    OrderedMatching(tasks, q);
    ExpandLength(Ordered(tasks, q), q);
  }

  /** A page of joined rows, with the duplicates merged, is in the requested order. */
  lemma JoinedPageSorted(tasks: seq<Task>, q: ListQuery, offset: nat, limit: nat)
    ensures var p := Unique(Page(Expand(Ordered(tasks, q), q), offset, limit));
            Sorted(Ordering(q).0, Ordering(q).1, p) && |p| <= limit
            && forall t :: t in p ==> t in Expand(Ordered(tasks, q), q)
  {
    var (f, d) := Ordering(q);
    var rows := Expand(Ordered(tasks, q), q);
    ExpandSorted(f, d, Ordered(tasks, q), q);
    PageOfSorted(f, d, rows, offset, limit);
    UniqueSorted(f, d, Page(rows, offset, limit));
  }

  /** Without a tag filter the join adds no rows, and the listing as written is the
      corrected one, provided the table holds no row twice. */
  lemma ListAsWrittenWithoutTagFilter(tasks: seq<Task>, q: ListQuery)
    requires Offset(q) >= 0 && q.pageSize >= 0
    requires NoDuplicates(tasks)
    requires q.tags.None? || q.tags.value == []
    ensures ListAsWritten(tasks, q) == List(tasks, q)
  {
    var sorted := Ordered(tasks, q);
    ExpandWithoutTagFilter(sorted, q);
    OrderedNoDuplicates(tasks, q);
    PageNoDuplicates(sorted, Offset(q), q.pageSize);
  }

  /** The ordered rows are the matching rows: as many, and each one matches. */
  lemma OrderedMatching(tasks: seq<Task>, q: ListQuery)
    ensures |Ordered(tasks, q)| == CountMatching(tasks, q)
    ensures forall t :: t in Ordered(tasks, q) ==> t in tasks && Matches(t, q)
  {
    var sorted := Ordered(tasks, q);
    forall t | t in sorted ensures t in Matching(tasks, q) {
      assert t in multiset(sorted);
    }
    assert |multiset(sorted)| == |multiset(Matching(tasks, q))|;
  }

  lemma PageMembers<T>(xs: seq<T>, offset: nat, limit: nat)
    ensures forall t :: t in Page(xs, offset, limit) ==> t in xs
  {
  }

  /** A single matching task is listed alone. */
  lemma OrderedSingle(t: Task, q: ListQuery)
    requires Matches(t, q)
    ensures Ordered([t], q) == [t]
  {
    assert Matching([t], q) == [t] by {
      assert multiset(Matching([t], q)) == multiset{t};
    }
    assert multiset(Ordered([t], q)) == multiset{t};
  }

  /** One task tagged "a" and "b", listed with the filter ["a", "b"]: the count query
      reports two tasks where there is one. */
  lemma JoinedCountOvercounts(t: Task)
    requires t.tags == ["a", "b"]
    ensures var q := ListQuery(None, None, None, None, Some(["a", "b"]), None, None,
                               "created_at", "desc", 1, 20);
            && List([t], q).1 == 1
            && ListAsWritten([t], q).1 == 2
  {
    var q := ListQuery(None, None, None, None, Some(["a", "b"]), None, None,
                       "created_at", "desc", 1, 20);
    JoinedTwice(t, q);
  }

  /** The same task with one task per page: the second page shows the task again,
      where the task set fits on the first page. */
  lemma JoinedPagesOverlap(t: Task)
    requires t.tags == ["a", "b"]
    ensures var q := ListQuery(None, None, None, None, Some(["a", "b"]), None, None,
                               "created_at", "desc", 2, 1);
            && List([t], q).0 == []
            && ListAsWritten([t], q).0 == [t]
  {
    var q := ListQuery(None, None, None, None, Some(["a", "b"]), None, None,
                       "created_at", "desc", 2, 1);
    JoinedTwice(t, q);
    assert Page([t, t], 1, 1) == [t];
    assert Unique([t]) == [t];
  }

  lemma JoinedTwice(t: Task, q: ListQuery)
    requires t.tags == ["a", "b"] && q.tags == Some(["a", "b"])
    requires q.ownerId.None? && q.search.None? && q.status.None? && q.priority.None?
    requires q.dueBefore.None? && q.dueAfter.None?
    ensures Matches(t, q)
    ensures Ordered([t], q) == [t]
    ensures Expand([t], q) == [t, t]
  {
    assert "a" in t.tags;
    OrderedSingle(t, q);
    assert (set n | n in t.tags && n in ["a", "b"]) == {"a", "b"};
    assert Repeat(t, 2) == [t, t] by {
      assert Repeat(t, 1) == [t] + Repeat(t, 0);
    }
    assert [t][1..] == [];
  }
}

=== FILE: task_service.dfy ===
/** The task service: creating, reading, listing, updating and deleting tasks, with
    the validation each operation performs and the audit event each one records. */
module TaskService {
  import opened Results
  import opened Text
  import opened Entities
  import opened Seqs
  import opened Database
  import TagRepository
  import TagService
  import TaskRepository

  const MaxTitleLength: nat := 500

  const EmptyTitle: Error := ValueError("Title cannot be empty")
  const TitleTooLong: Error := ValueError("Title cannot exceed 500 characters")
  const DueInPast: Error := ValidationError("Due date cannot be in the past")
  const TaskNotFound: Error := NotFoundError("Task not found")
  const NotAuthorized: Error := AuthorizationError("Not authorized")
  const EmptyTaskTitle: Error := ValidationError("Task title cannot be empty")
  const TaskTitleTooLong: Error := ValidationError("Task title cannot exceed 500 characters")
  const CannotReopen: Error := ValidationError("Cannot reopen a completed task. Create a new task instead.")
  const PastDueInProgress: Error := ValidationError("Cannot set a past due date for in-progress tasks")

  /** A stored title: stripped, non-empty and at most 500 characters. */
  predicate IsTitle(s: string) {
    s != [] && Strip(s) == s && |s| <= MaxTitleLength
  }

  /** What the service guarantees about every task it writes: a stored title, a
      stripped description, and normalised tag names. */
  predicate WellFormed(t: Task) {
    && IsTitle(t.title)
    && (t.description.None? || Strip(t.description.value) == t.description.value)
    && TagService.DistinctLowers(t.tags)
    && TagService.AllTagNames(t.tags)
  }

  lemma StripProperties(s: string)
    ensures |Strip(s)| <= |s|
    ensures Strip(Strip(s)) == Strip(s)
  {
    TrimIdempotent(s, Whitespace);
  }

  /** `description.strip() if description else None`: an absent or empty description
      is stored as none, any other one stripped. */
  function CleanDescription(d: Option<string>): (r: Option<string>)
    ensures r.None? <==> d.None? || d.value == []
    ensures r.Some? ==> Strip(r.value) == r.value
  {
    if d.None? || d.value == [] then None
    else
      StripProperties(d.value);
      Some(Strip(d.value))
  }

  /** The names of resolved tags, in order. */
  function Names(tags: seq<TagRepository.Tag>): (r: seq<string>)
    ensures |r| == |tags| && forall i :: 0 <= i < |tags| ==> r[i] == tags[i].name
  {
    Map(tags, (t: TagRepository.Tag) => t.name)
  }

  // ---------------------------------------------------------------- get_task_by_id

  /** `get_task_by_id`: the task, provided it exists and the user may view it. */
  function GetTaskById(w: World, taskId: Id, userId: Id): (r: Result<Task>)
    ensures FindTask(w.tasks, taskId).None? ==> r == Err(TaskNotFound)
    ensures FindTask(w.tasks, taskId).Some? && FindTask(w.tasks, taskId).value.ownerId != userId ==>
              r == Err(NotAuthorized)
    ensures r.Ok? <==> exists t :: t in w.tasks && t.id == taskId && FindTask(w.tasks, taskId).value.ownerId == userId
    ensures r.Ok? ==> r.value in w.tasks && r.value.id == taskId && r.value.ownerId == userId
  {
    match FindTask(w.tasks, taskId)
    case None => Err(TaskNotFound)
    case Some(t) => if CanBeViewedBy(t, userId) then Ok(t) else Err(NotAuthorized)
  }

  // ---------------------------------------------------------------- create_task

  datatype NewTask = NewTask(
    ownerId: Id,
    title: string,
    description: Option<string>,
    status: Option<TaskStatus>,
    priority: Option<TaskPriority>,
    dueDate: Option<Instant>,
    tags: Option<seq<Option<string>>>)

  /** The checks `create_task` makes before touching the tag table, in order. */
  function CreateError(req: NewTask, now: Instant): Option<Error> {
    if Strip(req.title) == [] then Some(EmptyTitle)
    else if |req.title| > MaxTitleLength then Some(TitleTooLong)
    else if req.dueDate.Some? && req.dueDate.value < now then Some(DueInPast)
    else None
  }

  /** The task `create_task` builds: a fresh id, the stripped title, the cleaned
      description, `TODO` and `MEDIUM` by default, and the normalised tag names. */
  predicate BuiltFrom(t: Task, req: NewTask, now: Instant, names: seq<string>, id: Id) {
    && t.id == id
    && t.ownerId == req.ownerId
    && t.title == Strip(req.title)
    && t.description == CleanDescription(req.description)
    && t.status == (if req.status.Some? then req.status.value else Todo)
    && t.priority == (if req.priority.Some? then req.priority.value else Medium)
    && t.dueDate == req.dueDate
    && t.createdAt == now && t.updatedAt == now
    && t.tags == names
  }

  function Created(t: Task, now: Instant): AuditEvent {
    AuditEvent(Some(t.ownerId), TaskCreated, Some(t.id), None, TaskSnapshot(t.title, t.status, t.priority), now)
  }

  /** The row written by `create_task`, with the fresh id the counter provides. */
  function NewRow(w: World, req: NewTask, now: Instant, names: seq<string>): (t: Task)
    ensures BuiltFrom(t, req, now, names, w.nextId)
  {
    Task(w.nextId, req.ownerId, Strip(req.title), CleanDescription(req.description),
         if req.status.Some? then req.status.value else Todo,
         if req.priority.Some? then req.priority.value else Medium,
         req.dueDate, now, now, names)
  }

  /** `create_task`: validate the title and due date, resolve the tags, insert the row
      and record a `TASK_CREATED` event with the title, status and priority. */
  function CreateTask(w: World, req: NewTask, now: Instant): (r: Result<(World, Task)>)
    requires Consistent(w)
    ensures CreateError(req, now).Some? ==> r == Err(CreateError(req, now).value)
    ensures CreateError(req, now).None? ==>
              (r.Err? <==> TagService.Normalize(req.tags).Err?) &&
              (r.Err? ==> r.error == TagService.Normalize(req.tags).error)
    ensures r.Ok? ==> var (w', t) := r.value;
      && BuiltFrom(t, req, now, TagService.Normalize(req.tags).value, t.id)
      && FindTask(w.tasks, t.id).None?
      && w'.tasks == w.tasks + [t]
      && w'.audit == w.audit + [Created(t, now)]
      && w'.tags == TagService.EnsureTagsExist(w.tags, req.tags).value.store
      && w'.attachments == w.attachments && w'.reminders == w.reminders
      && Consistent(w')
  {
    if CreateError(req, now).Some? then Err(CreateError(req, now).value)
    else
      var res :- TagService.EnsureTagsExist(w.tags, req.tags);
      CreateSpec(w, req, now, res);
      Insert(w, res.store, NewRow(w, req, now, Names(res.tags)), now)
  }

  /** Inserting the built row and recording its creation. */
  function Insert(w: World, store: TagRepository.TagStore, row: Task, now: Instant): Result<(World, Task)>
    requires FindTask(w.tasks, row.id).None?
  {
    var (w2, t) := TaskRepository.Create(w.(tags := store, nextId := w.nextId + 1), row);
    Ok((AddAudit(w2, Created(t, now)), t))
  }

  lemma CreateSpec(w: World, req: NewTask, now: Instant, res: TagService.Resolution)
    requires Consistent(w)
    requires TagService.EnsureTagsExist(w.tags, req.tags) == Ok(res)
    ensures FindTask(w.tasks, w.nextId).None?
    ensures var row := NewRow(w, req, now, Names(res.tags));
            var (w', t) := Insert(w, res.store, row, now).value;
      && BuiltFrom(t, req, now, TagService.Normalize(req.tags).value, t.id)
      && FindTask(w.tasks, t.id).None?
      && w'.tasks == w.tasks + [t]
      && w'.audit == w.audit + [Created(t, now)]
      && w'.tags == res.store
      && w'.attachments == w.attachments && w'.reminders == w.reminders
      && Consistent(w')
  {
    TagService.EnsureTagsExistStable(w.tags, req.tags);
    ResolvedNames(w.tags, req.tags, res);
    InsertSpec(w, res.store, NewRow(w, req, now, Names(res.tags)), now);
  }

  /** The resolved tags carry the normalised names, each held by the store. */
  lemma ResolvedNames(s: TagRepository.TagStore, tags: Option<seq<Option<string>>>, res: TagService.Resolution)
    requires TagService.EnsureTagsExist(s, tags) == Ok(res)
    ensures Names(res.tags) == TagService.Normalize(tags).value
    ensures forall n :: n in Names(res.tags) ==> n in res.store.ids
  {
  }

  /** Inserting a row with the counter's id and stored tag names appends it, keeps the
      tag store and the world consistent, and records its creation. */
  lemma InsertSpec(w: World, store: TagRepository.TagStore, row: Task, now: Instant)
    requires Consistent(w) && row.id == w.nextId
    requires TagRepository.Valid(store)
    requires forall n :: n in row.tags ==> n in store.ids
    ensures FindTask(w.tasks, row.id).None?
    ensures var (w', t) := Insert(w, store, row, now).value;
      && t == row
      && w'.tasks == w.tasks + [row]
      && w'.audit == w.audit + [Created(row, now)]
      && w'.tags == store
      && w'.attachments == w.attachments && w'.reminders == w.reminders
      && Consistent(w')
  {
    FreshIdAbsent(w);
    TagRepository.CreateAllExisting(store, row.tags);
    AppendFreshTask(w, row);
  }

  /** A created task satisfies every guarantee the service makes about stored tasks. */
  lemma CreatedIsWellFormed(w: World, req: NewTask, now: Instant)
    requires Consistent(w)
    requires CreateTask(w, req, now).Ok?
    ensures WellFormed(CreateTask(w, req, now).value.1)
  {
    StripProperties(req.title);
    var n := TagService.Normalize(req.tags);
  }

  /** The owner reads a created task back; anyone else is refused. */
  lemma CreateThenGet(w: World, req: NewTask, now: Instant, userId: Id)
    requires Consistent(w)
    requires CreateTask(w, req, now).Ok?
    ensures var (w', t) := CreateTask(w, req, now).value;
            GetTaskById(w', t.id, userId) == if userId == req.ownerId then Ok(t) else Err(NotAuthorized)
  {
    var (w', t) := CreateTask(w, req, now).value;
    FindTaskUnique(w'.tasks, t.id, |w.tasks|);
  }

  // ---------------------------------------------------------------- list_tasks

  datatype ListRequest = ListRequest(
    ownerId: Id,
    search: Option<string>,
    status: Option<TaskStatus>,
    priority: Option<TaskPriority>,
    tags: Option<seq<Option<string>>>,
    dueBefore: Option<Instant>,
    dueAfter: Option<Instant>,
    sortBy: string,
    sortOrder: string,
    page: int,
    pageSize: int)

  const MaxPageSize: int := 100

  /** The argument checks of `list_tasks`, in order. */
  function ListError(req: ListRequest): (r: Option<Error>)
    ensures r.None? <==>
              && req.sortBy in {"created_at", "updated_at", "title", "priority", "status", "due_date"}
              && req.sortOrder in {"asc", "desc"}
              && 1 <= req.page
              && 1 <= req.pageSize <= MaxPageSize
              && !(req.dueBefore.Some? && req.dueAfter.Some? && req.dueBefore.value < req.dueAfter.value)
  {
    if TaskRepository.SortFieldNamed(req.sortBy).None? then
      Some(ValidationError("Invalid sort field: " + req.sortBy))
    else if req.sortOrder != "asc" && req.sortOrder != "desc" then
      Some(ValidationError("Sort order must be 'asc' or 'desc'"))
    else if req.page < 1 then
      Some(ValidationError("Page number must be at least 1"))
    else if req.pageSize < 1 || req.pageSize > MaxPageSize then
      Some(ValidationError("Page size must be between 1 and 100"))
    else if req.dueBefore.Some? && req.dueAfter.Some? && req.dueBefore.value < req.dueAfter.value then
      Some(ValidationError("due_before must be after due_after"))
    else None
  }

  /** The repository query `list_tasks` issues: the caller's tasks, with the tag names
      normalised when a tag list is given. */
  function ToQuery(req: ListRequest, tags: Option<seq<string>>): TaskRepository.ListQuery {
    TaskRepository.ListQuery(Some(req.ownerId), req.search, req.status, req.priority, tags,
                             req.dueBefore, req.dueAfter, req.sortBy, req.sortOrder, req.page, req.pageSize)
  }

  /** The repository query of a `list_tasks` request: the first failing argument
      check, the tag-normalisation error, or the query. */
  function ListQueryOf(req: ListRequest): (r: Result<TaskRepository.ListQuery>)
    ensures ListError(req).Some? ==> r == Err(ListError(req).value)
    ensures ListError(req).None? ==>
              (r.Err? <==> req.tags.Some? && TagService.Normalize(req.tags).Err?)
    ensures r.Err? && ListError(req).None? ==> r.error == TagService.Normalize(req.tags).error
    ensures r.Ok? ==>
              && r.value == ToQuery(req, if req.tags.Some? then Some(TagService.Normalize(req.tags).value) else None)
              && TaskRepository.Offset(r.value) >= 0 && 1 <= r.value.pageSize <= MaxPageSize
              && TaskRepository.Ordering(r.value) == (TaskRepository.SortFieldNamed(req.sortBy).value, req.sortOrder == "desc")
              && (forall t :: TaskRepository.Matches(t, r.value) ==> t.ownerId == req.ownerId)
  {
    match ListError(req)
    case Some(e) => Err(e)
    case None =>
      var tags :- if req.tags.None? then Ok(None)
                  else (var n :- TagService.Normalize(req.tags); Ok(Some(n)));
      QueryOfRequest(req, tags);
      Ok(ToQuery(req, tags))
  }

  /** `list_tasks`: validate the arguments, normalise the tag names, and list the
      caller's matching tasks. The repository's listing is the one as written, so with
      a tag filter the total counts joined rows, and it is the number of matching
      tasks whenever no tag filter applies. */
  function ListTasks(w: World, req: ListRequest): (r: Result<(seq<Task>, nat)>)
    ensures ListQueryOf(req).Err? ==> r == Err(ListQueryOf(req).error)
    ensures r.Ok? ==>
              var q := ListQueryOf(req).value;
              && (forall t :: t in r.value.0 ==> t in w.tasks && t.ownerId == req.ownerId && TaskRepository.Matches(t, q))
              && TaskRepository.NoDuplicates(r.value.0)
              && |r.value.0| <= req.pageSize <= MaxPageSize
              && TaskRepository.Sorted(TaskRepository.Ordering(q).0, TaskRepository.Ordering(q).1, r.value.0)
              && r.value.1 >= TaskRepository.CountMatching(w.tasks, q)
              && (UniqueTaskIds(w.tasks) && (q.tags.None? || q.tags.value == []) ==>
                    r.value.1 == TaskRepository.CountMatching(w.tasks, q))
    ensures r.Ok? <==> ListTasksCorrected(w, req).Ok?
  {
    var q :- ListQueryOf(req);
    NoTagFilterAgrees(w.tasks, q);
    Ok(TaskRepository.ListAsWritten(w.tasks, q))
  }

  lemma NoTagFilterAgrees(tasks: seq<Task>, q: TaskRepository.ListQuery)
    requires TaskRepository.Offset(q) >= 0 && q.pageSize >= 0
    ensures UniqueTaskIds(tasks) && (q.tags.None? || q.tags.value == []) ==>
              TaskRepository.ListAsWritten(tasks, q) == TaskRepository.List(tasks, q)
  {
    if UniqueTaskIds(tasks) && (q.tags.None? || q.tags.value == []) {
      TaskRepository.UniqueIdsNoDuplicates(tasks);
      TaskRepository.ListAsWrittenWithoutTagFilter(tasks, q);
    }
  }

  /** `list_tasks` over a listing that counts and pages distinct tasks: the total is
      the number of matching tasks, and the page is the requested slice of them. */
  function ListTasksCorrected(w: World, req: ListRequest): (r: Result<(seq<Task>, nat)>)
    ensures ListQueryOf(req).Err? ==> r == Err(ListQueryOf(req).error)
    ensures r.Ok? ==>
              var q := ListQueryOf(req).value;
              && (forall t :: t in r.value.0 ==> t in w.tasks && t.ownerId == req.ownerId && TaskRepository.Matches(t, q))
              && |r.value.0| <= req.pageSize <= MaxPageSize
              && r.value.1 == TaskRepository.CountMatching(w.tasks, q)
              && TaskRepository.Sorted(TaskRepository.Ordering(q).0, TaskRepository.Ordering(q).1, r.value.0)
              && |TaskRepository.Ordered(w.tasks, q)| == r.value.1
              && TaskRepository.SliceAt(r.value.0, TaskRepository.Ordered(w.tasks, q), TaskRepository.Offset(q))
  {
    var q :- ListQueryOf(req);
    ListedPage(w.tasks, q);
    Ok(TaskRepository.List(w.tasks, q))
  }

  /** Without a tag filter, on a table whose rows have distinct ids, `list_tasks`
      returns the corrected listing. */
  lemma ListTasksWithoutTagFilter(w: World, req: ListRequest)
    requires UniqueTaskIds(w.tasks)
    requires req.tags.None? || (TagService.Normalize(req.tags).Ok? && TagService.Normalize(req.tags).value == [])
    ensures ListTasks(w, req) == ListTasksCorrected(w, req)
  {
    if ListQueryOf(req).Ok? {
      NoTagFilterAgrees(w.tasks, ListQueryOf(req).value);
    }
  }

  /** A request that passes the argument checks gives a query with a valid offset and
      page size, ordered as requested, that only matches the caller's tasks. */
  lemma QueryOfRequest(req: ListRequest, tags: Option<seq<string>>)
    requires ListError(req).None?
    ensures var q := ToQuery(req, tags);
            && TaskRepository.Offset(q) >= 0 && 1 <= q.pageSize <= MaxPageSize
            && TaskRepository.Ordering(q) == (TaskRepository.SortFieldNamed(req.sortBy).value, req.sortOrder == "desc")
            && (forall t :: TaskRepository.Matches(t, q) ==> t.ownerId == req.ownerId)
  {
    assert Lower(req.sortOrder) == req.sortOrder by {
      assert req.sortOrder == "asc" || req.sortOrder == "desc";
    }
    assert (req.page - 1) * req.pageSize >= 0;
  }

  /** A listing holds at most one page of tasks. */
  lemma ListedPage(tasks: seq<Task>, q: TaskRepository.ListQuery)
    requires TaskRepository.Offset(q) >= 0 && q.pageSize >= 0
    ensures |TaskRepository.List(tasks, q).0| <= q.pageSize
  {
  }

  // ---------------------------------------------------------------- update_task

  datatype TaskUpdate = TaskUpdate(
    taskId: Id,
    userId: Id,
    title: Option<string>,
    description: Option<string>,
    status: Option<TaskStatus>,
    priority: Option<TaskPriority>,
    dueDate: Option<Instant>,
    tags: Option<seq<Option<string>>>)

  /** The checks of `update_task` on the fields of the request, in order, for a task
      the user owns. */
  function FieldError(stored: Task, u: TaskUpdate, now: Instant): Option<Error> {
    if TitleError(u.title).Some? then TitleError(u.title) else StatusDueError(stored.status, u, now)
  }

  /** The checks on a given title: not blank, and at most 500 characters before
      stripping. */
  function TitleError(title: Option<string>): Option<Error> {
    if title.Some? && Strip(title.value) == [] then Some(EmptyTaskTitle)
    else if title.Some? && |title.value| > MaxTitleLength then Some(TaskTitleTooLong)
    else None
  }

  /** The checks on the requested status, against the stored `status`, and on the
      requested due date. */
  function StatusDueError(status: TaskStatus, u: TaskUpdate, now: Instant): Option<Error> {
    if u.status.Some? && u.status.value != status && status == Done then Some(CannotReopen)
    else if u.dueDate.Some? && u.status == Some(InProgress) && u.dueDate.value < now then Some(PastDueInProgress)
    else None
  }

  /** All checks of `update_task`: the field checks, then the tag names. */
  function UpdateError(stored: Task, u: TaskUpdate, now: Instant): Option<Error> {
    if FieldError(stored, u, now).Some? then FieldError(stored, u, now)
    else if u.tags.Some? && TagService.Normalize(u.tags).Err? then Some(TagService.Normalize(u.tags).error)
    else None
  }

  /** The tags an update asks for, once normalised. */
  function RequestedTags(u: TaskUpdate): Option<seq<string>> {
    if u.tags.Some? && TagService.Normalize(u.tags).Ok? then Some(TagService.Normalize(u.tags).value) else None
  }

  /** The task the update asks for: each given field replaced by its cleaned value. */
  function Requested(stored: Task, u: TaskUpdate): Task {
    stored.(
      title := if u.title.Some? then Strip(u.title.value) else stored.title,
      description := if u.description.Some? then CleanDescription(u.description) else stored.description,
      status := if u.status.Some? then u.status.value else stored.status,
      priority := if u.priority.Some? then u.priority.value else stored.priority,
      dueDate := if u.dueDate.Some? then u.dueDate else stored.dueDate,
      tags := if RequestedTags(u).Some? then RequestedTags(u).value else stored.tags)
  }

  /** The entry of the `changes` dictionary for one field, present when the field's
      value differs between `a` and `b`. */
  function FieldChange(a: Task, b: Task, f: Field): Option<Change> {
    match f
    case TitleField => if a.title != b.title then Some(TitleChange(a.title, b.title)) else None
    case DescriptionField =>
      if a.description != b.description then Some(DescriptionChange(a.description, b.description)) else None
    case StatusField => if a.status != b.status then Some(StatusChange(a.status, b.status)) else None
    case PriorityField => if a.priority != b.priority then Some(PriorityChange(a.priority, b.priority)) else None
    case DueDateField =>
      if a.dueDate != b.dueDate && b.dueDate.Some? then Some(DueDateChange(a.dueDate, b.dueDate.value)) else None
    case TagsField => if a.tags != b.tags then Some(TagsChange(a.tags, b.tags)) else None
  }

  /** The `changes` dictionary between two versions of a task. */
  function Diff(a: Task, b: Task): map<Field, Change> {
    map f: Field | FieldChange(a, b, f).Some? :: FieldChange(a, b, f).value
  }

  /** The in-memory task during `update_task`, with the changes recorded so far. */
  datatype Draft = Draft(task: Task, changes: map<Field, Change>)

  /** The recorded changes are exactly the differences from the stored task, and the
      modification time has moved only if something changed. */
  predicate Tracks(stored: Task, d: Draft) {
    && d.changes == Diff(stored, d.task)
    && (d.changes == map[] ==> d.task.updatedAt == stored.updatedAt)
  }

  /** Changing one field of a task whose field still has its stored value adds that
      field's entry to the differences, if the new value differs. */
  lemma DiffExtend(a: Task, b: Task, b2: Task, f: Field)
    requires forall g :: g != f ==> FieldChange(a, b2, g) == FieldChange(a, b, g)
    requires FieldChange(a, b, f).None?
    ensures FieldChange(a, b2, f).Some? ==> Diff(a, b2) == Diff(a, b)[f := FieldChange(a, b2, f).value]
    ensures FieldChange(a, b2, f).None? ==> Diff(a, b2) == Diff(a, b)
  {
    if FieldChange(a, b2, f).Some? {
      assert Diff(a, b2).Keys == Diff(a, b).Keys + {f};
    } else {
      assert Diff(a, b2).Keys == Diff(a, b).Keys;
    }
  }

  function ApplyTitle(d: Draft, title: Option<string>): Result<Draft> {
    if title.None? then Ok(d)
    else if TitleError(title).Some? then Err(TitleError(title).value)
    else if Strip(title.value) != d.task.title then
      Ok(Draft(d.task.(title := Strip(title.value)), d.changes[TitleField := TitleChange(d.task.title, Strip(title.value))]))
    else Ok(d)
  }

  function ApplyDescription(d: Draft, description: Option<string>): Draft {
    if description.None? then d
    else
      var n := CleanDescription(description);
      if n != d.task.description then
        Draft(d.task.(description := n), d.changes[DescriptionField := DescriptionChange(d.task.description, n)])
      else d
  }

  function ApplyStatus(d: Draft, status: Option<TaskStatus>, now: Instant): Result<Draft> {
    if status.None? || status.value == d.task.status then Ok(d)
    else if d.task.status == Done then Err(CannotReopen)
    else
      var s := status.value;
      var t := if s == Done then MarkAsDone(d.task, now)
               else if s == InProgress then MarkAsInProgress(d.task, now)
               else d.task.(status := s, updatedAt := now);
      Ok(Draft(t, d.changes[StatusField := StatusChange(d.task.status, s)]))
  }

  function ApplyPriority(d: Draft, priority: Option<TaskPriority>): Draft {
    if priority.None? || priority.value == d.task.priority then d
    else Draft(d.task.(priority := priority.value), d.changes[PriorityField := PriorityChange(d.task.priority, priority.value)])
  }

  /** The past-due check looks at the requested status, not at the task's. */
  function ApplyDueDate(d: Draft, due: Option<Instant>, status: Option<TaskStatus>, now: Instant): Result<Draft> {
    if due.None? then Ok(d)
    else if status == Some(InProgress) && due.value < now then Err(PastDueInProgress)
    else if due != d.task.dueDate then
      Ok(Draft(d.task.(dueDate := due), d.changes[DueDateField := DueDateChange(d.task.dueDate, due.value)]))
    else Ok(d)
  }

  /** Whether the resolved tags count as a change. The service means to compare tag
      names with the task's names; as written it compares tag entities with names,
      which differ unless both lists are empty. */
  predicate TagsDiffer(asWritten: bool, names: seq<string>, current: seq<string>) {
    if asWritten then !(names == [] && current == []) else names != current
  }

  function ApplyTags(d: Draft, names: Option<seq<string>>, asWritten: bool): Draft {
    if names.None? || !TagsDiffer(asWritten, names.value, d.task.tags) then d
    else Draft(d.task.(tags := names.value), d.changes[TagsField := TagsChange(d.task.tags, names.value)])
  }

  lemma TitleStep(s: Task, d: Draft, title: Option<string>)
    requires Tracks(s, d) && d.task.title == s.title
    requires ApplyTitle(d, title).Ok?
    ensures Tracks(s, ApplyTitle(d, title).value)
    ensures ApplyTitle(d, title).value.task == d.task.(title := if title.Some? then Strip(title.value) else d.task.title)
  {
    if title.Some? && Strip(title.value) != d.task.title {
      var n := Strip(title.value);
      TitleRecorded(s, d, n);
      assert ApplyTitle(d, title) == Ok(Draft(d.task.(title := n), d.changes[TitleField := TitleChange(d.task.title, n)]));
    } else {
      assert ApplyTitle(d, title) == Ok(d);
    }
  }

  /** Recording a new title keeps the draft in step with its differences. */
  lemma TitleRecorded(s: Task, d: Draft, n: string)
    requires Tracks(s, d) && d.task.title == s.title && n != d.task.title
    ensures Tracks(s, Draft(d.task.(title := n), d.changes[TitleField := TitleChange(d.task.title, n)]))
  {
    DiffExtend(s, d.task, d.task.(title := n), TitleField);
  }

  lemma DescriptionStep(s: Task, d: Draft, description: Option<string>)
    requires Tracks(s, d) && d.task.description == s.description
    ensures Tracks(s, ApplyDescription(d, description))
    ensures ApplyDescription(d, description).task ==
              d.task.(description := if description.Some? then CleanDescription(description) else d.task.description)
  {
    if description.Some? && CleanDescription(description) != d.task.description {
      var n := CleanDescription(description);
      DescriptionRecorded(s, d, n);
      assert ApplyDescription(d, description) ==
               Draft(d.task.(description := n), d.changes[DescriptionField := DescriptionChange(d.task.description, n)]);
    } else {
      assert ApplyDescription(d, description) == d;
    }
  }

  /** Recording a new description keeps the draft in step with its differences. */
  lemma DescriptionRecorded(s: Task, d: Draft, n: Option<string>)
    requires Tracks(s, d) && d.task.description == s.description && n != d.task.description
    ensures Tracks(s, Draft(d.task.(description := n), d.changes[DescriptionField := DescriptionChange(d.task.description, n)]))
  {
    DiffExtend(s, d.task, d.task.(description := n), DescriptionField);
  }

  lemma StatusStep(s: Task, d: Draft, status: Option<TaskStatus>, now: Instant)
    requires Tracks(s, d) && d.task.status == s.status
    requires ApplyStatus(d, status, now).Ok?
    ensures Tracks(s, ApplyStatus(d, status, now).value)
    ensures ApplyStatus(d, status, now).value.task.(updatedAt := d.task.updatedAt) ==
              d.task.(status := if status.Some? then status.value else d.task.status)
  {
    var r := ApplyStatus(d, status, now).value;
    DiffExtend(s, d.task, r.task, StatusField);
    if r.task.status != d.task.status {
      assert StatusField in r.changes;
    }
  }

  lemma PriorityStep(s: Task, d: Draft, priority: Option<TaskPriority>)
    requires Tracks(s, d) && d.task.priority == s.priority
    ensures Tracks(s, ApplyPriority(d, priority))
    ensures ApplyPriority(d, priority).task == d.task.(priority := if priority.Some? then priority.value else d.task.priority)
  {
    DiffExtend(s, d.task, ApplyPriority(d, priority).task, PriorityField);
  }

  lemma DueDateStep(s: Task, d: Draft, due: Option<Instant>, status: Option<TaskStatus>, now: Instant)
    requires Tracks(s, d) && d.task.dueDate == s.dueDate
    requires ApplyDueDate(d, due, status, now).Ok?
    ensures Tracks(s, ApplyDueDate(d, due, status, now).value)
    ensures ApplyDueDate(d, due, status, now).value.task == d.task.(dueDate := if due.Some? then due else d.task.dueDate)
  {
    var r := ApplyDueDate(d, due, status, now).value;
    DiffExtend(s, d.task, r.task, DueDateField);
  }

  lemma TagsStep(s: Task, d: Draft, names: Option<seq<string>>)
    requires Tracks(s, d) && d.task.tags == s.tags
    ensures Tracks(s, ApplyTags(d, names, false))
    ensures ApplyTags(d, names, false).task == d.task.(tags := if names.Some? then names.value else d.task.tags)
  {
    DiffExtend(s, d.task, ApplyTags(d, names, false).task, TagsField);
  }

  /** The tag resolution of an update: none without a tag list. */
  function ResolveTags(w: World, tags: Option<seq<Option<string>>>): (r: Result<Option<TagService.Resolution>>)
    ensures r.Err? <==> tags.Some? && TagService.Normalize(tags).Err?
    ensures r.Err? ==> r.error == TagService.Normalize(tags).error
    ensures r.Ok? ==> (r.value.None? <==> tags.None?)
    ensures r.Ok? && r.value.Some? ==>
              && r.value == Some(TagService.EnsureTagsExist(w.tags, tags).value)
              && Names(r.value.value.tags) == TagService.Normalize(tags).value
              && (forall n :: n in w.tags.ids ==> n in r.value.value.store.ids && r.value.value.store.ids[n] == w.tags.ids[n])
              && (TagRepository.Valid(w.tags) ==> TagRepository.Valid(r.value.value.store))
              && (forall n :: n in Names(r.value.value.tags) ==> n in r.value.value.store.ids)
  {
    if tags.None? then Ok(None)
    else
      var res :- TagService.EnsureTagsExist(w.tags, tags);
      TagService.EnsureTagsExistStable(w.tags, tags);
      Ok(Some(res))
  }

  function Updated(u: TaskUpdate, changes: map<Field, Change>, now: Instant): AuditEvent {
    AuditEvent(Some(u.userId), TaskUpdated, Some(u.taskId), None, TaskChanges(changes), now)
  }

  /** The draft after the fields other than the tags have been applied to the stored
      task. */
  function Drafted(s: Task, u: TaskUpdate, now: Instant): Result<Draft> {
    var d1 :- ApplyTitle(Draft(s, map[]), u.title);
    DraftRest(ApplyDescription(d1, u.description), u, now)
  }

  /** The steps after the title and the description: status, priority, due date. */
  function DraftRest(d2: Draft, u: TaskUpdate, now: Instant): Result<Draft> {
    var d3 :- ApplyStatus(d2, u.status, now);
    var d4 := ApplyPriority(d3, u.priority);
    ApplyDueDate(d4, u.dueDate, u.status, now)
  }

  /** Without a field error, applying the fields one by one yields the requested task
      (tags aside) with exactly its differences recorded. */
  lemma DraftedSpec(s: Task, u: TaskUpdate, now: Instant)
    requires FieldError(s, u, now).None?
    ensures var r := Drafted(s, u, now);
            && r.Ok?
            && Tracks(s, r.value)
            && r.value.task.(updatedAt := s.updatedAt) == Requested(s, u).(tags := s.tags)
  {
    var d0 := Draft(s, map[]);
    assert Diff(s, s) == map[];
    TitleStep(s, d0, u.title);
    var d1 := ApplyTitle(d0, u.title).value;
    DescriptionStep(s, d1, u.description);
    var d2 := ApplyDescription(d1, u.description);
    StatusStep(s, d2, u.status, now);
    var d3 := ApplyStatus(d2, u.status, now).value;
    PriorityStep(s, d3, u.priority);
    var d4 := ApplyPriority(d3, u.priority);
    DueDateStep(s, d4, u.dueDate, u.status, now);
  }

  /** With a field error, the draft fails with exactly that error. */
  lemma DraftedError(s: Task, u: TaskUpdate, now: Instant)
    requires FieldError(s, u, now).Some?
    ensures Drafted(s, u, now) == Err(FieldError(s, u, now).value)
  {
    var t1 := ApplyTitle(Draft(s, map[]), u.title);
    if t1.Ok? {
      var d2 := ApplyDescription(t1.value, u.description);
      assert d2.task.status == s.status;
      DraftRestError(d2, u, now);
    }
  }

  /** With a status or due-date error, the remaining steps fail with exactly that
      error. */
  lemma DraftRestError(d: Draft, u: TaskUpdate, now: Instant)
    requires StatusDueError(d.task.status, u, now).Some?
    ensures DraftRest(d, u, now) == Err(StatusDueError(d.task.status, u, now).value)
  {
  }

  /** `update_task`, with the tag comparison chosen by `asWritten`. Each given field is
      validated and compared with the stored value; an update that changes nothing
      writes nothing but the tags it resolved. */
  function UpdateWith(w: World, u: TaskUpdate, now: Instant, asWritten: bool): Result<(World, Task, map<Field, Change>)> {
    var s :- GetTaskById(w, u.taskId, u.userId);
    var d :- Drafted(s, u, now);
    var res :- ResolveTags(w, u.tags);
    Commit(w, u, now, d, res, asWritten)
  }

  /** The end of `update_task`: apply the resolved tags, then write the row and the
      audit event if anything changed. */
  function Commit(w: World, u: TaskUpdate, now: Instant, d: Draft, res: Option<TagService.Resolution>, asWritten: bool): Result<(World, Task, map<Field, Change>)> {
    var d6 := ApplyTags(d, if res.Some? then Some(Names(res.value.tags)) else None, asWritten);
    var w1 := if res.Some? then w.(tags := res.value.store) else w;
    if d6.changes == map[] then Ok((w1, d6.task, map[]))
    else
      var (w2, t) :- TaskRepository.Update(w1, d6.task.(updatedAt := now));
      if asWritten && res.Some? && Names(res.value.tags) != [] then Err(TagNotBindable)
      else Ok((AddAudit(w2, Updated(u, d6.changes, now)), t, d6.changes))
  }

  /** As written, the task handed to the repository holds `Tag` entities, and the
      repository's update binds each of them where a tag name is expected, which the
      database driver refuses once it has found the row. */
  const TagNotBindable: Error := DatabaseError("a Tag entity is bound as a tag name")

  /** What an update that passed its checks writes: nothing but tags when there are no
      changes; otherwise the row, with the new modification time, and an audit event
      carrying the changes. Stored tags keep their ids. */
  predicate Written(w: World, u: TaskUpdate, now: Instant, s: Task, w': World, t: Task, changes: map<Field, Change>) {
    && (changes == map[] ==> t == s && w'.tasks == w.tasks && w'.audit == w.audit)
    && (changes != map[] ==>
          && t.updatedAt == now
          && w'.audit == w.audit + [Updated(u, changes, now)]
          && |w'.tasks| == |w.tasks|
          && (forall i :: 0 <= i < |w.tasks| ==>
                w'.tasks[i] == if w.tasks[i].id == u.taskId then TaskRepository.Merge(w.tasks[i], t) else w.tasks[i]))
    && (forall n :: n in w.tags.ids ==> n in w'.tags.ids && w'.tags.ids[n] == w.tags.ids[n])
    && (TagRepository.Valid(w.tags) ==> TagRepository.Valid(w'.tags))
    && w'.attachments == w.attachments && w'.reminders == w.reminders && w'.nextId == w.nextId
  }

  lemma CommitSpec(w: World, u: TaskUpdate, now: Instant, s: Task, d: Draft, res: Option<TagService.Resolution>, names: Option<seq<string>>)
    requires FindTask(w.tasks, u.taskId) == Some(s)
    requires Tracks(s, d) && d.task.tags == s.tags
    requires d.task.id == s.id && d.task.ownerId == s.ownerId && d.task.createdAt == s.createdAt
    requires d.task.dueDate == s.dueDate || d.task.dueDate.Some?
    requires res.Some? <==> names.Some?
    requires res.Some? ==> Names(res.value.tags) == names.value
    requires res.Some? ==> forall n :: n in w.tags.ids ==> n in res.value.store.ids && res.value.store.ids[n] == w.tags.ids[n]
    requires res.Some? ==> (TagRepository.Valid(w.tags) ==> TagRepository.Valid(res.value.store))
    ensures var r := Commit(w, u, now, d, res, false);
            && r.Ok?
            && r.value.1.(updatedAt := s.updatedAt) == d.task.(updatedAt := s.updatedAt, tags := if names.Some? then names.value else s.tags)
            && r.value.2 == Diff(s, r.value.1)
            && Written(w, u, now, s, r.value.0, r.value.1, r.value.2)
  {
    TagsStep(s, d, names);
    var d6 := ApplyTags(d, names, false);
    var w1 := if res.Some? then w.(tags := res.value.store) else w;
    assert FindTask(w1.tasks, u.taskId) == Some(s);
    if d6.changes != map[] {
      var t' := d6.task.(updatedAt := now);
      TagService.CreateAllPreserves(w1.tags, t'.tags);
      assert TaskRepository.Merge(s, t') == t';
      DiffIgnoresUpdatedAt(s, d6.task, now);
    } else {
      NoDiffMeansEqual(s, d6.task);
      assert d6.task == s;
    }
  }

  /** Two versions without differences agree on every field the changes cover. */
  lemma NoDiffMeansEqual(a: Task, b: Task)
    requires Diff(a, b) == map[]
    requires b.dueDate == a.dueDate || b.dueDate.Some?
    ensures b.title == a.title && b.description == a.description && b.status == a.status
    ensures b.priority == a.priority && b.dueDate == a.dueDate && b.tags == a.tags
  {
    assert TitleField !in Diff(a, b) && DescriptionField !in Diff(a, b) && StatusField !in Diff(a, b);
    assert PriorityField !in Diff(a, b) && DueDateField !in Diff(a, b) && TagsField !in Diff(a, b);
  }

  /** The end of an update succeeds whenever the task row exists; as written it fails
      exactly when some tag was resolved, and otherwise agrees with the corrected end. */
  lemma CommitVersions(w: World, u: TaskUpdate, now: Instant, d: Draft, res: Option<TagService.Resolution>)
    requires FindTask(w.tasks, d.task.id).Some?
    ensures Commit(w, u, now, d, res, false).Ok?
    ensures Commit(w, u, now, d, res, true) ==
              if res.Some? && Names(res.value.tags) != [] then Err(TagNotBindable)
              else Commit(w, u, now, d, res, false)
  {
    var w1 := if res.Some? then w.(tags := res.value.store) else w;
    assert w1.tasks == w.tasks;
    var names := if res.Some? then Some(Names(res.value.tags)) else None;
    if res.Some? && Names(res.value.tags) != [] {
      assert TagsField in ApplyTags(d, names, true).changes;
    } else {
      assert ApplyTags(d, names, true) == ApplyTags(d, names, false);
    }
  }

  lemma DiffIgnoresUpdatedAt(a: Task, b: Task, x: Instant)
    ensures Diff(a, b.(updatedAt := x)) == Diff(a, b)
  {
    assert forall f :: FieldChange(a, b.(updatedAt := x), f) == FieldChange(a, b, f);
  }

  /** What `update_task` does to a task the user owns: the first failing check is
      the error; otherwise the result is the requested task, and the changes are its
      differences from the stored task. */
  predicate UpdateOutcome(w: World, u: TaskUpdate, now: Instant, s: Task, r: Result<(World, Task, map<Field, Change>)>) {
    && (UpdateError(s, u, now).Some? ==> r == Err(UpdateError(s, u, now).value))
    && (UpdateError(s, u, now).None? ==> r.Ok?)
    && (r.Ok? ==>
        && r.value.1.(updatedAt := s.updatedAt) == Requested(s, u)
        && r.value.2 == Diff(s, Requested(s, u))
        && Written(w, u, now, s, r.value.0, r.value.1, r.value.2))
  }

  lemma UpdateSpec(w: World, u: TaskUpdate, now: Instant)
    ensures GetTaskById(w, u.taskId, u.userId).Ok? ==>
              UpdateOutcome(w, u, now, GetTaskById(w, u.taskId, u.userId).value, UpdateWith(w, u, now, false))
  {
    if GetTaskById(w, u.taskId, u.userId).Ok? {
      UpdateSpecOk(w, u, now);
    }
  }

  lemma UpdateSpecOk(w: World, u: TaskUpdate, now: Instant)
    requires GetTaskById(w, u.taskId, u.userId).Ok?
    ensures UpdateOutcome(w, u, now, GetTaskById(w, u.taskId, u.userId).value, UpdateWith(w, u, now, false))
  {
    var s := GetTaskById(w, u.taskId, u.userId).value;
    if FieldError(s, u, now).Some? {
      DraftedError(s, u, now);
    } else {
      DraftedSpec(s, u, now);
      var d5 := Drafted(s, u, now).value;
      var res := ResolveTags(w, u.tags);
      if res.Ok? {
        var names := if res.value.Some? then Some(Names(res.value.value.tags)) else None;
        CommitSpec(w, u, now, s, d5, res.value, names);
        var r := Commit(w, u, now, d5, res.value, false);
        assert r.value.1.(updatedAt := s.updatedAt) == Requested(s, u);
        DiffIgnoresUpdatedAt(s, r.value.1, s.updatedAt);
      }
    }
  }

  /** `update_task`. */
  function UpdateTask(w: World, u: TaskUpdate, now: Instant): (r: Result<(World, Task, map<Field, Change>)>)
    ensures GetTaskById(w, u.taskId, u.userId).Err? ==> r == Err(GetTaskById(w, u.taskId, u.userId).error)
    ensures GetTaskById(w, u.taskId, u.userId).Ok? ==> UpdateOutcome(w, u, now, GetTaskById(w, u.taskId, u.userId).value, r)
  {
    UpdateSpec(w, u, now);
    UpdateWith(w, u, now, false)
  }

  /** A task that was done stays done through any successful update. */
  lemma CompletedTaskStaysDone(w: World, u: TaskUpdate, now: Instant)
    requires UpdateTask(w, u, now).Ok?
    requires GetTaskById(w, u.taskId, u.userId).value.status == Done
    ensures UpdateTask(w, u, now).value.1.status == Done
  {
    var s := GetTaskById(w, u.taskId, u.userId).value;
    assert UpdateError(s, u, now).None?;
  }

  /** Every task an update returns satisfies the guarantees of stored tasks, provided
      the stored one did. */
  lemma UpdatePreservesWellFormed(w: World, u: TaskUpdate, now: Instant)
    requires UpdateTask(w, u, now).Ok?
    requires WellFormed(GetTaskById(w, u.taskId, u.userId).value)
    ensures WellFormed(UpdateTask(w, u, now).value.1)
  {
    var s := GetTaskById(w, u.taskId, u.userId).value;
    var t := UpdateTask(w, u, now).value.1;
    assert UpdateError(s, u, now).None?;
    RequestedWellFormed(s, u, now);
    SameUpToTime(t, Requested(s, u), s.updatedAt);
  }

  /** The task an update that passes its checks asks for keeps the guarantees of stored
      tasks. */
  lemma RequestedWellFormed(s: Task, u: TaskUpdate, now: Instant)
    requires WellFormed(s)
    requires UpdateError(s, u, now).None?
    ensures WellFormed(Requested(s, u))
  {
    var r := Requested(s, u);
    assert IsTitle(r.title) by {
      if u.title.Some? {
        assert FieldError(s, u, now).None?;
        StripProperties(u.title.value);
      }
    }
    assert r.tags == s.tags || r.tags == TagService.Normalize(u.tags).value;
    if r.tags != s.tags {
      var n := TagService.Normalize(u.tags);
      assert n.Ok? && TagService.DistinctLowers(n.value) && TagService.AllTagNames(n.value);
    }
  }

  /** Tasks that differ only in their modification time are equally well formed. */
  lemma SameUpToTime(t: Task, r: Task, x: Instant)
    requires t.(updatedAt := x) == r
    ensures WellFormed(t) <==> WellFormed(r)
  {
    assert t.title == r.title && t.description == r.description && t.tags == r.tags;
  }

  /** After an update the task is readable under its id and is the updated task, and
      the world stays consistent. */
  lemma UpdateThenGet(w: World, u: TaskUpdate, now: Instant)
    requires Consistent(w)
    requires UpdateTask(w, u, now).Ok?
    ensures var (w', t, _) := UpdateTask(w, u, now).value;
            GetTaskById(w', u.taskId, u.userId) == Ok(t) && Consistent(w')
  {
    var s := GetTaskById(w, u.taskId, u.userId).value;
    var (w', t, changes) := UpdateTask(w, u, now).value;
    assert Written(w, u, now, s, w', t, changes);
    assert t.id == s.id && t.ownerId == s.ownerId && t.createdAt == s.createdAt by {
      assert t.(updatedAt := s.updatedAt) == Requested(s, u);
    }
    var i :| 0 <= i < |w.tasks| && w.tasks[i] == s;
    WrittenConsistent(w, u, now, s, w', t, changes, i);
  }

  /** A world written by an update stays consistent and holds the returned task under
      its id. */
  lemma WrittenConsistent(w: World, u: TaskUpdate, now: Instant, s: Task, w': World, t: Task,
                          changes: map<Field, Change>, i: nat)
    requires Consistent(w) && i < |w.tasks| && w.tasks[i] == s && s.id == u.taskId
    requires t.id == s.id && t.ownerId == s.ownerId && t.createdAt == s.createdAt
    requires Written(w, u, now, s, w', t, changes)
    ensures FindTask(w'.tasks, u.taskId) == Some(t) && Consistent(w')
  {
    if changes != map[] {
      RowsRewritten(w.tasks, w'.tasks, t, i);
    } else {
      FindTaskUnique(w.tasks, u.taskId, i);
    }
  }

  /** Rewriting the row with `t`'s id keeps every id in place, so the ids stay unique
      and the row reads back as `t`. */
  lemma RowsRewritten(a: seq<Task>, b: seq<Task>, t: Task, i: nat)
    requires UniqueTaskIds(a) && i < |a| && a[i].id == t.id
    requires t.ownerId == a[i].ownerId && t.createdAt == a[i].createdAt
    requires |b| == |a|
    requires forall k :: 0 <= k < |a| ==> b[k] == if a[k].id == t.id then TaskRepository.Merge(a[k], t) else a[k]
    ensures forall k :: 0 <= k < |b| ==> b[k].id == a[k].id
    ensures UniqueTaskIds(b)
    ensures FindTask(b, t.id) == Some(t)
  {
    assert forall k :: 0 <= k < |b| ==> b[k].id == a[k].id;
    assert b[i] == t;
    FindTaskUnique(b, t.id, i);
  }

  /** An update whose every given field already has the requested value changes
      nothing and returns the task as stored. */
  lemma NoChangeWhenRequested(w: World, u: TaskUpdate, now: Instant, t: Task)
    requires GetTaskById(w, u.taskId, u.userId) == Ok(t)
    requires UpdateError(t, u, now).None?
    requires Requested(t, u) == t
    ensures UpdateTask(w, u, now).Ok?
    ensures UpdateTask(w, u, now).value.1 == t && UpdateTask(w, u, now).value.2 == map[]
  {
    assert Diff(t, t) == map[];
  }

  /** Repeating a successful update at the same instant changes nothing: every field
      already has the requested value. */
  lemma UpdateIdempotent(w: World, u: TaskUpdate, now: Instant)
    requires Consistent(w)
    requires UpdateTask(w, u, now).Ok?
    ensures var (w', t, _) := UpdateTask(w, u, now).value;
            UpdateTask(w', u, now).Ok? &&
            UpdateTask(w', u, now).value.1 == t &&
            UpdateTask(w', u, now).value.2 == map[]
  {
    var s := GetTaskById(w, u.taskId, u.userId).value;
    var r := UpdateTask(w, u, now);
    var w' := r.value.0;
    var t := r.value.1;
    assert UpdateError(s, u, now).None?;
    assert t.(updatedAt := s.updatedAt) == Requested(s, u);
    UpdateThenGet(w, u, now);
    assert FieldError(t, u, now).None?;
    assert UpdateError(t, u, now).None?;
    assert Requested(t, u) == t;
    NoChangeWhenRequested(w', u, now, t);
  }

  /** The update asks for at least one tag once its tag list is normalised. */
  predicate ResolvesSomeTag(u: TaskUpdate) {
    RequestedTags(u).Some? && RequestedTags(u).value != []
  }

  /** `update_task` as written: the resolved `Tag` entities are compared with the
      task's tag names, so they always differ unless both lists are empty, and are
      stored into the task, so the repository's update binds entities as tag names.
      It fails wherever the corrected update fails, fails on every update that asks
      for a tag, and agrees with the corrected update on all others. */
  function UpdateTaskAsWritten(w: World, u: TaskUpdate, now: Instant): (r: Result<(World, Task, map<Field, Change>)>)
    ensures UpdateTask(w, u, now).Err? ==> r == UpdateTask(w, u, now)
    ensures UpdateTask(w, u, now).Ok? && ResolvesSomeTag(u) ==> r == Err(TagNotBindable)
    ensures UpdateTask(w, u, now).Ok? && !ResolvesSomeTag(u) ==> r == UpdateTask(w, u, now)
  {
    AsWrittenVersusCorrected(w, u, now);
    UpdateWith(w, u, now, true)
  }

  lemma AsWrittenVersusCorrected(w: World, u: TaskUpdate, now: Instant)
    ensures UpdateWith(w, u, now, false).Err? ==> UpdateWith(w, u, now, true) == UpdateWith(w, u, now, false)
    ensures UpdateWith(w, u, now, false).Ok? ==>
              UpdateWith(w, u, now, true) ==
                if ResolvesSomeTag(u) then Err(TagNotBindable) else UpdateWith(w, u, now, false)
  {
    var g := GetTaskById(w, u.taskId, u.userId);
    if g.Ok? && Drafted(g.value, u, now).Ok? && ResolveTags(w, u.tags).Ok? {
      var s := g.value;
      if FieldError(s, u, now).Some? {
        DraftedError(s, u, now);
        assert false;
      }
      DraftedSpec(s, u, now);
      var d := Drafted(s, u, now).value;
      assert d.task.id == s.id;
      var res := ResolveTags(w, u.tags).value;
      CommitVersions(w, u, now, d, res);
      assert (res.Some? && Names(res.value.tags) != []) == ResolvesSomeTag(u);
    }
  }

  /** A single tag name normalises to itself. */
  lemma NormalizeSingle(name: string)
    requires TagService.IsTagName(name)
    ensures TagService.Normalize(Some([Some(name)])) == Ok([name])
  {
    var names := [name];
    assert TagService.AllTagNames(names);
    assert TagService.Wrap(names) == [Some(name)];
    TagService.CleanedOfWrap(names);
    TagService.WrapNotOverlong(names);
    TagService.HasOverlongIffSome(TagService.Wrap(names));
    TagService.FirstSpellingsOfDistinct(names);
  }

  /** Re-sending the single tag a task already carries: the service reports no change,
      while the code as written fails in the repository's update. */
  lemma RepeatedTagFailsAsWritten(w: World, s: Task, name: string, now: Instant)
    requires GetTaskById(w, s.id, s.ownerId) == Ok(s)
    requires s.tags == [name] && TagService.IsTagName(name)
    ensures var u := TaskUpdate(s.id, s.ownerId, None, None, None, None, None, Some([Some(name)]));
            && UpdateTask(w, u, now).Ok? && UpdateTask(w, u, now).value.2 == map[]
            && UpdateTaskAsWritten(w, u, now) == Err(TagNotBindable)
  {
    var u := TaskUpdate(s.id, s.ownerId, None, None, None, None, None, Some([Some(name)]));
    RepeatedTagUnchanged(w, s, name, now, u);
  }

  lemma RepeatedTagUnchanged(w: World, s: Task, name: string, now: Instant, u: TaskUpdate)
    requires GetTaskById(w, s.id, s.ownerId) == Ok(s)
    requires s.tags == [name] && TagService.IsTagName(name)
    requires u == TaskUpdate(s.id, s.ownerId, None, None, None, None, None, Some([Some(name)]))
    ensures RequestedTags(u) == Some([name])
    ensures UpdateTask(w, u, now).Ok? && UpdateTask(w, u, now).value.2 == map[]
  {
    SameTagRequest(s, name, now, u);
    NoChangeWhenRequested(w, u, now, s);
  }

  /** Asking for the one tag a task carries passes the checks and asks for the task as
      it is. */
  lemma SameTagRequest(s: Task, name: string, now: Instant, u: TaskUpdate)
    requires s.tags == [name] && TagService.IsTagName(name)
    requires u == TaskUpdate(s.id, s.ownerId, None, None, None, None, None, Some([Some(name)]))
    ensures RequestedTags(u) == Some([name])
    ensures UpdateError(s, u, now).None?
    ensures Requested(s, u) == s
  {
    NormalizeSingle(name);
    assert TagService.Normalize(u.tags) == Ok([name]);
    assert FieldError(s, u, now).None?;
    var r := Requested(s, u);
    assert r.title == s.title && r.description == s.description && r.status == s.status;
    assert r.priority == s.priority && r.dueDate == s.dueDate && r.tags == s.tags;
  }

  // ---------------------------------------------------------------- delete_task

  /** `delete_task`: record a `TASK_DELETED` event with the title and status, then
      delete the row. */
  function DeleteTask(w: World, taskId: Id, userId: Id, now: Instant): (r: Result<World>)
    ensures GetTaskById(w, taskId, userId).Err? <==> r.Err?
    ensures r.Err? ==> r.error == GetTaskById(w, taskId, userId).error
    ensures r.Ok? ==> var stored := GetTaskById(w, taskId, userId).value;
      && FindTask(r.value.tasks, taskId).None?
      && (forall t :: t in r.value.tasks <==> t in w.tasks && t.id != taskId)
      && (forall a :: a in r.value.attachments <==> a in w.attachments && a.taskId != taskId)
      && (forall m :: m in r.value.reminders <==> m in w.reminders && m.taskId != taskId)
      && |r.value.audit| == |w.audit| + 1
      && (forall i :: 0 <= i < |w.audit| ==> Detached(w.audit[i], r.value.audit[i]))
      && r.value.audit[|w.audit|] == AuditEvent(Some(userId), TaskDeleted, None, None, DeletedTask(stored.title, stored.status), now)
      && r.value.files == w.files && r.value.tags == w.tags && r.value.nextId == w.nextId
  {
    var stored :- GetTaskById(w, taskId, userId);
    var e := AuditEvent(Some(userId), TaskDeleted, Some(taskId), None, DeletedTask(stored.title, stored.status), now);
    var w1 := AddAudit(w, e);
    assert w1.audit[|w.audit|] == e;
    Ok(TaskRepository.Delete(w1, taskId))
  }
}

=== FILE: text.dfy ===
/** The string primitives the services use: Python's notion of whitespace,
    `str.strip` with and without a character set, `str.lower` and the
    `" ".join(s.split())` idiom that collapses runs of whitespace. */
module Text {
  import opened Seqs

  /** The characters for which Python's `str.isspace()` holds; `str.strip()`,
      `str.split()` and the regular-expression class `\s` all use this set. */
  const Whitespace: set<char> := {
    '\U{9}', '\U{A}', '\U{B}', '\U{C}', '\U{D}',
    '\U{1C}', '\U{1D}', '\U{1E}', '\U{1F}', ' ',
    '\U{85}', '\U{A0}', '\U{1680}',
    '\U{2000}', '\U{2001}', '\U{2002}', '\U{2003}', '\U{2004}', '\U{2005}',
    '\U{2006}', '\U{2007}', '\U{2008}', '\U{2009}', '\U{200A}',
    '\U{2028}', '\U{2029}', '\U{202F}', '\U{205F}', '\U{3000}'
  }

  predicate NoneIn(s: string, cs: set<char>) {
    forall i :: 0 <= i < |s| ==> s[i] !in cs
  }

  /** `s.lstrip(chars)`: the longest suffix of `s` that does not start with a
      character of `cs`. */
  function TrimLeft(s: string, cs: set<char>): (r: string)
    ensures |r| <= |s| && r == s[|s| - |r|..]
    ensures r == [] || r[0] !in cs
    ensures forall i :: 0 <= i < |s| - |r| ==> s[i] in cs
  {
    if |s| > 0 && s[0] in cs then TrimLeft(s[1..], cs) else s
  }

  /** `s.rstrip(chars)`: the longest prefix of `s` that does not end with a
      character of `cs`. */
  function TrimRight(s: string, cs: set<char>): (r: string)
    ensures |r| <= |s| && r == s[..|r|]
    ensures r == [] || r[|r| - 1] !in cs
    ensures forall i :: |r| <= i < |s| ==> s[i] in cs
  {
    if |s| > 0 && s[|s| - 1] in cs then TrimRight(s[..|s| - 1], cs) else s
  }

  /** `lstrip` leaves a string alone that does not start with a stripped character. */
  lemma TrimLeftKeeps(s: string, cs: set<char>)
    requires s == [] || s[0] !in cs
    ensures TrimLeft(s, cs) == s
  {
  }

  /** `rstrip` leaves a string alone that does not end with a stripped character. */
  lemma TrimRightKeeps(s: string, cs: set<char>)
    requires s == [] || s[|s| - 1] !in cs
    ensures TrimRight(s, cs) == s
  {
  }

  /** `s.strip(chars)`. */
  function Trim(s: string, cs: set<char>): (r: string)
    ensures |r| <= |s|
    ensures r == [] || (r[0] !in cs && r[|r| - 1] !in cs)
  {
    TrimRight(TrimLeft(s, cs), cs)
  }

  /** `s.strip()`. */
  function Strip(s: string): string {
    Trim(s, Whitespace)
  }

  /** `s.lstrip()`. */
  function LStrip(s: string): string {
    TrimLeft(s, Whitespace)
  }

  predicate IsBlank(s: string) {
    forall i :: 0 <= i < |s| ==> s[i] in Whitespace
  }

  /** The central part `Trim` keeps is an infix of `s`, and every character it drops
      from either end belongs to `cs`. */
  lemma TrimIsInfix(s: string, cs: set<char>)
    ensures exists a, b :: 0 <= a <= b <= |s| && Trim(s, cs) == s[a..b]
                           && (forall i :: 0 <= i < a ==> s[i] in cs)
                           && (forall i :: b <= i < |s| ==> s[i] in cs)
  {
    var l := TrimLeft(s, cs);
    var r := TrimRight(l, cs);
    var a := |s| - |l|;
    InfixOfSuffix(s, l, r, cs);
    assert Trim(s, cs) == r;
    assert Trim(s, cs) == s[a..a + |r|];
  }

  /** A prefix `r` of a suffix `l` of `s` is the infix of `s` between their ends; the
      characters after it are those `l` holds after `r`. */
  lemma InfixOfSuffix(s: string, l: string, r: string, cs: set<char>)
    requires |l| <= |s| && l == s[|s| - |l|..]
    requires |r| <= |l| && r == l[..|r|]
    requires forall i :: |r| <= i < |l| ==> l[i] in cs
    ensures var a := |s| - |l|;
            r == s[a..a + |r|] && forall i :: a + |r| <= i < |s| ==> s[i] in cs
  {
    var a := |s| - |l|;
    forall i | a + |r| <= i < |s| ensures s[i] in cs {
      assert s[i] == l[i - a];
    }
  }

  lemma TrimIdempotent(s: string, cs: set<char>)
    ensures Trim(Trim(s, cs), cs) == Trim(s, cs)
  {
    var r := Trim(s, cs);
    assert TrimLeft(r, cs) == r;
    assert TrimRight(r, cs) == r;
  }

  /** `Strip` drops exactly the blank strings. */
  lemma StripEmptyIffBlank(s: string)
    ensures Strip(s) == [] <==> IsBlank(s)
  {
    var l := TrimLeft(s, Whitespace);
    if l != [] {
      assert l[0] !in Whitespace;
      assert TrimRight(l, Whitespace) != [];
      assert s[|s| - |l|] !in Whitespace;
    }
  }

  // ---------------------------------------------------------------- case

  /** Lower-casing of one character, restricted to ASCII letters. */
  function LowerChar(c: char): (r: char)
    ensures 'A' <= c <= 'Z' ==> r as int == c as int + 32
    ensures !('A' <= c <= 'Z') ==> r == c
  {
    if 'A' <= c <= 'Z' then (c as int + 32) as char else c
  }

  /** `s.lower()` on ASCII letters; every other character is left unchanged. */
  function Lower(s: string): (r: string)
    ensures |r| == |s|
    ensures forall i :: 0 <= i < |s| ==> r[i] == LowerChar(s[i])
  {
    if s == [] then [] else [LowerChar(s[0])] + Lower(s[1..])
  }

  lemma LowerIdempotent(s: string)
    ensures Lower(Lower(s)) == Lower(s)
  {
  }

  lemma LowerAppend(a: string, b: string)
    ensures Lower(a + b) == Lower(a) + Lower(b)
  {
  }

  // ---------------------------------------------------------------- words

  /** A word of `str.split()`: non-empty and free of whitespace. */
  predicate IsWord(w: string) {
    w != [] && NoneIn(w, Whitespace)
  }

  /** The longest prefix of `s` that holds no whitespace. */
  function TakeWord(s: string): (w: string)
    ensures |w| <= |s| && w == s[..|w|]
    ensures NoneIn(w, Whitespace)
    ensures |w| < |s| ==> s[|w|] in Whitespace
    ensures s != [] && s[0] !in Whitespace ==> w != []
  {
    if s == [] || s[0] in Whitespace then [] else [s[0]] + TakeWord(s[1..])
  }

  /** `s.split()`: the maximal whitespace-free runs of `s`, in order. */
  function Words(s: string): seq<string>
    decreases |s|
  {
    var t := LStrip(s);
    if t == [] then [] else
      var w := TakeWord(t);
      [w] + Words(t[|w|..])
  }

  /** Every element of `s.split()` is a word. */
  lemma {:induction false} WordsAreWords(s: string)
    ensures forall k :: 0 <= k < |Words(s)| ==> IsWord(Words(s)[k])
    decreases |s|
  {
    var t := LStrip(s);
    if t != [] {
      var w := TakeWord(t);
      var rest := Words(t[|w|..]);
      WordsAreWords(t[|w|..]);
      assert Words(s) == [w] + rest;
      assert IsWord(w);
      forall k | 0 <= k < |Words(s)| ensures IsWord(Words(s)[k]) {
        if k > 0 {
          assert Words(s)[k] == rest[k - 1];
        }
      }
    }
  }

  /** `" ".join(words)`. */
  function Join(ws: seq<string>): string {
    if ws == [] then []
    else if |ws| == 1 then ws[0]
    else ws[0] + " " + Join(ws[1..])
  }

  /** `" ".join(s.split())`. */
  function Collapse(s: string): string {
    Join(Words(s))
  }

  /** The shape `Collapse` produces: no whitespace at either end, and every
      whitespace character inside is a single space between two non-spaces. */
  predicate Collapsed(s: string) {
    && (s == [] || (s[0] !in Whitespace && s[|s| - 1] !in Whitespace))
    && forall i :: 0 <= i < |s| && s[i] in Whitespace ==>
         s[i] == ' ' && 0 < i < |s| - 1 && s[i + 1] !in Whitespace
  }

  lemma LStripOfWord(w: string, rest: string)
    requires IsWord(w)
    ensures LStrip(w + rest) == w + rest
  {
  }

  lemma TakeWordOfJoin(w: string, rest: string)
    requires IsWord(w)
    requires rest == [] || rest[0] == ' '
    ensures TakeWord(w + rest) == w
    decreases |w|
  {
    if |w| > 1 {
      assert (w + rest)[1..] == w[1..] + rest;
      TakeWordOfJoin(w[1..], rest);
    } else {
      assert (w + rest)[1..] == rest;
    }
  }

  lemma WordsOfWordThen(w: string, rest: string)
    requires IsWord(w)
    requires rest == [] || rest[0] == ' '
    ensures Words(w + rest) == [w] + Words(rest)
  {
    LStripOfWord(w, rest);
    TakeWordOfJoin(w, rest);
    assert (w + rest)[|w|..] == rest;
  }

  lemma WordsSkipsLeadingSpace(s: string)
    ensures Words(" " + s) == Words(s)
  {
    assert LStrip(" " + s) == LStrip(s) by {
      assert (" " + s)[1..] == s;
    }
  }

  /** `split` undoes `join` on a list of words: the round trip behind the idempotence
      of `Collapse`. */
  lemma {:induction false} WordsOfJoin(ws: seq<string>)
    requires forall k :: 0 <= k < |ws| ==> IsWord(ws[k])
    ensures Words(Join(ws)) == ws
  {
    if ws == [] {
    } else if |ws| == 1 {
      assert ws[0] + [] == ws[0];
      WordsOfWordThen(ws[0], []);
      assert Words([]) == [];
      assert [ws[0]] == ws;
    } else {
      WordsOfJoin(ws[1..]);
      WordsOfJoinCons(ws);
    }
  }

  /** The step of `WordsOfJoin`: a word in front of a joined list it splits back. */
  lemma WordsOfJoinCons(ws: seq<string>)
    requires |ws| > 1 && IsWord(ws[0])
    requires Words(Join(ws[1..])) == ws[1..]
    ensures Words(Join(ws)) == ws
  {
    var tail := Join(ws[1..]);
    var rest := " " + tail;
    assert Join(ws) == ws[0] + rest;
    WordsOfWordThen(ws[0], rest);
    WordsSkipsLeadingSpace(tail);
    HeadTail(ws);
  }

  lemma {:induction false} JoinCollapsed(ws: seq<string>)
    requires forall k :: 0 <= k < |ws| ==> IsWord(ws[k])
    ensures Collapsed(Join(ws))
    ensures ws != [] ==> Join(ws) != []
  {
    if |ws| > 1 {
      JoinCollapsed(ws[1..]);
      var w, j := ws[0], Join(ws[1..]);
      var s := w + " " + j;
      assert Join(ws) == s;
      forall i | 0 <= i < |s| && s[i] in Whitespace
        ensures s[i] == ' ' && 0 < i < |s| - 1 && s[i + 1] !in Whitespace
      {
        if i == |w| {
          assert s[i + 1] == j[0];
        } else if i > |w| {
          assert s[i] == j[i - |w| - 1];
          assert s[i + 1] == j[i - |w|];
        }
      }
    }
  }

  /** The normalised message has the collapsed shape, and collapsing it again
      changes nothing. */
  lemma CollapseNormalises(s: string)
    ensures Collapsed(Collapse(s))
    ensures Collapse(Collapse(s)) == Collapse(s)
  {
    CollapseShape(s);
    WordsAreWords(s);
    WordsOfJoin(Words(s));
  }

  lemma CollapseShape(s: string)
    ensures Collapsed(Collapse(s))
  {
    WordsAreWords(s);
    JoinCollapsed(Words(s));
  }

  /** A string collapses to nothing exactly when it strips to nothing. */
  lemma {:induction false} CollapseEmptyIffStripEmpty(s: string)
    ensures Collapse(s) == [] <==> Strip(s) == []
  {
    var t := LStrip(s);
    StripEmptyIffBlank(s);
    if t == [] {
      assert IsBlank(s);
    } else {
      WordsAreWords(s);
      JoinCollapsed(Words(s));
      assert !IsBlank(s) by {
        assert s[|s| - |t|] !in Whitespace;
      }
    }
  }
}
